=== FILE: README.md ===
# Azure Batch Blender add-ons, modelled in Dafny

This project models the deterministic core of the two Blender add-ons in
`Blender.Client`. **Batched** (`batched_blender`) targets the Azure Batch
service directly. **Batch Apps** (`batchapps_blender`) is the older add-on.
Each add-on shows a panel of pages. From those pages a user
collects the assets of a scene, uploads them to blob storage, submits a
render job (one task per frame, sent in batches of 100), manages pools, and
pages through job lists. The Batch Apps add-on also signs the user in
through an OAuth redirect. A console script follows a submitted job.

Every Blender and SDK call is replaced by something Dafny can reason about:
- an abstract service state `Remote.RemoteState`, holding sets of job ids, pool ids and container names, a map of tasks and a set of blob names;
- oracle parameters, for the outcome of a service call or of a date-formatting handler;
- opaque functions, for `clean_name`, `unquote`, `realpath` and the MD5 digest.

Python exceptions are values. `Outcomes.Result` is either `Ok` or
`Raise(exc)`, and `Outcomes.Step` is a state plus the exception that ended
the step, if any. Python's indexing, slicing, `find`, `split`, `rjust` and
`int()` are written out in `PyStr`.

Modules follow the program's files:

| module | models |
|---|---|
| `Outcomes`, `PyStr`, `BlenderProps` | Python exceptions, strings and indexing; Blender's clamping of bounded integer properties |
| `Remote` | the service as seen by the add-ons |
| `Dates` | the shared `format_date` helper of the property modules |
| `DisplayList` | the object list and display list kept side by side by every property group |
| `AssetProps` | `props_assets.py` (identical in both add-ons) |
| `BatchedUtils`, `BatchedAssets`, `BatchedSubmission`, `BatchedJobs`, `BatchedPools` | `batched_blender/utils.py`, `assets.py`, `submission.py`, `jobs.py` with `props_jobs.py`, `pools.py` with `props_pools.py` |
| `BatchappsUtils`, `BatchappsAuth`, `BatchappsAssets`, `BatchappsSubmission`, `BatchappsHistory`, `BatchappsPools` | the Batch Apps add-on's `utils.py`, `auth.py`, `assets.py`, `submission.py` with `props_submission.py`, `history.py` with `props_history.py` and `ui_history.py`, `pools.py` with `props_pools.py` |
| `Watcher` | `batched_blender/scripts/job_watcher.py` |
| `Draw` | `batched_blender/draw.py` |

Several paths of the source are defective: unbound names, a misspelt
exception class, an identity-based duplicate test, a list filter that
cannot match, and a helper method that does not exist. The model follows
the code as written for these. Each is stated as a lemma about that
behaviour and listed under "Findings", next to a corrected definition whose
intended property is proved. The Batch Apps add-on also refers to scene
properties and classes under names that are never defined; there the model
takes each name as the one evidently meant, as "Left out" says. The two submissions are also given in corrected form
(`BatchedSubmission.SubmitJobIntended`, `BatchappsSubmission.SubmitJobIntended`),
built from the corrected pieces.

## Model

| member | source | states |
|---|---|---|
| Outcomes.PyIndex | Blender.Client/batchapps_blender/history.py:361 | Python list indexing: succeeds iff -len <= k < len, a negative index counts from the end, anything else raises IndexError |
| Dates.FormatIso | Blender.Client/batched_blender/props/props_assets.py:56-59 | splitting the ISO stamp at 'T' succeeds iff the stamp has a 'T'; without one the second piece is missing (IndexError), and a None datetime raises AttributeError |
| Dates.FormatDate | Blender.Client/batched_blender/props/props_assets.py:56-64 | a formatted stamp when the `try` succeeds; otherwise "" when the `except` clause itself is quiet, or that clause's exception |
| Dates.PoolHandler | Blender.Client/batched_blender/props/props_pools.py:48-51 | the pool `except` clause calls `creation_time.isoformat()` again, so it raises exactly when the creation time is None |
| Dates.JobHandler | Blender.Client/batched_blender/props/props_jobs.py:50-53 | the job `except` clause raises exactly when the job has no `time_submitted` attribute |
| Dates.FormatIsoFraction | Blender.Client/batched_blender/props/props_assets.py:56-59 | a stamp "date T time . fraction" is shown as "date time": the 'T' becomes a space and the fractional seconds are dropped |
| Dates.FormatIsoWhole | Blender.Client/batched_blender/props/props_assets.py:56-59 | a stamp without fractional seconds is shown as "date time" |
| Dates.FormattedHasNoT | Blender.Client/batched_blender/props/props_assets.py:56-59 | a formatted well-formed stamp never contains 'T' |
| DisplayList.Add | Blender.Client/batched_blender/props/props_assets.py:121-127 | both lists grow by exactly one, keep their old rows as a prefix, and end with the new object and its row; the selection does not move |
| DisplayList.RemoveSelected | Blender.Client/batched_blender/props/props_assets.py:139-141 | position `index` leaves both lists, rows before it stay and rows after it shift down by one, and the index becomes max(index-1, 0); an index outside the lists raises IndexError |
| DisplayList.Reset | Blender.Client/batched_blender/props/props_assets.py:158-165 | both lists become empty and the index becomes 0 |
| DisplayList.LockstepPreserved | Blender.Client/batched_blender/props/props_assets.py:121-165 | add, remove-selected and reset keep the two lists the same length, and after a removal the index is still a row of a non-empty list |
| DisplayList.RemoveUndoesAdd | Blender.Client/batched_blender/props/props_assets.py:121-141 | removing the row just added gives both lists back |
| DisplayList.Checked | Blender.Client/batched_blender/assets.py:398-399 | the pending positions are exactly the checked rows, each once, in increasing order |
| DisplayList.AddAll | Blender.Client/batchapps_blender/history.py:386-388 | the listing loop keeps the lists in lockstep and adds between none and all of the listed objects; all of them when nothing raises |
| DisplayList.AddAllAppends | Blender.Client/batchapps_blender/history.py:386-388 | the objects added are a prefix of the listing, in order, and the whole listing when nothing raises |
| DisplayList.AddAllRows | Blender.Client/batchapps_blender/history.py:386-388 | the rows added are the rows of that same prefix, in order |
| DisplayList.AddAllWhole | Blender.Client/batchapps_blender/history.py:386-388 | when nothing raises, the object list gains exactly the listing and the display list exactly its rows |
| DisplayList.AddAllCompletes | Blender.Client/batchapps_blender/history.py:386-388 | the loop finishes without an exception iff no listed object's row raises |
| AssetProps.EntryFor | Blender.Client/batched_blender/props/props_assets.py:121-127 | the new row copies the asset's name and path, is unticked, is marked uploaded iff `is_uploaded` returned True, and carries the formatted modification time |
| AssetProps.AddAsset | Blender.Client/batched_blender/props/props_assets.py:113-127 | both lists gain the asset and its row before `is_uploaded` is asked; an exception from it escapes and nothing else changes |
| AssetProps.AddAssetMirrors | Blender.Client/batched_blender/props/props_assets.py:121-127 | whatever `is_uploaded` does, the lists stay in lockstep and the last row describes the new asset |
| AssetProps.GetJobfile | Blender.Client/batched_blender/props/props_assets.py:143-156 | the first asset whose path is the job path, and ValueError iff there is none |
| AssetProps.JobfileFoundAfterAdd | Blender.Client/batched_blender/props/props_assets.py:121-165 | after adding an asset with the job path the job file is found; after a reset it is not |
| AssetProps.SetUploaded | Blender.Client/batched_blender/props/props_assets.py:169-175 | every row is marked uploaded and nothing else changes |
| AssetProps.SetUploadedIdempotent | Blender.Client/batched_blender/props/props_assets.py:169-175 | marking twice is the same as marking once, and the job file found does not change |
| AssetProps.ResetAssets | Blender.Client/batched_blender/props/props_assets.py:158-165 | both lists empty, index 0, job path and temp flag untouched |
| AssetProps.OnLoad | Blender.Client/batched_blender/props/props_assets.py:32-42 | the job path is cleared, and the refresh runs iff the page is ASSETS |
| BatchedUtils.CurrentTime | Blender.Client/batched_blender/utils.py:54-59 | the clock string is the cleaned string with every 'T' and every '_' replaced by '-' and every other character kept in place, so it has the same length and contains neither |
| BatchedUtils.FirstMatchingAgent | Blender.Client/batched_blender/utils.py:113-116 | `next` finds an agent iff some agent has an image whose offer contains the distro and whose sku contains the version, case-insensitively; it picks the first such agent and raises StopIteration otherwise |
| BatchedUtils.LastMatchingImage | Blender.Client/batched_blender/utils.py:117-119 | the `[-1]` of the filtered images is the last matching image, and IndexError when none matches |
| BatchedUtils.GetPoolConfig | Blender.Client/batched_blender/utils.py:84-130 | under LuxRender the config is always a cloud-service one with vm size "medium", OS family "4", the LuxRender package as application and app version None for "default"; otherwise a config exists iff some agent has a matching image, and then it is a virtual-machine config of the configured vm size on the first agent with a matching image, using that agent's last matching image; the display name and target size come from the name and the pool size; the only failure is StopIteration |
| BatchedUtils.GetAutoPool | Blender.Client/batched_blender/utils.py:74-82 | the auto-pool spec has prefix "luxblend_auto" under Lux and "blender_auto" otherwise, job lifetime, keep_alive false, and the pool config; it fails exactly when the pool config fails |
| BatchedUtils.Session | Blender.Client/batched_blender/utils.py:138-170 | a normal return passes through with the page unchanged; any exception gives `{'CANCELLED'}` and page ERROR |
| BatchedUtils.Register | Blender.Client/batched_blender/utils.py:192-220 | the registered id is "batch_" followed by the name, so the name can be read back after the prefix |
| BatchedUtils.Checksum | Blender.Client/batched_blender/utils.py:235-253 | a checksum exists only for a file that exists and is not a directory |
| BatchedUtils.MakeAsset | Blender.Client/batched_blender/utils.py:222-233 | the asset's name is the basename of its resolved path; it exists iff the path is in the file system; last-modified is None exactly when it is missing, and the checksum is None when it is missing |
| BatchedUtils.BlobKey | Blender.Client/batched_blender/utils.py:265 | the blob name is the asset name, one '_', then the checksum, and each part can be read back at its offset |
| BatchedUtils.ListBlobs | Blender.Client/batched_blender/utils.py:263 | listing by prefix returns exactly the stored names that start with the prefix |
| BatchedUtils.IsUploadedIffKeyStored | Blender.Client/batched_blender/utils.py:260-267 | `is_uploaded` raises TypeError without a checksum; otherwise it holds iff `name + '_' + checksum` is a stored blob name |
| BatchedUtils.Upload | Blender.Client/batched_blender/utils.py:269-273 | a missing file changes nothing; a successful upload of an existing file leaves exactly the old blobs plus its key; blobs are never removed |
| BatchedUtils.UploadThenUploaded | Blender.Client/batched_blender/utils.py:260-273 | after a successful upload `is_uploaded` holds, and a second upload changes nothing |
| BatchedUtils.UploadSkipsStoredKey | Blender.Client/batched_blender/utils.py:269-273 | an asset whose key is already stored is never sent again, even if the store would fail |
| BatchedUtils.CleanupArgs | Blender.Client/batched_blender/utils.py:386-391 | one prepared argument per argument, in order, each the argument wrapped in the quote string |
| BatchedUtils.CleanupArgsInverse | Blender.Client/batched_blender/utils.py:386-391 | stripping the quotes from both ends of each prepared argument gives the argument back |
| BatchedAssets.ResolveAllMembers | Blender.Client/batched_blender/assets.py:293-318 | each comprehension of `collect_assets` resolves exactly the paths it is given, no more and no fewer |
| BatchedAssets.UserFonts | Blender.Client/batched_blender/assets.py:297-300 | the fonts kept are exactly those whose path is not "<builtin>" |
| BatchedAssets.TextureImages | Blender.Client/batched_blender/assets.py:302-307 | the texture paths kept are exactly the image paths of textures that have an image |
| BatchedAssets.CollectAssets | Blender.Client/batched_blender/assets.py:276-318 | every file the scene references (sounds, non-builtin fonts, texture images, images, libraries) appears resolved in the result; the result is five consecutive blocks in that order, each with one entry per reference in data-block order, so its length is the sum of the blocks and a file referenced twice is listed twice |
| BatchedAssets.CollectAssetsSound | Blender.Client/batched_blender/assets.py:276-318 | nothing else appears: every collected path is the resolution of a referenced file |
| BatchedAssets.NameGenerator | Blender.Client/batched_blender/assets.py:320-331 | the temp name is "BATCHTMP_", the eight drawn hex digits, then ".blend": 23 characters |
| BatchedAssets.NameGeneratorOnto | Blender.Client/batched_blender/assets.py:320-331 | every name of that shape is produced by some draw, so the shape describes exactly the possible names |
| BatchedAssets.JoinPath | Blender.Client/batched_blender/assets.py:352-355 | joining a directory and a relative name starts with the directory and ends with the name |
| BatchedAssets.JoinPathBasename | Blender.Client/batched_blender/assets.py:352-355 | the basename of a temp path is the generated name |
| BatchedAssets.GetJobpath | Blender.Client/batched_blender/assets.py:333-362 | a saved file gives its own path and clears temp; unsaved and temp keeps a non-empty stored path, otherwise a fresh temp path; unsaved and not temp gives a fresh temp path and sets temp; nothing else in the props changes |
| BatchedAssets.Collected | Blender.Client/batched_blender/assets.py:375-383 | the assets kept for adding are at most one per path and each names an existing file that is not a directory |
| BatchedAssets.CollectedCovers | Blender.Client/batched_blender/assets.py:375-383 | every path that exists and is not a directory has its asset among those kept |
| BatchedAssets.AddPaths | Blender.Client/batched_blender/assets.py:375-383 | the lists stay in lockstep and the object list gains a prefix of the assets, in order; all of them when no `is_uploaded` raises |
| BatchedAssets.GenerateCollection | Blender.Client/batched_blender/assets.py:364-390 | after a reset, every referenced collectable file is listed, and for a saved blend file the blend file comes last; nothing else is listed, so no row from before the reset survives: every row is the asset of a collectable referenced file or, when the blend file is saved, the blend file; path and temp flag are untouched |
| BatchedAssets.DuplicatesKept | Blender.Client/batched_blender/assets.py:375-383 | the identity-based `not in` test never matches a fresh object, so a file referenced twice is listed twice |
| BatchedAssets.AddPathsIntended | Blender.Client/batched_blender/assets.py:375-383 | with the duplicate test comparing assets by value, a list without repeats keeps none; old rows stay, only the given assets are added, and all of them are listed when nothing raises |
| BatchedAssets.GenerateCollectionIntended | Blender.Client/batched_blender/assets.py:364-390 | the corrected collection lists every collectable referenced file and the saved blend file, nothing else, and no asset twice |
| BatchedAssets.DuplicatesSkippedIntended | Blender.Client/batched_blender/assets.py:375-383 | with the corrected test a file referenced twice is listed once |
| BatchedAssets.JobfileAfterCollection | Blender.Client/batched_blender/assets.py:384-390 | after a complete collection of a saved blend file, `get_jobfile` finds it |
| BatchedAssets.PendingUpload | Blender.Client/batched_blender/assets.py:392-399 | exactly the indices whose upload checkbox is ticked, in increasing order |
| BatchedAssets.UploadStep | Blender.Client/batched_blender/assets.py:174-188 | one iteration of `_upload` only touches its own row's `upload_check` and only stores that row's blob |
| BatchedAssets.UploadPending | Blender.Client/batched_blender/assets.py:146-188 | every ticked row is tried despite earlier failures; `upload_check` becomes True only when the row's blob is stored or its file is missing, and always when the upload succeeds; unticked rows and the object list do not change; only blobs of ticked assets are added |
| BatchedAssets.AddExecute | Blender.Client/batched_blender/assets.py:190-220 | the chosen file is always appended (the object is truthy and never found in the list); a missing file is listed and then raises TypeError |
| BatchedAssets.RemoveOp | Blender.Client/batched_blender/assets.py:242-261 | an empty list is left alone; otherwise a selection inside the list removes exactly that row from both lists, the rows before and after it keeping their order, and a selection outside the list raises IndexError |
| BatchedAssets.Refresh | Blender.Client/batched_blender/assets.py:88-144 | the job path is chosen and stored, and the lists are exactly what `generate_collection` builds for that path; an exception leaves the page on ERROR, otherwise `_assets` shows ASSETS and `_refresh` keeps the page |
| BatchappsAssets.NameGenerator | Blender.Client/batchapps_blender/assets.py:364-377 | the temp name is "BATCHAPPSTMP_", the eight drawn hex digits, then ".blend" |
| BatchappsAssets.NameGeneratorOnto | Blender.Client/batchapps_blender/assets.py:364-377 | every name of that shape is produced by some draw |
| BatchappsAssets.GetJobpath | Blender.Client/batchapps_blender/assets.py:379-413 | a saved file gives its own path and clears temp; unsaved and temp returns the stored path with no fallback, even an empty one; unsaved and not temp gives a fresh temp path and sets temp |
| BatchappsAssets.AddFile | Blender.Client/batchapps_blender/assets.py:431-436 | an existing file not yet listed is appended; a listed file or one that does not exist is skipped with a warning and nothing raises; when the SDK gives None, the warning's `.name` raises AttributeError; no object is listed twice |
| BatchappsAssets.AddFiles | Blender.Client/batchapps_blender/assets.py:428-436 | a path for which the SDK gives None makes the loop raise; when every path gives a file object and no upload check raises, the loop completes; after it every existing file is listed, and only existing files of the paths are added; nothing already listed is dropped, and nothing is listed twice |
| BatchappsAssets.GenerateCollection | Blender.Client/batchapps_blender/assets.py:415-443 | after a reset every referenced file that exists is listed once, and the blend file too when it is not temporary and exists; every listed object exists and is the file of a referenced path or of the blend file; files that do not exist are skipped without stopping the collection |
| BatchappsAssets.MissingFileAborts | Blender.Client/batchapps_blender/assets.py:431-436 | one referenced path for which the SDK gives None makes the whole collection raise, because the warning reads `.name` of None |
| BatchappsAssets.AbsentFileSkipped | Blender.Client/batchapps_blender/assets.py:428-436 | a referenced file that does not exist is never listed, and when every path gives a file object and no upload check raises the collection completes |
| BatchappsAssets.AssetsPage | Blender.Client/batchapps_blender/assets.py:131-165 | the job path is chosen and stored; an unchanged path keeps the lists, a changed one gives exactly the collection for the new path; the page is ASSETS, or ERROR after an exception |
| BatchappsAssets.AssetsPageStable | Blender.Client/batchapps_blender/assets.py:131-165 | opening the page a second time on the same blend file changes nothing |
| BatchappsAssets.Refresh | Blender.Client/batchapps_blender/assets.py:167-196 | the lists are always rebuilt: they are exactly the collection for the newly chosen path, with no object listed twice; the page is kept, or ERROR after an exception |
| BatchappsAssets.AddExecute | Blender.Client/batchapps_blender/assets.py:241-270 | the chosen file is added only if it exists: afterwards the list holds exactly the old objects plus that file when it exists, and is unchanged otherwise; a path for which the SDK gives None raises AttributeError |
| BatchappsAssets.UploadPending | Blender.Client/batchapps_blender/assets.py:198-239 | every ticked row's `upload_check` becomes whether its forced upload went through, failures included; unticked rows and the object list do not change |
| BatchedSubmission.ReferencedPoolId | Blender.Client/batched_blender/submission.py:213 | the id `get_pool` makes up for a new pool starts with "blender_pool_" |
| BatchedSubmission.GetPool | Blender.Client/batched_blender/submission.py:195-230 | a pool reference exists iff the type is reuse with an id, or create with an operator that accepts the `id` keyword; reuse gives that id and changes nothing; create with the operator as registered raises TypeError and changes nothing; an operator that accepted the keyword would run `_create` with its own id, whose failure only sets the ERROR page, and the job would be pointed at the made-up id with the settings switched to reuse it; auto raises NameError; anything else raises ValueError; pools are the only part of the service that can change |
| BatchedSubmission.AutoPoolNameError | Blender.Client/batched_blender/submission.py:222-227 | the auto branch formats the unbound name `pool_name`, so it never produces a pool reference |
| BatchedSubmission.CreateRejectsKeyword | Blender.Client/batched_blender/submission.py:212-215 | with the operator as registered, "create" raises TypeError at the `id` keyword: no pool is made, the settings are unchanged, and the session wrapper shows ERROR |
| BatchedSubmission.CreatedPoolNotReferenced | Blender.Client/batched_blender/submission.py:212-220 | even if the operator accepted the `id` keyword, under LuxRender, or when the creation fails, the id the job is given names no pool on the service |
| BatchedSubmission.GetPoolIntended | Blender.Client/batched_blender/submission.py:195-230 | with the created pool's own id passed back and the auto branch using the name it built, create succeeds iff the pool was created and the job then names an existing pool, and auto succeeds iff a pool configuration is found |
| BatchedSubmission.FrameId | Blender.Client/batched_blender/submission.py:352 | a frame's task id is the frame number left-padded with '0' to the width of the end frame's number, so it consists of digits (and a sign) only |
| BatchedSubmission.RenderCommand | Blender.Client/batched_blender/submission.py:346-364 | without LuxRender the command is `blender -b "<job file>" -P "render.py"` in the bash wrapper; under LuxRender it starts with `cmd /c` and the upper-cased package variable, carries the upper-cased version mark right after its closing `%` unless the version is "default", and ends by running the package's blender on the job file with render.py |
| BatchedSubmission.BashCommand | Blender.Client/batched_blender/submission.py:364 | a wrapped command starts with the bash prefix, ends with `; wait'`, and holds the command right after the prefix |
| BatchedSubmission.BashRoundTrip | Blender.Client/batched_blender/submission.py:364 | the command inside the wrapper can be read back, so the wrapper loses nothing |
| BatchedSubmission.LuxCommandShape | Blender.Client/batched_blender/submission.py:346-350 | the LuxRender command line starts with the package variable, has the version mark after its `%`, ends with the blender call on the job file, and contains the job file |
| BatchedSubmission.FrameTask | Blender.Client/batched_blender/submission.py:346-371 | frame f's task has that frame's id, the job's resource files, no dependencies, the engine's render command line naming the job file, and the display name "Frame <f>" |
| BatchedSubmission.FrameCount | Blender.Client/batched_blender/submission.py:346 | `range(start, end + 1)` visits end - start + 1 frames, and none when end < start |
| BatchedSubmission.FrameTasks | Blender.Client/batched_blender/submission.py:341-372 | exactly one task per frame from start to end inclusive, in frame order; an empty range gives no tasks |
| BatchedSubmission.FrameIdValue | Blender.Client/batched_blender/submission.py:352 | the id of a non-negative frame is all digits and reads back as the frame number |
| BatchedSubmission.FrameIdInjective | Blender.Client/batched_blender/submission.py:352 | different non-negative frames get different ids |
| BatchedSubmission.FrameIdsDistinct | Blender.Client/batched_blender/submission.py:341-372 | for non-negative frames no two frame tasks share an id |
| BatchedSubmission.FrameIdsSameWidth | Blender.Client/batched_blender/submission.py:341-372 | for non-negative frames every id has the width of the end frame's number |
| BatchedSubmission.Batches | Blender.Client/batched_blender/submission.py:379-380 | the slices `tasks[i:i+100]` are non-empty, hold at most 100 tasks, and all but the last hold exactly 100 |
| BatchedSubmission.BatchesConcat | Blender.Client/batched_blender/submission.py:379-380 | the slices put back together are the list of tasks: every task is sent once, in order |
| BatchedSubmission.BatchesCount | Blender.Client/batched_blender/submission.py:379-380 | there are ceil(n/100) slices |
| BatchedSubmission.AcceptedIds | Blender.Client/batched_blender/submission.py:381-383 | the accepted ids are all the ids iff the service rejects none |
| BatchedSubmission.AcceptedAll | Blender.Client/batched_blender/submission.py:381-383 | when nothing is rejected, every task joins the job, in order |
| BatchedSubmission.AcceptedAppend | Blender.Client/batched_blender/submission.py:379-383 | the tasks accepted from two consecutive slices are those of the first followed by those of the second |
| BatchedSubmission.AddBatches | Blender.Client/batched_blender/submission.py:379-383 | the slice loop completes iff no `add_collection` call raises, and then the job holds exactly the accepted tasks and the count of rejected ones is the rest |
| BatchedSubmission.AddAllTasks | Blender.Client/batched_blender/submission.py:379-386 | sending the batches succeeds iff no call raises and no task is rejected, and then the job holds every task id in order; a rejection raises ValueError |
| BatchedSubmission.Attempt | Blender.Client/batched_blender/submission.py:375-386 | the `try` block succeeds iff the job and all its tasks are accepted, leaving the job with exactly the ids of its tasks; a failed `job.add` changes nothing |
| BatchedSubmission.DeleteJobCall | Blender.Client/batched_blender/submission.py:389 | deleting a job succeeds iff the service has it and does not fail |
| BatchedSubmission.CleanUp | Blender.Client/batched_blender/submission.py:387-394 | the `except` block always raises: the original exception after deleting the job and its container; NameError from the misspelt `Exceptopn` when either delete fails, the container then being left |
| BatchedSubmission.Commit | Blender.Client/batched_blender/submission.py:375-394 | the commit succeeds iff everything is accepted, and then the job holds exactly the ids of its tasks; at most this job is added, and pools and blobs do not change |
| BatchedSubmission.RollbackRestores | Blender.Client/batched_blender/submission.py:375-394 | when the job was taken but some task was not, and both deletes work, the service is left as before the job, less the job's container, and the original exception escapes |
| BatchedSubmission.CleanupFailureMasksError | Blender.Client/batched_blender/submission.py:387-394 | when `job.add` fails there is no job to delete, so the service's error is replaced by NameError and the container is left |
| BatchedSubmission.CleanUpIntended | Blender.Client/batched_blender/submission.py:387-394 | with the handler spelt `Exception`, the original exception always escapes, after whatever deletes succeeded |
| BatchedSubmission.CommitIntended | Blender.Client/batched_blender/submission.py:375-394 | with the intended handler, a failed commit raises the exception of the `try` block itself |
| BatchedSubmission.CommitVersionsAgree | Blender.Client/batched_blender/submission.py:375-394 | the written and the intended commit leave the service the same and succeed together; only the escaping exception differs |
| BatchedSubmission.UploadOne | Blender.Client/batched_blender/submission.py:249-258 | one pass succeeds iff the asset has a checksum and its upload works, giving the resource file named after the asset with the blob `name + '_' + checksum` |
| BatchedSubmission.UploadAssets | Blender.Client/batched_blender/submission.py:232-262 | every asset is tried even after a failure; success gives one resource file per asset, in order, naming each asset's blob, all of them stored; any failure gives ValueError; only blobs of these assets are added |
| BatchedSubmission.Existing | Blender.Client/batched_blender/submission.py:279 | the assets kept are exactly the listed ones whose file exists |
| BatchedSubmission.JobFile | Blender.Client/batched_blender/submission.py:283-294 | a temporary blend file is saved and uploaded; a saved one is the listed job file when there is one, otherwise a fresh asset that is uploaded |
| BatchedSubmission.Uploading | Blender.Client/batched_blender/submission.py:279-294 | the upload list is the existing listed assets, the render script, and the job file when it must be uploaded, and nothing else |
| BatchedSubmission.ConfigureAssets | Blender.Client/batched_blender/submission.py:264-295 | the asset page is refreshed only when no path is set, and a refresh landing on ERROR raises; success uploads every existing listed asset, the render script and the job file when it exists |
| BatchedSubmission.MergeTask | Blender.Client/batched_blender/submission.py:297-308 | as written the merge task names the unbound `render_script` and raises NameError |
| BatchedSubmission.MergeTaskIntended | Blender.Client/batched_blender/submission.py:297-308 | the intended merge task is "merge", carries the merge script's upload, and depends on every frame task id in order |
| BatchedSubmission.MergeIdFresh | Blender.Client/batched_blender/submission.py:297-308 | "merge" is never the id of a frame task |
| BatchedSubmission.FrameIds | Blender.Client/batched_blender/submission.py:341-372 | the ids of the frame tasks, one per frame in order |
| BatchedSubmission.JobId | Blender.Client/batched_blender/submission.py:324-326 | the job id is "luxblend-render-" under LuxRender and "blender-render-" otherwise, followed by the cleaned clock reading |
| BatchedSubmission.StartSubmission | Blender.Client/batched_blender/submission.py:122-123 | the page becomes PROCESSING only from SUBMIT |
| BatchedSubmission.PrepareJob | Blender.Client/batched_blender/submission.py:310-338 | before the job exists only pools and blobs can change; the auto pool type fails at once with NameError and changes nothing; any failure leaves the page on ERROR |
| BatchedSubmission.SubmitJob | Blender.Client/batched_blender/submission.py:310-400 | the page becomes SUBMITTED iff the submission succeeds, and ERROR otherwise; on success the job and its output container exist, the job holds exactly the frame ids, and every asset row is marked uploaded; a failing `create_container` ends it with no job or container added; video merge on the non-Lux path always fails; at most this job is added |
| BatchedSubmission.PrepareJobIntended | Blender.Client/batched_blender/submission.py:310-338 | with the corrected `get_pool`, no failure before the job exists is a NameError, the job gets the pool reference the corrected `get_pool` gives, and a created pool exists |
| BatchedSubmission.WithMerge | Blender.Client/batched_blender/submission.py:297-308 | with the corrected merge task, the tasks sent are the frame tasks followed by one task with id "merge" when merging; a failed merge-script upload raises the upload ValueError |
| BatchedSubmission.SubmitJobIntended | Blender.Client/batched_blender/submission.py:195-400 | the corrected submission: SUBMITTED iff it succeeds, otherwise ERROR and never a NameError; on success the job and its container exist, the job holds the frame ids followed by "merge" when merging, it runs on the pool the corrected `get_pool` chose, and a pool created for it exists; a failing `create_container` adds no job or container |
| BatchappsSubmission.DefaultsInBounds | Blender.Client/batchapps_blender/props/props_submission.py:104-170 | a fresh property group has frames >= 0, a pool size within 1..20 and a supported image format |
| BatchappsSubmission.FrameCheck | Blender.Client/batchapps_blender/props/props_submission.py:31-56 | off the SUBMIT page nothing changes; on it an end frame before the start frame is raised to it, so afterwards start <= end, and the range is valid iff it lies within the scene's frame range; nothing else changes |
| BatchappsSubmission.FrameCheckIdempotent | Blender.Client/batchapps_blender/props/props_submission.py:31-56 | running the frame check a second time changes nothing |
| BatchappsSubmission.FormatCheck | Blender.Client/batchapps_blender/props/props_submission.py:59-81 | off the SUBMIT page nothing changes; on it a supported format is copied and marked valid, any other gives PNG and marks it invalid; either way the stored format is a key of `supported_formats` |
| BatchappsSubmission.OnLoad | Blender.Client/batchapps_blender/props/props_submission.py:84-95 | the frame range follows the scene just opened, raised to 0 as the property's minimum demands; nothing else changes |
| BatchappsSubmission.GetTitle | Blender.Client/batchapps_blender/submission.py:359-370 | an empty title becomes "Untitled_Job", any other is cleaned, and the property keeps the result |
| BatchappsSubmission.GatherParameters | Blender.Client/batchapps_blender/submission.py:249-262 | the parameters exist iff the stored format is a key of `supported_formats` (else KeyError); the output is the cleaned title, the frames are copied, and the format is the mapped token |
| BatchappsSubmission.FormatCheckedParameters | Blender.Client/batchapps_blender/submission.py:249-262 | after the format check on the SUBMIT page the parameters can always be gathered |
| BatchappsSubmission.GetPool | Blender.Client/batchapps_blender/submission.py:264-357 | reuse with an id gives that pool; create adds a persistent "Blender_Pool_<uuid>" pool (its failure escapes) and switches the settings to reuse that id; new gives an auto-pool spec with prefix "Blender_auto_", job lifetime, no keep-alive and the chosen size; anything else raises ValueError; only create touches the service |
| BatchappsSubmission.TaskId | Blender.Client/batchapps_blender/submission.py:459 | a task id is "blender_", the output, "_", then the frame number in decimal |
| BatchappsSubmission.TaskIdInjective | Blender.Client/batchapps_blender/submission.py:459 | different non-negative frames get different task ids |
| BatchappsSubmission.FrameTask | Blender.Client/batchapps_blender/submission.py:458-465 | frame f's task has that frame's id, the job's resource files, no dependencies and no display name; its command is bash-wrapped and runs `blender -b "<job file>"`, then `-o "<output>_####"`, then `-F <format>`, and ends with `-f <f> -t 0` |
| BatchappsSubmission.FrameTaskCommandsDistinct | Blender.Client/batchapps_blender/submission.py:458-465 | the frame can be read back from the command: tasks of distinct non-negative frames run distinct commands |
| BatchappsSubmission.FrameTasks | Blender.Client/batchapps_blender/submission.py:458-465 | one task per frame from start to end inclusive, in frame order |
| BatchappsSubmission.TaskIdsDistinct | Blender.Client/batchapps_blender/submission.py:458-465 | for non-negative frames no two tasks share an id |
| BatchappsSubmission.FrameIds | Blender.Client/batchapps_blender/submission.py:458-465 | the ids of the tasks, one per frame in order |
| BatchappsSubmission.CleanUp | Blender.Client/batchapps_blender/submission.py:480-486 | after a failure only the job is deleted and the original exception re-raised; when the delete fails the misspelt `Exceptopn` raises NameError instead and nothing is deleted |
| BatchappsSubmission.Commit | Blender.Client/batchapps_blender/submission.py:467-486 | the commit succeeds iff every task is accepted, leaving the job with exactly the frame task ids; in every case at most this job is added and nothing but jobs and tasks change |
| BatchappsSubmission.CleanupFailureMasksError | Blender.Client/batchapps_blender/submission.py:467-486 | a failed `job.add` leaves no job to delete, so the service's error is replaced by NameError |
| BatchappsSubmission.CommitIntended | Blender.Client/batchapps_blender/submission.py:467-486 | with the handler spelt `Exception`, the original error is what escapes; the service is left as the written version leaves it |
| BatchappsSubmission.JobFile | Blender.Client/batchapps_blender/submission.py:420-435 | a temporary blend file is the file just saved at the page's path; otherwise the listed job file, or a fresh asset for the page's path when none is listed |
| BatchappsSubmission.Uploading | Blender.Client/batchapps_blender/submission.py:420-427 | every listed asset that exists is uploaded; a temporary blend file is added; for a saved blend file the list is exactly the existing assets, so a saved job file missing from the list is never uploaded |
| BatchappsSubmission.ConfigureAssets | Blender.Client/batchapps_blender/submission.py:405-437 | the asset page is refreshed only when no path is set, and a refresh that lands on ERROR raises; a successful upload gives one resource file per uploaded asset, including a temporary blend file; stored blobs only grow |
| BatchappsSubmission.JobId | Blender.Client/batchapps_blender/submission.py:453 | the job id is "blender_render_" followed by the cleaned clock reading |
| BatchappsSubmission.PrepareJob | Blender.Client/batchapps_blender/submission.py:439-465 | the title is stored, the parameters are the ones `gather_parameters` gives for the updated settings, and before the commit no job, task or container is touched; pools and blobs only grow |
| BatchappsSubmission.SubmitJob | Blender.Client/batchapps_blender/submission.py:439-496 | the page becomes SUBMITTED iff the submission succeeds, and ERROR otherwise; on success the job exists with exactly the frame task ids and every asset row is marked uploaded; at most this job is added and no container changes |
| BatchappsSubmission.SubmitJobIntended | Blender.Client/batchapps_blender/submission.py:439-496 | with the corrected clean-up, the submission promises what the written one does on success, and every exception that escapes is the original one, never a NameError |
| BatchedJobs.SetPerCall | Blender.Client/batched_blender/props/props_jobs.py:106-112 | the jobs-per-call setting always lies within 1..50, keeps any value in that range, and nothing else in the property group changes |
| BatchedJobs.Entry | Blender.Client/batched_blender/props/props_jobs.py:123-136 | a job row is named after the display name or, without one, the id; when the date cannot be formatted the exception leaves id, date, pool and status at their blank defaults, and otherwise they are the job's, with "auto pool" for a job without a pool |
| BatchedJobs.AddJob | Blender.Client/batched_blender/props/props_jobs.py:114-138 | adding a job appends the job object and its row in step, leaves selection and paging untouched, and raises exactly when formatting the job's date raises |
| BatchedJobs.AddJobs | Blender.Client/batched_blender/jobs.py:308-309 | the listing loop appends a prefix of the fetched jobs, in order, keeping the two lists in step |
| BatchedJobs.AddJobsRows | Blender.Client/batched_blender/jobs.py:308-309 | every job the loop added has its own row, in the same order |
| BatchedJobs.AddJobsStops | Blender.Client/batched_blender/jobs.py:308-309 | a loop that raised stopped right after the job whose date failed to format, with that job's exception |
| BatchedJobs.AddJobsCompletes | Blender.Client/batched_blender/jobs.py:308-309 | the whole page is listed without error exactly when every job's date formats |
| BatchedJobs.AddJobsOne | Blender.Client/batched_blender/jobs.py:308-309 | one job through the loop is the same as one add_job call |
| BatchedJobs.GetJobList | Blender.Client/batched_blender/jobs.py:287-314 | the page after the stored continuation token (the first page when there is none) is appended; on success the token becomes the page's next link or "" and the JOBS page is shown, and on a failed row the token is kept and the session shows ERROR; a listing call that raises changes nothing and shows ERROR; the service honours the options, so at most `per_call` rows are added and each added id starts with the filter prefix |
| BatchedJobs.JobsPage | Blender.Client/batched_blender/jobs.py:185-215 | opening the job list empties both lists, forgets the continuation token and moves HOME to LOADING, leaving other pages alone |
| BatchedJobs.RefreshStartsOver | Blender.Client/batched_blender/jobs.py:185-251 | after a refresh a successful listing shows exactly the first page's jobs |
| BatchedJobs.MoreOnlyGrows | Blender.Client/batched_blender/jobs.py:217-234 | loading more keeps every job already shown, in front of the new ones |
| BatchedJobs.SubmittedJobsFilteredOut | Blender.Client/batched_blender/jobs.py:299-301 | the listing's server-side filter prefix matches no job id that the submission creates |
| BatchedJobs.SubmittedJobNeverListed | Blender.Client/batched_blender/jobs.py:298-307 | a listing never adds a row for a job the submission created |
| BatchedJobs.SubmittedJobsListedIntended | Blender.Client/batched_blender/jobs.py:299-301 | with the prefixes the submission actually uses, every submitted job would be listed |
| BatchedJobs.PendingDelete | Blender.Client/batched_blender/jobs.py:316-331 | the rows pending deletion are exactly the ticked rows, each once, in ascending order |
| BatchedJobs.DeletePending | Blender.Client/batched_blender/jobs.py:253-285 | deleting removes from the service exactly the ticked jobs whose deletion call does not fail; a failed deletion is only logged and the rest of the service state is unchanged |
| BatchedJobs.DeleteFrom | Blender.Client/batched_blender/jobs.py:274-283 | the deletion loop from a given row on removes exactly the ticked, non-failing jobs at or after that row |
| BatchedPools.AddPool | Blender.Client/batched_blender/props/props_pools.py:109-131 | adding a pool appends the pool and its row in step; the row is named after the display name or the id and marked auto exactly when the id begins with 'blender_auto_'; it raises exactly when the pool has no creation time, and otherwise carries the pool's id, node count, allocation state and formatted date |
| BatchedPools.ListPools | Blender.Client/batched_blender/pools.py:105-107 | the server-side filter returns exactly the pools whose id starts with the prefix, in service order |
| BatchedPools.AddPools | Blender.Client/batched_blender/pools.py:109-110 | the loop keeps the lists in step, keeps the rows already there, adds only listed pools, raises exactly when some pool from the current one on has no creation time, and otherwise adds them all in order |
| BatchedPools.PoolsPage | Blender.Client/batched_blender/pools.py:85-112 | the pool page starts from empty lists; a failing `pool.list` leaves them empty and shows ERROR; otherwise it lists only pools whose id starts with 'lux' under LuxRender and 'blender' otherwise, and shows POOLS when every row was added or ERROR when one raised |
| BatchedPools.PoolsPageSeparatesEngines | Blender.Client/batched_blender/pools.py:99-107 | under LuxRender no listed pool id begins with 'blender', and without it every listed id does |
| BatchedPools.StartPage | Blender.Client/batched_blender/pools.py:114-128 | the start operator opens the CREATE page |
| BatchedPools.NewPoolId | Blender.Client/batched_blender/pools.py:162-164 | a new pool's id begins with 'luxblend_pool_' under LuxRender and 'blender_pool_' otherwise |
| BatchedPools.Create | Blender.Client/batched_blender/pools.py:146-172 | creating succeeds exactly when the pool configuration for the chosen name can be built and the service accepts the pool, and then adds a pool under the generated id, not under the pool name |
| BatchedPools.Run | Blender.Client/batched_blender/pools.py:130-144 | running adds the pool when creation succeeds and leaves the service unchanged when it fails; either way the page shown is the pool page's own outcome |
| BatchedPools.PendingDelete | Blender.Client/batched_blender/pools.py:259-266 | the rows pending deletion are exactly the ticked rows, each once, in ascending order |
| BatchedPools.DeletePending | Blender.Client/batched_blender/pools.py:174-199 | deleting removes exactly the ticked pools whose deletion call does not fail, and changes nothing else in the service |
| BatchedPools.DeleteFrom | Blender.Client/batched_blender/pools.py:191-199 | the deletion loop from a given row on removes exactly the ticked, non-failing pools at or after that row |
| BatchedPools.Resize | Blender.Client/batched_blender/pools.py:215-244 | resizing raises IndexError exactly when the selection is out of range under Python indexing; otherwise it resizes the selected pool to the node count shown in its row, or leaves the service unchanged when the call fails |
| BatchedPools.AutoMarkByEngine | Blender.Client/batched_blender/props/props_pools.py:124 | when `get_auto_pool` succeeds, auto pools created under LuxRender carry the 'luxblend_auto' prefix and are never marked auto; the other engines' 'blender_auto' pools are marked exactly when the service's suffix begins with '_' |
| BatchappsHistory.DefaultsInBounds | Blender.Client/batchapps_blender/props/props_history.py:96-110 | a fresh history selects nothing (-1), lists nothing and pages 5 jobs at a time, within the declared 1..50 |
| BatchappsHistory.SetPerCall | Blender.Client/batchapps_blender/props/props_history.py:104-110 | the page size always lies within 1..50, keeps any value in that range, and the lists and offset do not change |
| BatchappsHistory.Stamp | Blender.Client/batchapps_blender/props/props_history.py:31-53 | formatting a job's date can raise only when the job lacks the attribute the handler logs |
| BatchappsHistory.Entry | Blender.Client/batchapps_blender/props/props_history.py:130-150 | a row always has the job's id, display name and state; a date that fails leaves the timestamp empty and the pool "Unknown", and otherwise the row has the formatted date and the job's pool id when it is non-empty, else "Unknown" |
| BatchappsHistory.AddJob | Blender.Client/batchapps_blender/history.py:386-388 | adding a job appends the job and its row in step, leaves selection, page size, total and offset alone, and raises exactly when the date raises |
| BatchappsHistory.JobOperator | Blender.Client/batchapps_blender/history.py:412 | a row's operator is named 'batchapps_history.' followed by the job id with every '-' turned into '_', so the suffix holds no '-' |
| BatchappsHistory.JobOperatorsCollide | Blender.Client/batchapps_blender/history.py:412 | two job ids that differ only in a '-' against a '_' register the same operator name |
| BatchappsHistory.JobOperators | Blender.Client/batchapps_blender/history.py:391-392 | one operator is registered per row, in row order |
| BatchappsHistory.Fill | Blender.Client/batchapps_blender/history.py:386-399 | filling empty lists with a fetched page lists exactly those jobs with their rows, records the total, registers one operator per row and shows HISTORY; a failing date leaves the page the session wrapper picks |
| BatchappsHistory.GetJobList | Blender.Client/batchapps_blender/history.py:363-400 | the listing empties both lists but keeps the selection, fetches page-size jobs from the current offset, and on success shows exactly the fetched jobs with their rows, the total and one operator per row on the HISTORY page; a failed fetch leaves both lists empty and the session wrapper's page |
| BatchappsHistory.GetJobListCompletes | Blender.Client/batchapps_blender/history.py:382-399 | when the fetch succeeds and every date formats, the listing does not raise |
| BatchappsHistory.GetSelectedJob | Blender.Client/batchapps_blender/history.py:353-361 | the selected job is read with Python indexing: a valid index gives that job, the default -1 gives the last job, and an index out of range raises IndexError |
| BatchappsHistory.HistoryPage | Blender.Client/batchapps_blender/history.py:187-219 | opening the history deselects, returns to offset 0 with a zero total, keeps the lists, and moves HOME to LOADING |
| BatchappsHistory.First | Blender.Client/batchapps_blender/history.py:221-239 | the first-page control returns to offset 0 and changes nothing else |
| BatchappsHistory.More | Blender.Client/batchapps_blender/history.py:269-287 | the next-page control moves the offset forward by one page size, with no bound, and changes nothing else |
| BatchappsHistory.Less | Blender.Client/batchapps_blender/history.py:289-307 | the previous-page control moves the offset back by one page size, with no bound, and changes nothing else |
| BatchappsHistory.MoreLessInverse | Blender.Client/batchapps_blender/history.py:269-307 | a page forward and a page back, in either order, leave the history as it was |
| BatchappsHistory.LastIndexIsLastPage | Blender.Client/batchapps_blender/history.py:257-264 | for a non-empty history the last-page offset is the largest multiple of the page size below the total, so the last page holds between 1 and page-size jobs |
| BatchappsHistory.LastIndexOfEmpty | Blender.Client/batchapps_blender/history.py:257-264 | with a total of zero the last-page offset is minus one page size, below the first page |
| BatchappsHistory.Last | Blender.Client/batchapps_blender/history.py:241-267 | the last-page control sets the offset from the total and page size and changes nothing else |
| BatchappsHistory.PageRange | Blender.Client/batchapps_blender/ui/ui_history.py:92-105 | the range shown is 0-0 with no jobs and otherwise runs from offset + 1 over the jobs on the page |
| BatchappsHistory.Controls | Blender.Client/batchapps_blender/ui/ui_history.py:111-121 | first and back are enabled exactly off the first page; next and last exactly when the page does not end at the total |
| BatchappsHistory.LastPageControls | Blender.Client/batchapps_blender/ui/ui_history.py:92-121 | on the last page of a fully listed history next and last are disabled and the range ends at the total; on the first page first and back are disabled |
| BatchappsHistory.StatusIcon | Blender.Client/batchapps_blender/ui/ui_history.py:32-45 | a status's icon is the one mapped to its lower-cased form, or "" when none is |
| BatchappsHistory.CancellableHasNoIcon | Blender.Client/batchapps_blender/ui/ui_history.py:32-75 | every status that offers Cancel is drawn without an icon |
| BatchappsHistory.CaseMismatch | Blender.Client/batchapps_blender/ui/ui_history.py:60-75 | a lower-case status that offers Cancel never shows its percentage, since that test knows only the capitalised spellings |
| BatchappsPools.DefaultsInBounds | Blender.Client/batchapps_blender/props/props_pools.py:99-107 | a fresh pool display selects nothing (-1) and asks for 3 nodes, within the declared 1..20 |
| BatchappsPools.SetPoolSize | Blender.Client/batchapps_blender/props/props_pools.py:103-107 | the pool size always lies within 1..20, keeps any value in that range, and the pools, rows and selection do not change |
| BatchappsPools.AutoMarkNarrowerThanPrefix | Blender.Client/batchapps_blender/props/props_pools.py:123 | every pool marked auto carries the 'Blender_auto_' prefix that submission gives auto pools, but an auto pool whose generated suffix does not begin with 'p' is not marked |
| BatchappsPools.StampRaisesWithoutCreationTime | Blender.Client/batchapps_blender/props/props_pools.py:40-59 | formatting a pool's date raises exactly when the pool has no creation time, since the handler reads it again; a timestamp without a 'T' formats to "" |
| BatchappsPools.Entry | Blender.Client/batchapps_blender/props/props_pools.py:121-129 | a row is marked auto exactly for ids beginning 'Blender_auto_pool_' and then shows the display name instead of the id; the queue is always 0; a failing date leaves date, sizes and state at their defaults, and otherwise they are the pool's |
| BatchappsPools.AddPool | Blender.Client/batchapps_blender/props/props_pools.py:113-129 | adding a pool appends exactly one row, even when the date raises, and raises exactly when the date does |
| BatchappsPools.PoolOperator | Blender.Client/batchapps_blender/pools.py:251 | a row's operator is 'batch_pools.' followed by the pool id with every '-' turned into '_' |
| BatchappsPools.RegisterExpanding | Blender.Client/batchapps_blender/pools.py:34 | the expanding registration succeeds exactly when the operator helper defines it, and otherwise raises AttributeError |
| BatchappsPools.RegisterOps | Blender.Client/batchapps_blender/pools.py:83-103 | the page, start and delete operators are always registered; the create operator registers, and nothing raises, exactly when the helper has the expanding registration |
| BatchappsPools.RegisterOpsAsWrittenFails | Blender.Client/batchapps_blender/pools.py:34-103 | with the batched helper the page imports, registering the create operator raises AttributeError after three operators |
| BatchappsPools.RegisterOpsIntended | Blender.Client/batchapps_blender/pools.py:83-103 | with a helper that has the expanding registration all four operators register, each under the 'batch_pools.' prefix |
| BatchappsPools.RegisterPools | Blender.Client/batchapps_blender/pools.py:153-154 | registering the rows raises exactly when there is a row and the helper lacks the expanding registration, and otherwise registers one operator per row in order |
| BatchappsPools.Fill | Blender.Client/batchapps_blender/pools.py:150-156 | the rows are added for the whole listing, at most one per pool; on success they are exactly the listing's rows, one operator is registered per row and POOLS is shown, and any exception shows ERROR |
| BatchappsPools.PoolsPage | Blender.Client/batchapps_blender/pools.py:121-157 | the pool page clears the rows and deselects, stores the whole listing, and on success shows one row and one operator per pool on POOLS; a failed listing shows ERROR with no rows |
| BatchappsPools.PoolsPageAsWrittenFails | Blender.Client/batchapps_blender/pools.py:34-157 | with the batched helper, any non-empty listing ends on the ERROR page |
| BatchappsPools.PoolsPageIntended | Blender.Client/batchapps_blender/pools.py:121-157 | with a helper that has the expanding registration and every date formatting, every pool is shown with its own row and operator on POOLS |
| BatchappsPools.CreateClick | Blender.Client/batchapps_blender/pools.py:209-227 | the create toggle negates its flag and shows CREATE when it was off and POOLS when it was on |
| BatchappsPools.CreateClicksAlternate | Blender.Client/batchapps_blender/pools.py:209-227 | two clicks restore the flag, and consecutive clicks show different pages |
| BatchappsPools.GetSelectedPool | Blender.Client/batchapps_blender/pools.py:229-237 | the selected pool is read with Python indexing: a valid index gives that pool, the default -1 the last one, and an index out of range raises |
| BatchappsPools.DeleteSelected | Blender.Client/batchapps_blender/pools.py:183-207 | deleting raises IndexError without a valid selection and raises when the service call fails; on success the selected pool is gone from the service and nothing else changes |
| BatchappsUtils.Session | Blender.Client/batchapps_blender/utils.py:46-78 | the wrapper passes a normal result through and leaves the page alone; an expired session returns cancelled on the LOGIN page and any other exception returns cancelled on the ERROR page |
| BatchappsUtils.SessionAgreesWithBatched | Blender.Client/batchapps_blender/utils.py:46-78 | the Batch Apps wrapper and the batched one behave the same on every outcome except an expired session |
| BatchappsUtils.Register | Blender.Client/batchapps_blender/utils.py:81-100 | a registered operator's id is the name behind the 'batchapps_' prefix |
| BatchappsUtils.RegisterInjective | Blender.Client/batchapps_blender/utils.py:100 | distinct names register distinct operator ids |
| BatchappsUtils.SelectToggle | Blender.Client/batchapps_blender/history.py:416-430 | clicking an expanded row that is also the selected one deselects (-1); any other click selects the row |
| BatchappsUtils.Click | Blender.Client/batchapps_blender/utils.py:131-163 | an expanding operator's click runs the row's selection step and then negates its own flag |
| BatchappsUtils.ClickTwiceCollapses | Blender.Client/batchapps_blender/utils.py:152-158 | two clicks on a collapsed row expand and then collapse it, leaving nothing selected and the flag as it was |
| BatchappsUtils.FlagDriftsFromSelection | Blender.Client/batchapps_blender/utils.py:152-158 | because the flag belongs to the operator and the selection to the page, a row expanded, left for another and clicked twice more stays selected instead of collapsing |
| BatchappsUtils.DoGet | Blender.Client/batchapps_blender/utils.py:174-205 | the redirect handler stores the request path as the code in every case and answers 200 exactly for a path beginning '/?code', otherwise 401 |
| BatchappsAuth.DecodeError | Blender.Client/batchapps_blender/auth.py:336-354 | decoding gives None exactly when the parameter does not occur; otherwise it unquotes the text after its first occurrence up to the next '&', and, with no '&', up to one character short of the end |
| BatchappsAuth.DecodeErrorIntended | Blender.Client/batchapps_blender/auth.py:336-354 | the corrected decoding gives None exactly when the parameter does not occur |
| BatchappsAuth.DecodeErrorIntendedValue | Blender.Client/batchapps_blender/auth.py:336-354 | the corrected value is the text right after the parameter, holds no '&', and ends at an '&' or at the end of the code |
| BatchappsAuth.DecodeErrorAgreesBeforeAmpersand | Blender.Client/batchapps_blender/auth.py:346-352 | when an '&' follows the value, the decoding as written and the corrected one agree |
| BatchappsAuth.DecodeErrorDropsLastCharacter | Blender.Client/batchapps_blender/auth.py:351-352 | when the value is the last parameter, the decoding as written loses its last character and the corrected one keeps it |
| BatchappsAuth.AutoAuthentication | Blender.Client/batchapps_blender/auth.py:242-275 | the unattended session is tried first and the cached one only after an authentication or configuration error; success stores that session's credentials and returns True, two refusals return False with nothing stored, and any other exception escapes |
| BatchappsAuth.AutoAuthenticationSucceeds | Blender.Client/batchapps_blender/auth.py:242-275 | automatic sign-in returns True exactly when one of the two sessions is found, and then credentials are stored |
| BatchappsAuth.ServerAddress | Blender.Client/batchapps_blender/auth.py:293-294 | the server address is the redirect URI's first ':'-piece as host and its second read as an integer port; a URI without ':' raises IndexError |
| BatchappsAuth.ServerAddressRoundTrip | Blender.Client/batchapps_blender/auth.py:293-294 | a 'host:port' redirect URI gives back that host and port |
| BatchappsAuth.ServerAddressRejectsScheme | Blender.Client/batchapps_blender/auth.py:293-294 | a redirect URI with a scheme, such as 'http://localhost:8000', splits at the scheme's ':' and fails to give a port |
| BatchappsAuth.AfterRedirect | Blender.Client/batchapps_blender/auth.py:379-400 | no code goes back to LOGIN; an error redirect shows ERROR when it has a description and otherwise escapes with an AttributeError from the missing description; any other code is exchanged for a token that is stored, and the session is started: HOME when `start` completes, and otherwise `start`'s exception escapes with the page unchanged; an exchange failure escapes with the page unchanged |
| BatchappsAuth.WebAuthentication | Blender.Client/batchapps_blender/auth.py:356-400 | after automatic sign-in succeeds the session is started without a browser, showing HOME when `start` completes and escaping with its exception otherwise; an authentication error while opening the browser becomes a RuntimeError; otherwise the code the local server received decides the outcome as in AfterRedirect |
| BatchappsAuth.AuthThread | Blender.Client/batchapps_blender/auth.py:205-207 | the sign-in thread keeps the sign-in's page unless an exception escaped, when the session wrapper's page is shown |
| BatchappsAuth.HomeExactlyOnSignIn | Blender.Client/batchapps_blender/auth.py:356-400 | a sign-in from another page ends on HOME exactly when the credentials were obtained (automatically, or through a usable browser code whose token exchange succeeds) and `start` completes; then the session has started; when `start` raises after a sign-in, the wrapper shows ERROR |
| BatchappsAuth.Start | Blender.Client/batchapps_blender/shared.py:275-298 | `start` completes, and so can show HOME, exactly when the submission class accepts the three managers and the pools page's helper has `register_expanding`; otherwise the submission page's TypeError, or the pools page's AttributeError, escapes |
| BatchappsAuth.StartAsWrittenFails | Blender.Client/batchapps_blender/shared.py:285-296 | with the classes as the repository defines them `start` raises TypeError at the submission page; with only the pools helper wrong it raises the AttributeError; with the classes it expects it completes |
| BatchappsAuth.StartSession | Blender.Client/batchapps_blender/auth.py:371-374 | calling `start` after the credentials are stored shows HOME and records the started session when it completes, and otherwise leaves the page and lets its exception escape |
| BatchappsAuth.SignInAsWrittenNeverHome | Blender.Client/batchapps_blender/auth.py:370-400 | with the classes as written no sign-in reaches HOME: every successful one ends on ERROR with the TypeError from `start` |
| BatchappsAuth.SignInIntendedHome | Blender.Client/batchapps_blender/auth.py:356-400 | with the classes `start` expects, a sign-in from another page ends on HOME exactly when the credentials were obtained |
| BatchappsAuth.MissingDescriptionRaises | Blender.Client/batchapps_blender/auth.py:383-390 | an error redirect without a description escapes with an AttributeError, and the wrapper shows ERROR |
| BatchappsAuth.Login | Blender.Client/batchapps_blender/auth.py:189-214 | the login operator moves LOGIN to REDIRECT and leaves any other page |
| BatchappsAuth.Logout | Blender.Client/batchapps_blender/auth.py:216-240 | logging out clears cached credentials exactly when there are some, and always leaves no credentials and the LOGIN page |
| BatchappsAuth.LogoutIdempotent | Blender.Client/batchapps_blender/auth.py:216-240 | logging out a second time changes nothing and clears no cache |
| Watcher.TruncHalf | Blender.Client/batched_blender/scripts/job_watcher.py:45 | halving truncates toward zero, as int() of a true division does, so the result is within one half of the exact half on either sign |
| Watcher.HeaderCentres | Blender.Client/batched_blender/scripts/job_watcher.py:41-49 | a banner text of at most 50 characters comes out after two newlines, centred in exactly 50 columns of dashes, with the odd dash at the end |
| Watcher.HeaderOverflows | Blender.Client/batched_blender/scripts/job_watcher.py:41-49 | a text longer than 50 characters gets no leading dashes and a single trailing dash exactly when its excess over 50 is odd |
| Watcher.CheckJobStopped | Blender.Client/batched_blender/scripts/job_watcher.py:93-118 | a disabling, disabled, terminating or deleting job raises RuntimeError; exactly a completed job gives True and exactly an active or enabling one gives False |
| Watcher.UnrecognisedKeepsPolling | Blender.Client/batched_blender/scripts/job_watcher.py:104-141 | any other job state falls through to None, and the tracking loop keeps polling on it as on a running job |
| Watcher.Track | Blender.Client/batched_blender/scripts/job_watcher.py:65-76 | a pass downloads only listed outputs that have no local file, every such output is downloaded, and afterwards every listed output has a local file |
| Watcher.TrackAgainDownloadsNothing | Blender.Client/batched_blender/scripts/job_watcher.py:65-76 | polling again right after a pass downloads nothing |
| Watcher.TrackDownloadsOnce | Blender.Client/batched_blender/scripts/job_watcher.py:65-76 | a pass downloads no output twice, even when the listing repeats a name |
| Watcher.InitialTasks | Blender.Client/batched_blender/scripts/job_watcher.py:124 | the first task listing is exactly the listed tasks other than "manager" |
| Watcher.CompletedTasks | Blender.Client/batched_blender/scripts/job_watcher.py:127 | the completed tasks are exactly the tasks in the completed state |
| Watcher.ErroredTasks | Blender.Client/batched_blender/scripts/job_watcher.py:128 | the errored tasks are exactly the completed tasks with a non-zero exit code |
| Watcher.ErroredExactly | Blender.Client/batched_blender/scripts/job_watcher.py:127-128 | a task is reported as errored exactly when it is listed, completed, and exited non-zero |
| Watcher.Percentage | Blender.Client/batched_blender/scripts/job_watcher.py:129-132 | the progress is 0 without tasks and otherwise 100 times the completed tasks over all tasks |
| Watcher.PercentageBounds | Blender.Client/batched_blender/scripts/job_watcher.py:129-132 | the progress lies between 0 and 100, and is 100 exactly when there are tasks and all have completed |
| Watcher.CompletedCount | Blender.Client/batched_blender/scripts/job_watcher.py:127 | the completed tasks are as many as all tasks exactly when every task has completed |
| Watcher.ManagerCountsAfterRefetch | Blender.Client/batched_blender/scripts/job_watcher.py:124-143 | the first listing ignores a running manager task, but once the loop refetches it counts, holding progress below 100 although every frame has completed |
| Watcher.InitialOfFrames | Blender.Client/batched_blender/scripts/job_watcher.py:124 | filtering frame tasks followed by the manager leaves exactly the frame tasks |
| Draw.PollHidesLuxRender | Blender.Client/batched_blender/draw.py:44-53 | the panel is not shown under the LuxRender engine |
| Draw.FirstOwner | Blender.Client/batched_blender/draw.py:160-180 | the part found owns the page and is among those asked, and none is found exactly when no part asked owns the page |
| Draw.DrawPanel | Blender.Client/batched_blender/draw.py:143-183 | the load-failure view is drawn exactly when the scene records a load error; otherwise a known page is drawn by a part that owns it, and an unknown page becomes ERROR drawn by the shared part |
| Draw.OrderIndex | Blender.Client/batched_blender/draw.py:160-176 | every part of the add-on is asked by the panel, at its own position in the order |
| Draw.PagesDisjoint | Blender.Client/batched_blender/draw.py:160-176 | no page is listed by two parts, so the order of the tests never decides which part draws it |
| Draw.DrawPicksTheOwner | Blender.Client/batched_blender/draw.py:160-176 | a known page is drawn by its one owner |
| Draw.OperatorId | Blender.Client/batched_blender/draw.py:116-140 | a button's operator id is the one operator registration gives the name |

## Left out

- Blender's host machinery is not modelled: operator and property registration, `PropertyGroup` declarations, load handlers, UI list drawing and all panel layout. The exceptions are the paging arithmetic of `ui_history.py` and the page routing of `draw.py`, which are modelled.
- Soft limits of Blender properties are not modelled. Hard `min`/`max` limits are modelled as clamping on assignment (`BlenderProps.Clamp`).
- Threads, modal timers and the `_loading_*`, `_processing_*` and `_redirect_*` operator pairs are left out. They only move work off Blender's event loop; the functions they run are modelled.
- The Azure Batch and Storage SDKs and the Batch Apps managers are not modelled inside. They stand for calls into code outside this repository. The model uses the abstract `Remote.RemoteState`, or an oracle parameter that gives the call's outcome. SAS tokens and URLs are left out.
- `HTTPServer`, `webbrowser`, `subprocess` (starting the job watcher and scanning processes), pip bootstrapping and console printing are I/O and are left out. `BatchappsUtils.DoGet` models only what the redirect handler stores and the status it answers.
- MD5, `os.path.realpath`, `bpy.path.clean_name` and `unquote` are opaque function parameters; their own behaviour belongs to other code. `random.choice`, `datetime.now` and `uuid4` are parameters.
- `helpers.get_job_percent` is a parameter, because it reads task state through the SDK. Download progress is left out.
- Watcher.Percentage: Python 3 divides in floating point. The model keeps the exact quotient as a numerator and denominator, so rounding is not modelled.
- `valid_scene` in both submission files only logs warnings, and saving the main file only writes to disk. Both are left out; saving is represented by the file entry it produces.
- `render.py`, `merge.py`, `helpers.py` (beyond the percentage), the BFiles page, both `shared.py` files and the preference property modules are left out. They run on compute nodes, read streams, or wire up clients and preferences. The Batch Apps `shared.py` `start`, which builds the pages and then shows HOME, is modelled inside `BatchappsAuth` (`Start`); its managers' own construction is reduced to whether it raises.
- The Batch Apps add-on cannot be loaded as written: its `shared.py` imports `BatchAppsSubmission` and `BatchAppsPools` (lines 37 and 40), but `submission.py` and `pools.py` define `BatchSubmission` and `BatchPools`. The model takes these as the classes meant.
- BatchappsHistory.HistoryPage: `_history` and the listing read `scene.batchapps_history` (history.py:205, :419), which is never registered; the history props are registered as `batch_history`. As written the first line raises AttributeError and the wrapper shows ERROR. The model reads the registered group.
- BatchappsAssets.AssetsPage and BatchappsAssets.Refresh: `_assets` and `_refresh` read `scene.batchapps_assets` (assets.py:150, :187), but the asset props are registered as `batch_assets`. As written `_assets` shows ASSETS and then raises, and the wrapper shows ERROR. The model reads the registered group.
- BatchappsSubmission.SubmitJob and BatchappsPools.PoolsPage read `scene.batch_session`, which the Batch Apps add-on never registers (it registers `batchapps_session`). The model takes the session to be the add-on's own.
- BatchedSubmission.SubmitJob and BatchedSubmission.PrepareJob: the job's `display_name`, its `on_all_tasks_complete` and `uses_task_dependencies` settings, and the `video_merge` metadata (submission.py:327-336) are not part of the modelled job, which is only its id and its task ids.
- BatchedSubmission.FrameTask and BatchedSubmission.MergeTaskIntended: every task's `environment_settings` (STORAGE_ACCOUNT and STORAGE_KEY, and HALT_SAMPLES under LuxRender, submission.py:306-308, 356-359, 370-372) are not modelled; they only pass the preferences through.
- BatchappsSubmission.PrepareJob and BatchappsSubmission.SubmitJob: the job's `display_name` (submission.py:454) is not part of the modelled job either.
- BatchappsPools.PoolsPage: as written the pools manager cannot be constructed, because `__init__` calls `_register_ops` (pools.py:50), which raises (`RegisterOpsAsWrittenFails`). Its outcomes with `hasExpanding` false are therefore unreachable; the page is modelled for either helper so that the corrected one can be stated.
- Watcher.CheckJobStopped and Watcher.Track: the script rewraps an AttributeError or TypeError from the SDK as a RuntimeError (job_watcher.py:74-75, 117-118, 147-148). Those SDK errors are not modelled, so neither is the rewrap.
- The Batch Apps `upload_assets` is not modelled as a member of its own. Its body is the same as the batched one, so `BatchappsSubmission.ConfigureAssets` calls `BatchedSubmission.UploadAssets`.
- The Batch Apps `pools.py` imports the batched `props_pools` module. The model instead reads the Batch Apps `props_pools.py` beside it, whose `display` and `selected` fields that page uses. Blender's handling of an attribute missing from a property group is not modelled.
- `collection` in the asset property group is a class-level list shared by every instance. The model gives each property group its own list, since the add-on creates only one.
- BatchedSubmission.GetPool and BatchedSubmission.CreatedPoolNotReferenced: Blender's check of operator keywords is not derived from the operator class; the flag `opTakesId` says whether the pool-creating operator declares `id`, and it is false for the operator `pools.py` registers (pools.py:67, utils.py:173-220), so the call raises TypeError (`CreateRejectsKeyword`). For an operator that declared it, the batched wrapper forwards only the operator and the context, so `_create` still chooses its default id.
- BatchedUtils.IsUploadedIffKeyStored and BatchedUtils.Upload: the blob listing `list_blobs` (utils.py:263) is taken to succeed. A failing listing would raise before the checksum is read; the model's `IsUploaded` raises only for a missing checksum.
- BatchappsAssets.AddFile: the SDK's `file_from_path` result is a parameter. Its truth value is taken to be whether the file exists, as the `_add_execute` docstring promises; None stands for a path the SDK gives no object for at all.
- `PyStr.ToLower` and `PyStr.ToUpper` fold ASCII letters only, while Python's `str.lower()` and `str.upper()` fold all of Unicode. Job states, image formats and package names are ASCII, so `BatchappsHistory.StatusIcon`, `BatchappsHistory.OffersCancel` and `BatchedSubmission.LuxCommandShape` are unaffected for them.
- Python's `int()` accepts surrounding whitespace, underscores and a sign; `PyStr.ParseInt` accepts an optional sign and ASCII digits only.

## Findings

| source | as written | input that shows it | evidently intended | confidence | as-written member | corrected member |
|---|---|---|---|---|---|---|
| Blender.Client/batched_blender/submission.py:222-227 | the auto-pool branch formats `pool_name`, but only `name` is bound | pool type `{"auto"}` | build the auto-pool spec from the name just made | high; not executed | BatchedSubmission.AutoPoolNameError | BatchedSubmission.GetPoolIntended |
| Blender.Client/batched_blender/submission.py:212-220 | "create" calls the pool-creating operator with an `id` keyword it does not declare, so Blender raises TypeError and no pool is made; were the keyword accepted, the wrapper would not pass it on, `_create` would use its own id and swallow its failure, and the job would name the made-up id | pool type `{"create"}` | create the pool, give the job the id of the pool actually created, and stop when creation fails | high; not executed | BatchedSubmission.CreateRejectsKeyword | BatchedSubmission.GetPoolIntended |
| Blender.Client/batched_blender/submission.py:387-394 | the clean-up catches `Exceptopn`, an undefined name | `job.add` fails, so the clean-up's `job.delete` fails too | log the failed clean-up and raise the original error again | high; not executed | BatchedSubmission.CleanupFailureMasksError | BatchedSubmission.CleanUpIntended |
| Blender.Client/batched_blender/submission.py:297-308 | `merge_task` names `render_script`, a local of `configure_assets` | video merge on, LuxRender off | use the merge script's own resource files | high; not executed | BatchedSubmission.MergeTask | BatchedSubmission.MergeTaskIntended |
| Blender.Client/batchapps_blender/submission.py:480-486 | the clean-up catches `Exceptopn`, an undefined name | `job.add` fails | log the failed clean-up and raise the original error again | high; not executed | BatchappsSubmission.CleanupFailureMasksError | BatchappsSubmission.CommitIntended |
| Blender.Client/batched_blender/jobs.py:299-301 | the list filter is `startswith(id,'blender_render')`, but submitted job ids begin 'blender-render-' or 'luxblend-render-' | any job the add-on submitted | filter on the prefixes submission uses | high; not executed | BatchedJobs.SubmittedJobsFilteredOut | BatchedJobs.SubmittedJobsListedIntended |
| Blender.Client/batchapps_blender/auth.py:351-352 | with no '&' after the value, `find` gives -1 and the slice stops one character short | redirect `/?error=denied` decodes to `denie` | take the value to the end of the string | high; not executed | BatchappsAuth.DecodeErrorDropsLastCharacter | BatchappsAuth.DecodeErrorIntendedValue |
| Blender.Client/batchapps_blender/pools.py:34-50 | `register_expanding` is called on the batched `BatchOps`, which does not define it | constructing the pools manager | use the Batch Apps helper, which defines it | high; not executed | BatchappsPools.RegisterOpsAsWrittenFails | BatchappsPools.RegisterOpsIntended |
| Blender.Client/batched_blender/assets.py:375-383 | the duplicate test `user_file not in props.collection` compares a fresh object by identity, so it never matches | a file referenced twice by the scene | skip an asset equal to one already listed | high; not executed | BatchedAssets.DuplicatesKept | BatchedAssets.GenerateCollectionIntended |
| Blender.Client/batchapps_blender/shared.py:285-298 | `start` passes three managers to the submission class, whose `__init__` takes two, and then builds the pools page, whose helper lacks `register_expanding`; HOME is set only after both | any successful sign-in | build every page and show HOME | high; not executed | BatchappsAuth.SignInAsWrittenNeverHome | BatchappsAuth.SignInIntendedHome |

=== FILE: asset_props.dfy ===
/** `props/props_assets.py` (the two add-on variants carry the same file):
    the asset list of the scene, kept twice (asset objects and display
    entries), the path of the blend file to render and whether that path is
    a temporary one. */
module AssetProps {
  import opened Outcomes
  import opened DisplayList
  import Dates
  import opened BatchedUtils

  /** An `AssetDisplayProps` row. */
  datatype AssetEntry = AssetEntry(name: string, fullpath: string, uploadCheckbox: bool,
                                   uploadCheck: bool, timestamp: string)

  datatype Props = Props(lists: Lists<Asset, AssetEntry>, path: string, temp: bool)

  /** The display row `add_asset` fills in before asking whether the asset is
      uploaded; `upload_check` keeps its default False when that question
      raises. */
  function EntryFor(a: Asset, uploaded: Result<bool>): (e: AssetEntry)
    ensures e.name == a.name && e.fullpath == a.path && !e.uploadCheckbox
    ensures e.uploadCheck <==> uploaded == Ok(true)
    ensures e.timestamp == Dates.FormatDate(a.lastModified, Dates.AssetHandler(a.lastModified)).value
  {
    var stamp := Dates.FormatDate(a.lastModified, Dates.AssetHandler(a.lastModified));
    AssetEntry(a.name, a.path, false, uploaded == Ok(true), stamp.value)
  }

  /** No two asset objects in the list are equal. */
  predicate Distinct(objs: seq<Asset>) {
    forall j, k :: 0 <= j < k < |objs| ==> objs[j] != objs[k]
  }

  /** `add_asset`: both lists grow by one row before `is_uploaded` is asked
      (`uploaded` is its outcome); an exception from it escapes after the
      rows were added. */
  function AddAsset(p: Props, a: Asset, uploaded: Result<bool>): (r: Step<Props>)
    ensures r.state.lists == Add(p.lists, a, EntryFor(a, uploaded))
    ensures r.state.path == p.path && r.state.temp == p.temp
    ensures r.raised.Some? <==> uploaded.Raise?
    ensures uploaded.Raise? ==> r.raised == Some(uploaded.exc)
  {
    var next := p.(lists := Add(p.lists, a, EntryFor(a, uploaded)));
    if uploaded.Raise? then Step(next, Some(uploaded.exc)) else Step(next, None)
  }

  /** `get_jobfile`: the first asset object whose path is the job path;
      ValueError when there is none. */
  function GetJobfile(p: Props): (r: Result<Asset>)
    ensures r.Ok? <==> exists i :: 0 <= i < |p.lists.objs| && p.lists.objs[i].path == p.path
    ensures r.Raise? ==> r.exc.ValueError?
    ensures r.Ok? ==> exists i :: 0 <= i < |p.lists.objs| && p.lists.objs[i] == r.value
                                 && r.value.path == p.path
                                 && forall j :: 0 <= j < i ==> p.lists.objs[j].path != p.path
  {
    FirstWithPath(p.lists.objs, p.path, 0)
  }

  function FirstWithPath(objs: seq<Asset>, path: string, start: nat): (r: Result<Asset>)
    requires start <= |objs|
    ensures r.Ok? <==> exists i :: start <= i < |objs| && objs[i].path == path
    ensures r.Raise? ==> r.exc.ValueError?
    ensures r.Ok? ==> exists i :: start <= i < |objs| && objs[i] == r.value && r.value.path == path
                                 && forall j :: start <= j < i ==> objs[j].path != path
    decreases |objs| - start
  {
    if start == |objs| then Raise(ValueError("Job Asset not in collection"))
    else if objs[start].path == path then Ok(objs[start])
    else FirstWithPath(objs, path, start + 1)
  }

  /** `set_uploaded`: every display row is marked uploaded, nothing else
      changes. */
  function SetUploaded(p: Props): (r: Props)
    ensures r.lists.objs == p.lists.objs && r.lists.index == p.lists.index
    ensures r.path == p.path && r.temp == p.temp
    ensures |r.lists.disp| == |p.lists.disp|
    ensures forall i :: 0 <= i < |r.lists.disp| ==> r.lists.disp[i] == p.lists.disp[i].(uploadCheck := true)
  {
    p.(lists := p.lists.(disp := MarkAll(p.lists.disp)))
  }

  function MarkAll(d: seq<AssetEntry>): (r: seq<AssetEntry>)
    ensures |r| == |d|
    ensures forall i :: 0 <= i < |d| ==> r[i] == d[i].(uploadCheck := true)
  {
    if |d| == 0 then [] else [d[0].(uploadCheck := true)] + MarkAll(d[1..])
  }

  /** `reset`. */
  function ResetAssets(p: Props): (r: Props)
    ensures r.lists.objs == [] && r.lists.disp == [] && r.lists.index == 0
    ensures r.path == p.path && r.temp == p.temp
  {
    p.(lists := Reset(p.lists))
  }

  /** The load handler `on_load`: the job path is cleared, and the refresh
      operator runs (`refresh` is true) only when the session shows ASSETS. */
  function OnLoad(p: Props, page: string): (r: (Props, bool))
    ensures r.0 == p.(path := "")
    ensures r.1 <==> page == "ASSETS"
  {
    (p.(path := ""), page == "ASSETS")
  }

  /** Whatever `is_uploaded` does, adding keeps the lists in lockstep and the
      new row describes the new asset. */
  lemma AddAssetMirrors(p: Props, a: Asset, uploaded: Result<bool>)
    requires Lockstep(p.lists)
    ensures var s := AddAsset(p, a, uploaded).state;
            Lockstep(s.lists) && s.lists.objs[|s.lists.objs| - 1] == a
            && s.lists.disp[|s.lists.disp| - 1].fullpath == a.path
            && s.lists.disp[|s.lists.disp| - 1].name == a.name
  {
  }

  /** Once an asset with the job path is in the list, `get_jobfile` finds
      one; after a reset it finds none. */
  lemma JobfileFoundAfterAdd(p: Props, a: Asset, uploaded: Result<bool>)
    requires a.path == p.path
    ensures GetJobfile(AddAsset(p, a, uploaded).state).Ok?
    ensures GetJobfile(ResetAssets(p)).Raise?
  {
    var s := AddAsset(p, a, uploaded).state;
    assert s.lists.objs[|p.lists.objs|] == a;
  }

  /** Marking everything uploaded is idempotent and does not move the job
      file. */
  lemma SetUploadedIdempotent(p: Props)
    ensures SetUploaded(SetUploaded(p)) == SetUploaded(p)
    ensures GetJobfile(SetUploaded(p)) == GetJobfile(p)
  {
    var once := SetUploaded(p);
    var twice := SetUploaded(once);
    assert twice.lists.disp == once.lists.disp;
  }
}

=== FILE: batchapps_assets.dfy ===
/** `batchapps_blender/assets.py`: the same asset page on top of the Batch
    Apps SDK. The SDK's `file_from_path` is a parameter: the file object it
    returns for a path, or None for a path it cannot use; its `is_uploaded`
    and `upload` answers are parameters too. The SDK's file objects compare
    by value, and one is true exactly when its file exists (`present`). */
module BatchappsAssets {
  import opened Outcomes
  import opened DisplayList
  import opened BatchedUtils
  import opened AssetProps
  import BatchedAssets

  /** The temporary-name shape of this variant. */
  predicate IsTempName(n: string) {
    |n| == 27 && n[..13] == "BATCHAPPSTMP_" && n[21..] == ".blend"
    && forall k :: 13 <= k < 21 ==> n[k] in BatchedAssets.HexDigits
  }

  /** `name_generator()`: `picks` are the eight characters `random.choice`
      returns. */
  function NameGenerator(picks: string): (n: string)
    requires |picks| == 8 && forall k :: 0 <= k < 8 ==> picks[k] in BatchedAssets.HexDigits
    ensures IsTempName(n) && n[13..21] == picks
  {
    "BATCHAPPSTMP_" + picks + ".blend"
  }

  lemma NameGeneratorOnto(n: string)
    requires IsTempName(n)
    ensures NameGenerator(n[13..21]) == n
  {
    assert n == n[..13] + n[13..21] + n[21..];
  }

  /** `get_jobpath`: unlike the other variant, an unsaved blend file that is
      already marked temporary keeps its stored path even when that is
      empty. */
  function GetJobpath(dataPath: string, p: Props, tempDir: string, tempName: string): (r: (string, Props))
    ensures dataPath != "" ==> r.0 == dataPath && !r.1.temp
    ensures dataPath == "" ==> r.1.temp
    ensures dataPath == "" && p.temp ==> r.0 == p.path
    ensures dataPath == "" && !p.temp ==> r.0 == BatchedAssets.JoinPath(tempDir, tempName)
    ensures r.1 == p.(temp := r.1.temp)
  {
    if dataPath == "" && p.temp then (p.path, p)
    else if dataPath == "" then (BatchedAssets.JoinPath(tempDir, tempName), p.(temp := true))
    else (dataPath, p.(temp := false))
  }

  /** The truth value of what `file_from_path` returned: a file object
      whose file exists. */
  predicate Truthy(file: Option<Asset>) {
    file.Some? && file.value.present
  }

  /** One step of `generate_collection` and of `_add_execute`: an existing
      file not yet listed is added; a listed or missing one is skipped with
      a warning that reads its `.name`; for None that read raises
      AttributeError. */
  function AddFile(p: Props, file: Option<Asset>, isUploaded: Asset -> Result<bool>): (r: Step<Props>)
    requires Lockstep(p.lists)
    ensures Lockstep(r.state.lists)
    ensures r.state.path == p.path && r.state.temp == p.temp
    ensures file.None? ==> r == Step(p, Some(AttributeError("name")))
    ensures file.Some? && (!file.value.present || file.value in p.lists.objs) ==> r == Step(p, None)
    ensures Truthy(file) && file.value !in p.lists.objs ==>
              r.state.lists.objs == p.lists.objs + [file.value]
              && r.raised == (if isUploaded(file.value).Raise? then Some(isUploaded(file.value).exc) else None)
    ensures Distinct(p.lists.objs) ==> Distinct(r.state.lists.objs)
  {
    match file
    case None => Step(p, Some(AttributeError("name")))
    case Some(f) =>
      if !f.present || f in p.lists.objs then Step(p, None)
      else
        var s := AddAsset(p, f, isUploaded(f));
        assert s.state.lists.objs == p.lists.objs + [f];
        s
  }

  /** The loop of `generate_collection` from position `i` on. */
  function AddFiles(p: Props, paths: seq<string>, i: nat, fileFromPath: string -> Option<Asset>,
                    isUploaded: Asset -> Result<bool>): (r: Step<Props>)
    requires Lockstep(p.lists) && i <= |paths|
    ensures Lockstep(r.state.lists)
    ensures r.state.path == p.path && r.state.temp == p.temp
    ensures Distinct(p.lists.objs) ==> Distinct(r.state.lists.objs)
    ensures (exists j :: i <= j < |paths| && fileFromPath(paths[j]).None?) ==> r.raised.Some?
    ensures ((forall j :: i <= j < |paths| ==> fileFromPath(paths[j]).Some?)
             && (forall a: Asset :: isUploaded(a).Ok?)) ==> r.raised.None?
    ensures r.raised.None? ==>
              forall j :: i <= j < |paths| ==>
                fileFromPath(paths[j]).Some?
                && (fileFromPath(paths[j]).value.present ==> fileFromPath(paths[j]).value in r.state.lists.objs)
    ensures forall x :: x in p.lists.objs ==> x in r.state.lists.objs
    ensures forall x :: x in r.state.lists.objs ==>
              x in p.lists.objs || (x.present && exists j :: i <= j < |paths| && fileFromPath(paths[j]) == Some(x))
    decreases |paths| - i
  {
    if i == |paths| then Step(p, None)
    else
      var s := AddFile(p, fileFromPath(paths[i]), isUploaded);
      if s.raised.Some? then s
      else AddFiles(s.state, paths, i + 1, fileFromPath, isUploaded)
  }

  /** Whatever the loop of `generate_collection` adds is the existing file
      of a referenced path. */
  lemma LoopAddsOnlyReferenced(p: Props, d: BatchedAssets.BlendData, resolve: string -> string,
                               fileFromPath: string -> Option<Asset>, isUploaded: Asset -> Result<bool>)
    ensures var s := AddFiles(ResetAssets(p), BatchedAssets.CollectAssets(d, resolve), 0, fileFromPath, isUploaded);
            forall x :: x in s.state.lists.objs ==>
              x.present && exists fp :: BatchedAssets.Referenced(d, fp) && fileFromPath(resolve(fp)) == Some(x)
  {
    var paths := BatchedAssets.CollectAssets(d, resolve);
    var s := AddFiles(ResetAssets(p), paths, 0, fileFromPath, isUploaded);
    BatchedAssets.CollectAssetsSound(d, resolve);
    forall x | x in s.state.lists.objs
      ensures x.present && exists fp :: BatchedAssets.Referenced(d, fp) && fileFromPath(resolve(fp)) == Some(x)
    {
      var j :| 0 <= j < |paths| && fileFromPath(paths[j]) == Some(x);
      assert paths[j] in paths;
    }
  }

  /** When every referenced path gives a file object and no upload check
      raises, missing files are only warned about and the loop of `generate_collection` runs to the end. */
  lemma LoopCompletes(p: Props, d: BatchedAssets.BlendData, resolve: string -> string,
                      fileFromPath: string -> Option<Asset>, isUploaded: Asset -> Result<bool>)
    ensures ((forall fp :: BatchedAssets.Referenced(d, fp) ==> fileFromPath(resolve(fp)).Some?)
             && (forall a: Asset :: isUploaded(a).Ok?)) ==>
            AddFiles(ResetAssets(p), BatchedAssets.CollectAssets(d, resolve), 0, fileFromPath, isUploaded).raised.None?
  {
    var paths := BatchedAssets.CollectAssets(d, resolve);
    BatchedAssets.CollectAssetsSound(d, resolve);
    if forall fp :: BatchedAssets.Referenced(d, fp) ==> fileFromPath(resolve(fp)).Some? {
      forall j | 0 <= j < |paths| ensures fileFromPath(paths[j]).Some? {
        assert paths[j] in paths;
      }
    }
  }

  /** `generate_collection`: reset, add each existing referenced file once,
      skipping missing ones with a warning, then the blend file itself when
      it is not temporary and exists. */
  function GenerateCollection(p: Props, d: BatchedAssets.BlendData, resolve: string -> string,
                              fileFromPath: string -> Option<Asset>,
                              isUploaded: Asset -> Result<bool>): (r: Step<Props>)
    ensures Lockstep(r.state.lists) && Distinct(r.state.lists.objs)
    ensures r.state.path == p.path && r.state.temp == p.temp
    ensures r.raised.None? ==>
              forall fp :: BatchedAssets.Referenced(d, fp) ==>
                fileFromPath(resolve(fp)).Some?
                && (fileFromPath(resolve(fp)).value.present ==> fileFromPath(resolve(fp)).value in r.state.lists.objs)
    ensures r.raised.None? && !p.temp && Truthy(fileFromPath(p.path)) ==>
              fileFromPath(p.path).value in r.state.lists.objs
    ensures forall x :: x in r.state.lists.objs ==>
              x.present
              && ((exists fp :: BatchedAssets.Referenced(d, fp) && fileFromPath(resolve(fp)) == Some(x))
                  || (!p.temp && fileFromPath(p.path) == Some(x)))
    ensures ((forall fp :: BatchedAssets.Referenced(d, fp) ==> fileFromPath(resolve(fp)).Some?)
             && (forall a: Asset :: isUploaded(a).Ok?)) ==> r.raised.None?
  {
    var paths := BatchedAssets.CollectAssets(d, resolve);
    var s := AddFiles(ResetAssets(p), paths, 0, fileFromPath, isUploaded);
    assert forall fp :: BatchedAssets.Referenced(d, fp) ==> resolve(fp) in paths;
    LoopAddsOnlyReferenced(p, d, resolve, fileFromPath, isUploaded);
    LoopCompletes(p, d, resolve, fileFromPath, isUploaded);
    if s.raised.Some? || p.temp then s
    else
      var job := fileFromPath(p.path);
      if Truthy(job) then
        var r := AddFile(s.state, job, isUploaded);
        assert forall x :: x in r.state.lists.objs ==> x in s.state.lists.objs || x == job.value;
        r
      else s
  }

  /** A referenced path for which the SDK gives no file object at all makes
      the whole collection raise: the warning reads `.name` of None. */
  lemma MissingFileAborts(p: Props, d: BatchedAssets.BlendData, resolve: string -> string,
                          fileFromPath: string -> Option<Asset>, isUploaded: Asset -> Result<bool>,
                          fp: string)
    requires BatchedAssets.Referenced(d, fp) && fileFromPath(resolve(fp)).None?
    ensures GenerateCollection(p, d, resolve, fileFromPath, isUploaded).raised.Some?
  {
  }

  /** A referenced file that does not exist is skipped with a warning: it
      is never listed, and on its own it does not stop the collection. */
  lemma AbsentFileSkipped(p: Props, d: BatchedAssets.BlendData, resolve: string -> string,
                          fileFromPath: string -> Option<Asset>, isUploaded: Asset -> Result<bool>,
                          fp: string)
    requires BatchedAssets.Referenced(d, fp)
    requires fileFromPath(resolve(fp)).Some? && !fileFromPath(resolve(fp)).value.present
    ensures fileFromPath(resolve(fp)).value !in GenerateCollection(p, d, resolve, fileFromPath, isUploaded).state.lists.objs
    ensures (forall q :: BatchedAssets.Referenced(d, q) ==> fileFromPath(resolve(q)).Some?)
            && (forall a: Asset :: isUploaded(a).Ok?) ==>
              GenerateCollection(p, d, resolve, fileFromPath, isUploaded).raised.None?
  {
  }

  /** `_assets`: switch to the page; rebuild only when the job path changed.
      The save of a saved blend file that precedes the rebuild is outside the
      model. Under `session` an exception leaves the page on ERROR. */
  function AssetsPage(p: Props, d: BatchedAssets.BlendData, resolve: string -> string,
                      fileFromPath: string -> Option<Asset>, isUploaded: Asset -> Result<bool>,
                      tempDir: string, tempName: string): (r: (Step<Props>, string))
    requires Lockstep(p.lists)
    ensures var (path, _) := GetJobpath(d.filepath, p, tempDir, tempName);
            r.0.state.path == path
            && (path == p.path ==> r.0.state.lists == p.lists && r.0.raised.None?)
    ensures r.1 == (if r.0.raised.Some? then "ERROR" else "ASSETS")
    ensures Lockstep(r.0.state.lists)
    ensures var (path, p1) := GetJobpath(d.filepath, p, tempDir, tempName);
            path != p.path ==>
              r.0 == GenerateCollection(p.(path := path, temp := p1.temp), d, resolve, fileFromPath, isUploaded)
  {
    var (path, p1) := GetJobpath(d.filepath, p, tempDir, tempName);
    if path == p.path then (Step(p1, None), "ASSETS")
    else
      var s := GenerateCollection(p1.(path := path), d, resolve, fileFromPath, isUploaded);
      (s, if s.raised.Some? then "ERROR" else "ASSETS")
  }

  /** Opening the page a second time, on the same blend file, changes
      nothing. */
  lemma AssetsPageStable(p: Props, d: BatchedAssets.BlendData, resolve: string -> string,
                         fileFromPath: string -> Option<Asset>, isUploaded: Asset -> Result<bool>,
                         tempDir: string, tempName: string, tempName2: string)
    requires Lockstep(p.lists)
    requires AssetsPage(p, d, resolve, fileFromPath, isUploaded, tempDir, tempName).0.raised.None?
    ensures var q := AssetsPage(p, d, resolve, fileFromPath, isUploaded, tempDir, tempName).0.state;
            AssetsPage(q, d, resolve, fileFromPath, isUploaded, tempDir, tempName2).0.state == q
  {
    var q := AssetsPage(p, d, resolve, fileFromPath, isUploaded, tempDir, tempName).0.state;
    var (path, p1) := GetJobpath(d.filepath, p, tempDir, tempName);
    assert q.path == path && q.temp == p1.temp;
  }

  /** `_refresh`: rebuild whatever the path. */
  function Refresh(page: string, p: Props, d: BatchedAssets.BlendData, resolve: string -> string,
                   fileFromPath: string -> Option<Asset>, isUploaded: Asset -> Result<bool>,
                   tempDir: string, tempName: string): (r: (Step<Props>, string))
    ensures r.0.state.path == GetJobpath(d.filepath, p, tempDir, tempName).0
    ensures Lockstep(r.0.state.lists) && Distinct(r.0.state.lists.objs)
    ensures r.1 == (if r.0.raised.Some? then "ERROR" else page)
    ensures var (path, p1) := GetJobpath(d.filepath, p, tempDir, tempName);
            r.0 == GenerateCollection(p.(path := path, temp := p1.temp), d, resolve, fileFromPath, isUploaded)
  {
    var (path, p1) := GetJobpath(d.filepath, p, tempDir, tempName);
    var s := GenerateCollection(p1.(path := path), d, resolve, fileFromPath, isUploaded);
    (s, if s.raised.Some? then "ERROR" else page)
  }

  /** `_add_execute`: the chosen file is added only if it exists and is
      not already listed; otherwise a warning is logged, which for a path
      the SDK rejects outright raises AttributeError on `.name` of None. */
  function AddExecute(p: Props, file: Option<Asset>, isUploaded: Asset -> Result<bool>): (r: Step<Props>)
    requires Lockstep(p.lists)
    ensures Lockstep(r.state.lists)
    ensures Distinct(p.lists.objs) ==> Distinct(r.state.lists.objs)
    ensures file.None? ==> r.raised == Some(AttributeError("name")) && r.state == p
    ensures Truthy(file) ==> file.value in r.state.lists.objs
    ensures !Truthy(file) ==> r.state == p
    ensures forall x :: x in r.state.lists.objs <==> x in p.lists.objs || (Truthy(file) && x == file.value)
  {
    AddFile(p, file, isUploaded)
  }

  /** `_upload` with `upload(force=True)`: each ticked row's
      `upload_check` becomes whether its upload went through (`ok[i]`), and
      nothing else changes. */
  function UploadPending(p: Props, ok: seq<bool>): (q: Props)
    requires Lockstep(p.lists) && |ok| == |p.lists.disp|
    ensures q.lists.objs == p.lists.objs && q.lists.index == p.lists.index
    ensures q.path == p.path && q.temp == p.temp
    ensures |q.lists.disp| == |p.lists.disp|
    ensures forall i :: 0 <= i < |p.lists.disp| ==>
              q.lists.disp[i] == (if p.lists.disp[i].uploadCheckbox
                                  then p.lists.disp[i].(uploadCheck := ok[i])
                                  else p.lists.disp[i])
  {
    p.(lists := p.lists.(disp := UploadRows(p.lists.disp, ok)))
  }

  function UploadRows(disp: seq<AssetEntry>, ok: seq<bool>): (r: seq<AssetEntry>)
    requires |ok| == |disp|
    ensures |r| == |disp|
    ensures forall i :: 0 <= i < |disp| ==>
              r[i] == (if disp[i].uploadCheckbox then disp[i].(uploadCheck := ok[i]) else disp[i])
  {
    if |disp| == 0 then []
    else [if disp[0].uploadCheckbox then disp[0].(uploadCheck := ok[0]) else disp[0]]
         + UploadRows(disp[1..], ok[1..])
  }
}

=== FILE: batchapps_auth.dfy ===
/** `batchapps_blender/auth.py`: signing the add-on in. Automatic sign-in
    tries an unattended session, then a cached one; failing both, the user
    signs in through a browser whose redirect is caught by a one-request
    local server, and the code it carries is exchanged for a token.

    The service calls are inputs (`AuthEnv`): `AuthError` stands for both
    `AuthenticationException` and `InvalidConfigException`, which are the
    exceptions the add-on catches; any other exception escapes. */
module BatchappsAuth {
  import opened Outcomes
  import opened PyStr
  import BatchappsUtils
  import BatchappsPools

  /** An opaque credentials object. */
  type Credentials = string

  /** `props.credentials` and `props.code` (None until a request arrives). */
  datatype AuthProps = AuthProps(credentials: Option<Credentials>, code: Option<string>)

  /** What the outside world answers during one sign-in: the two automatic
      sessions, the authorisation URL, the configured redirect URI, the path
      of the request the local server receives before its timeout (None when
      none comes), the token exchange, `unquote`, and the page classes the
      session's `start` builds. */
  datatype AuthEnv = AuthEnv(unattended: Result<Credentials>, cached: Result<Credentials>,
                             authUrl: Result<string>, redirectUri: string,
                             request: Option<string>, token: Result<Credentials>,
                             unquote: string -> string, managers: Managers)

  // ------------------------------------------------------------------ start

  /** The two facts about the page classes that decide whether
      `BatchAppsSettings.start` completes: whether the submission class
      accepts the three managers `start` hands it (the class in
      `submission.py` takes two), and whether the operator helper the pools
      page registers with has `register_expanding` (the batched helper it
      imports has not). */
  datatype Managers = Managers(submissionTakesThree: bool, hasExpanding: bool)

  /** The classes as the repository defines them. */
  const ManagersAsWritten := Managers(false, false)

  /** The classes `start` evidently expects. */
  const ManagersIntended := Managers(true, true)

  /** `BatchAppsSettings.start`: the submission, assets, history and pools
      pages are built in that order, and HOME is shown only after all four.
      None means it completed; otherwise the exception that escaped. The
      assets and history pages register with their own helper and are
      taken to succeed. */
  function Start(m: Managers): (r: Option<Exc>)
    ensures r.None? <==> m.submissionTakesThree && m.hasExpanding
    ensures !m.submissionTakesThree ==> r == Some(TypeError)
    ensures m.submissionTakesThree ==> r == BatchappsPools.RegisterOps(m.hasExpanding).raised
  {
    if !m.submissionTakesThree then Some(TypeError)
    else BatchappsPools.RegisterOps(m.hasExpanding).raised
  }

  /** The classes as written stop `start` at its first construction. */
  lemma StartAsWrittenFails()
    ensures Start(ManagersAsWritten) == Some(TypeError)
    ensures Start(Managers(true, false)) == Some(AttributeError("register_expanding"))
    ensures Start(ManagersIntended).None?
  {
  }

  /** Calling `session.start(c)` after the credentials `q` holds: HOME when
      it completes, otherwise the page is left alone and the exception
      escapes. */
  function StartSession(q: AuthProps, c: Credentials, page: string, m: Managers): (r: SignIn)
    ensures r.props == q
    ensures Start(m).None? ==> r == SignIn(q, "HOME", Some(c), None)
    ensures Start(m).Some? ==> r == SignIn(q, page, None, Start(m))
  {
    match Start(m)
    case None => SignIn(q, "HOME", Some(c), None)
    case Some(e) => SignIn(q, page, None, Some(e))
  }

  // ------------------------------------------------------------ decode_error

  /** `decode_error` as written: None when `val` does not occur; otherwise
      the unquoted text `code[start:end]` from just after the first `val`
      to the next '&'. When no '&' follows, `find` gives -1 and the slice
      stops one character short of the end. */
  function DecodeError(code: string, val: string, unquote: string -> string): (r: Option<string>)
    ensures r.None? <==> !Contains(code, val)
    ensures r.Some? ==>
              var start := Find(code, val) + |val|;
              var amp := FindFrom(code, "&", start);
              r.value == unquote(if amp == -1 then PySlice(code, start, -1) else code[start..amp])
  {
    var at := Find(code, val);
    if at < 0 then None
    else
      var start := at + |val|;
      var end := FindFrom(code, "&", start);
      Some(unquote(PySlice(code, start, end)))
  }

  /** `decode_error` as evidently intended: the value runs to the next '&'
      or to the end of the code. */
  function DecodeErrorIntended(code: string, val: string, unquote: string -> string): (r: Option<string>)
    ensures r.None? <==> !Contains(code, val)
  {
    var at := Find(code, val);
    if at < 0 then None
    else
      var start := at + |val|;
      var end := FindFrom(code, "&", start);
      Some(unquote(code[start..if end == -1 then |code| else end]))
  }

  /** The raw value the intended decoding unquotes: it follows the first
      `val`, holds no '&', and ends at an '&' or at the end of the code. */
  lemma DecodeErrorIntendedValue(code: string, val: string)
    requires Contains(code, val)
    ensures var r := DecodeErrorIntended(code, val, s => s).value;
            var start := Find(code, val) + |val|;
            start + |r| <= |code| && code[start..start + |r|] == r
            && (start + |r| == |code| || code[start + |r|] == '&')
            && '&' !in r
  {
    var start := Find(code, val) + |val|;
    var end := FindFrom(code, "&", start);
    if end == -1 {
      NoAmpersand(code, start, |code|);
    } else {
      assert code[end..end + 1] == "&";
      NoAmpersand(code, start, end);
    }
  }

  /** A stretch with no occurrence of "&" holds no '&'. */
  lemma NoAmpersand(code: string, start: nat, end: nat)
    requires start <= end <= |code|
    requires forall j :: start <= j < end ==> !OccursAt(code, "&", j)
    ensures '&' !in code[start..end]
  {
    forall i | 0 <= i < end - start
      ensures code[start..end][i] != '&'
    {
      assert code[start + i..start + i + 1] == [code[start + i]];
      assert !OccursAt(code, "&", start + i);
    }
  }

  /** With an '&' after the value the two decodings agree. */
  lemma DecodeErrorAgreesBeforeAmpersand(code: string, val: string, unquote: string -> string)
    requires Contains(code, val)
    requires FindFrom(code, "&", Find(code, val) + |val|) != -1
    ensures DecodeError(code, val, unquote) == DecodeErrorIntended(code, val, unquote)
  {
  }

  /** When the value is the last parameter, the decoding as written loses
      its last character (`/?error=denied` gives `denie`), while the
      intended one keeps it. */
  lemma DecodeErrorDropsLastCharacter(val: string, v: string)
    requires '&' !in v && |v| >= 1
    ensures DecodeError(val + v, val, s => s) == Some(v[..|v| - 1])
    ensures DecodeErrorIntended(val + v, val, s => s) == Some(v)
  {
    var code := val + v;
    assert code[0..|val|] == val;
    assert OccursAt(code, val, 0);
    assert Find(code, val) == 0;
    forall j | |val| <= j
      ensures !OccursAt(code, "&", j)
    {
      if j < |code| {
        assert code[j..j + 1] == [v[j - |val|]];
      }
    }
    assert FindFrom(code, "&", |val|) == -1;
    assert code[|val|..|code| - 1] == v[..|v| - 1];
    assert code[|val|..|code|] == v;
  }

  // ------------------------------------------------------------ sign-in steps

  /** `auto_authentication`: the unattended session first, the cached one
      only when that fails with an auth error; True with the credentials
      stored iff one of them succeeds. Any other exception escapes. */
  function AutoAuthentication(p: AuthProps, env: AuthEnv): (r: Result<(bool, AuthProps)>)
    ensures env.unattended.Ok? ==> r == Ok((true, p.(credentials := Some(env.unattended.value))))
    ensures env.unattended.Raise? && env.unattended.exc != AuthError ==> r == Raise(env.unattended.exc)
    ensures env.unattended == Raise(AuthError) ==>
              match env.cached
              case Ok(c) => r == Ok((true, p.(credentials := Some(c))))
              case Raise(AuthError) => r == Ok((false, p))
              case Raise(e) => r == Raise(e)
  {
    match env.unattended
    case Ok(c) => Ok((true, p.(credentials := Some(c))))
    case Raise(AuthError) =>
      (match env.cached
       case Ok(c) => Ok((true, p.(credentials := Some(c))))
       case Raise(AuthError) => Ok((false, p))
       case Raise(e) => Raise(e))
    case Raise(e) => Raise(e)
  }

  /** Automatic sign-in succeeds exactly when one of the two sessions is
      found, and never when both are refused. */
  lemma AutoAuthenticationSucceeds(p: AuthProps, env: AuthEnv)
    requires AutoAuthentication(p, env).Ok?
    ensures AutoAuthentication(p, env).value.0 <==> env.unattended.Ok? || env.cached.Ok?
    ensures AutoAuthentication(p, env).value.0 ==> AutoAuthentication(p, env).value.1.credentials.Some?
  {
  }

  /** The local server's address: the redirect URI split at ':', the first
      piece as host and the second read as the port. */
  function ServerAddress(uri: string): (r: Result<(string, int)>)
    ensures ':' !in uri ==> r == Raise(IndexError)
    ensures r.Ok? ==> r.value.0 == Split(uri, ':')[0]
                      && ParseInt(Split(uri, ':')[1]) == Ok(r.value.1)
  {
    var parts := Split(uri, ':');
    if |parts| < 2 then Raise(IndexError)
    else
      var port :- ParseInt(parts[1]);
      Ok((parts[0], port))
  }

  /** A `host:port` URI gives the host and port back. */
  lemma ServerAddressRoundTrip(host: string, port: nat)
    requires ':' !in host
    ensures ServerAddress(host + ":" + NatToStr(port)) == Ok((host, port))
  {
    var digits := NatToStr(port);
    assert ':' !in digits by {
      forall i | 0 <= i < |digits| ensures digits[i] != ':' {
        assert IsDigit(digits[i]);
      }
    }
    assert host + ":" + digits == host + [':'] + digits;
    SplitAt(host, ':', digits);
    SplitFree(digits, ':');
    ParseIntOfStr(port);
  }

  /** A full URI with a scheme (`http://localhost:8000`) is split at the
      scheme's ':' and fails to give a port. */
  lemma ServerAddressRejectsScheme(scheme: string, rest: string)
    requires ':' !in scheme && |rest| > 0 && rest[0] == '/'
    ensures ServerAddress(scheme + ":" + rest).Raise?
  {
    assert scheme + ":" + rest == scheme + [':'] + rest;
    SplitAt(scheme, ':', rest);
    var second := Split(rest, ':')[0];
    assert second[0] == '/';
    assert !IsDigit(second[0]);
  }

  // ------------------------------------------------------- web_authentication

  /** The end of a sign-in attempt: the properties left behind, the page
      shown, the credentials the session was started with (if any), and
      the exception that escaped (if any). */
  datatype SignIn = SignIn(props: AuthProps, page: string, started: Option<Credentials>,
                           raised: Option<Exc>)

  /** The branch after the browser round-trip. No code (None or "") goes
      back to LOGIN; a code holding '/?error=' shows ERROR, unless it lacks
      the '&error_description=' parameter, whose None then has no
      `.replace`; any other code is exchanged for a token, which is stored,
      and the session is started, which shows HOME only when `start`
      completes. */
  function AfterRedirect(p: AuthProps, page: string, env: AuthEnv): (r: SignIn)
    ensures p.code.None? || p.code == Some("") ==> r == SignIn(p, "LOGIN", None, None)
    ensures p.code.Some? && p.code.value != "" && Contains(p.code.value, "/?error=") ==>
              r.started.None? && r.props == p
              && (Contains(p.code.value, "&error_description=") ==> r.page == "ERROR" && r.raised.None?)
              && (!Contains(p.code.value, "&error_description=") ==>
                    r.raised == Some(AttributeError("replace")) && r.page == page)
    ensures p.code.Some? && p.code.value != "" && !Contains(p.code.value, "/?error=") ==>
              (env.token.Ok? ==> r == StartSession(p.(credentials := Some(env.token.value)),
                                                   env.token.value, page, env.managers))
              && (env.token.Ok? && Start(env.managers).None? ==>
                    r.started == Some(env.token.value) && r.raised.None? && r.page == "HOME"
                    && r.props.credentials == Some(env.token.value))
              && (env.token.Ok? && Start(env.managers).Some? ==>
                    r.started.None? && r.raised == Start(env.managers) && r.page == page
                    && r.props.credentials == Some(env.token.value))
              && (env.token.Raise? ==> r.started.None? && r.raised == Some(env.token.exc) && r.page == page)
  {
    match p.code
    case None => SignIn(p, "LOGIN", None, None)
    case Some(code) =>
      if code == "" then SignIn(p, "LOGIN", None, None)
      else if Contains(code, "/?error=") then
        var details := DecodeError(code, "&error_description=", env.unquote);
        if details.None? then SignIn(p, page, None, Some(AttributeError("replace")))
        else SignIn(p, "ERROR", None, None)
      else
        match env.token
        case Ok(c) => StartSession(p.(credentials := Some(c)), c, page, env.managers)
        case Raise(e) => SignIn(p, page, None, Some(e))
  }

  /** `web_authentication`: automatic sign-in first (on success the
      session is started without opening the browser); otherwise `open_websession` — an auth
      error there becomes RuntimeError — then `wait_for_request`, which
      clears the code, binds the server and stores the path of the one
      request it receives. */
  function WebAuthentication(p: AuthProps, page: string, env: AuthEnv): (r: SignIn)
    ensures AutoAuthentication(p, env).Ok? && AutoAuthentication(p, env).value.0 ==>
              var q := AutoAuthentication(p, env).value.1;
              r == StartSession(q, q.credentials.value, page, env.managers)
              && (Start(env.managers).None? ==> r.page == "HOME" && r.started == q.credentials)
              && (Start(env.managers).Some? ==> r.page == page && r.raised == Start(env.managers))
    ensures AutoAuthentication(p, env).Raise? ==> r.raised == Some(AutoAuthentication(p, env).exc)
    ensures AutoAuthentication(p, env).Ok? && !AutoAuthentication(p, env).value.0 ==>
              (env.authUrl.Raise? && env.authUrl.exc == AuthError ==>
                 r.raised == Some(RuntimeError("Failed to authorize addon")))
              && (env.authUrl.Ok? && ServerAddress(env.redirectUri).Ok? ==>
                    r == AfterRedirect(p.(code := env.request), page, env))
  {
    match AutoAuthentication(p, env)
    case Raise(e) => SignIn(p, page, None, Some(e))
    case Ok((true, q)) => StartSession(q, q.credentials.value, page, env.managers)
    case Ok((false, q)) =>
      match env.authUrl
      case Raise(AuthError) => SignIn(q, page, None, Some(RuntimeError("Failed to authorize addon")))
      case Raise(e) => SignIn(q, page, None, Some(e))
      case Ok(_) =>
        var cleared := q.(code := None);
        match ServerAddress(env.redirectUri)
        case Raise(e) => SignIn(cleared, page, None, Some(e))
        case Ok(_) => AfterRedirect(cleared.(code := env.request), page, env)
  }

  /** The sign-in thread runs under the session wrapper, whose page wins
      when an exception escaped. */
  function AuthThread(p: AuthProps, page: string, env: AuthEnv): (r: (AuthProps, string))
    ensures var s := WebAuthentication(p, page, env);
            r.0 == s.props
            && (s.raised.None? ==> r.1 == s.page)
            && (s.raised.Some? ==> r.1 == BatchappsUtils.Session<()>(Raise(s.raised.value), s.page).1)
  {
    var s := WebAuthentication(p, page, env);
    match s.raised
    case None => (s.props, s.page)
    case Some(e) => (s.props, BatchappsUtils.Session<()>(Raise(e), s.page).1)
  }

  /** The browser round-trip succeeds: the local server received a code
      that is not an error redirect, and the code was exchanged for a
      token. */
  predicate BrowserSignIn(p: AuthProps, env: AuthEnv) {
    && AutoAuthentication(p, env).Ok? && !AutoAuthentication(p, env).value.0
    && env.authUrl.Ok? && ServerAddress(env.redirectUri).Ok?
    && env.request.Some? && env.request.value != "" && !Contains(env.request.value, "/?error=")
    && env.token.Ok?
  }

  /** Automatic sign-in found a session, or the browser round-trip
      succeeded: the credentials are in hand and `start` is called. */
  predicate SignedIn(p: AuthProps, env: AuthEnv) {
    (AutoAuthentication(p, env).Ok? && AutoAuthentication(p, env).value.0) || BrowserSignIn(p, env)
  }

  /** A sign-in started from another page ends on HOME exactly when the
      credentials were obtained and `start` completed; then the session has
      started. When `start` raises, the wrapper shows ERROR instead. */
  lemma HomeExactlyOnSignIn(p: AuthProps, page: string, env: AuthEnv)
    requires page != "HOME"
    ensures AuthThread(p, page, env).1 == "HOME" <==> SignedIn(p, env) && Start(env.managers).None?
    ensures AuthThread(p, page, env).1 == "HOME" ==> WebAuthentication(p, page, env).started.Some?
    ensures SignedIn(p, env) && Start(env.managers).Some? ==>
              AuthThread(p, page, env).1 == "ERROR"
              && WebAuthentication(p, page, env).raised == Start(env.managers)
  {
  }

  /** With the page classes as the repository defines them, no sign-in
      reaches HOME: every successful one ends on ERROR with the TypeError of
      the submission page's construction. */
  lemma SignInAsWrittenNeverHome(p: AuthProps, page: string, env: AuthEnv)
    requires page != "HOME" && env.managers == ManagersAsWritten
    ensures AuthThread(p, page, env).1 != "HOME"
    ensures SignedIn(p, env) ==>
              AuthThread(p, page, env).1 == "ERROR"
              && WebAuthentication(p, page, env).raised == Some(TypeError)
  {
    HomeExactlyOnSignIn(p, page, env);
    StartAsWrittenFails();
  }

  /** With the classes `start` expects, a sign-in ends on HOME exactly when
      the credentials were obtained. */
  lemma SignInIntendedHome(p: AuthProps, page: string, env: AuthEnv)
    requires page != "HOME" && env.managers == ManagersIntended
    ensures AuthThread(p, page, env).1 == "HOME" <==> SignedIn(p, env)
  {
    HomeExactlyOnSignIn(p, page, env);
    StartAsWrittenFails();
  }

  /** An error redirect without a description never shows the ERROR view
      through the error branch: the `.replace` on None escapes, and the
      wrapper shows ERROR instead. */
  lemma MissingDescriptionRaises(p: AuthProps, page: string, env: AuthEnv)
    requires AutoAuthentication(p, env) == Ok((false, p))
    requires env.authUrl.Ok? && ServerAddress(env.redirectUri).Ok?
    requires env.request.Some? && env.request.value != ""
    requires Contains(env.request.value, "/?error=")
    requires !Contains(env.request.value, "&error_description=")
    ensures WebAuthentication(p, page, env).raised == Some(AttributeError("replace"))
    ensures AuthThread(p, page, env).1 == "ERROR"
  {
  }

  // ------------------------------------------------------------ operators

  /** `_login`: the sign-in thread is started, and the page moves to
      REDIRECT only from LOGIN. */
  function Login(page: string): (r: string)
    ensures page == "LOGIN" ==> r == "REDIRECT"
    ensures page != "LOGIN" ==> r == page
  {
    if page == "LOGIN" then "REDIRECT" else page
  }

  /** `_logout`: cached credentials are cleared when there are any (the
      flag says whether `clear_auth` ran); the credentials end None and the
      page LOGIN, whatever the state before. */
  function Logout(p: AuthProps): (r: (AuthProps, bool, string))
    ensures r.0.credentials.None? && r.0.code == p.code && r.2 == "LOGIN"
    ensures r.1 <==> p.credentials.Some?
  {
    (p.(credentials := None), p.credentials.Some?, "LOGIN")
  }

  /** Logging out twice is logging out once, apart from the cache clearing. */
  lemma LogoutIdempotent(p: AuthProps)
    ensures Logout(Logout(p).0).0 == Logout(p).0 && !Logout(Logout(p).0).1
  {
  }
}

=== FILE: batchapps_history.dfy ===
/** The job history page of the Batch Apps add-on (`history.py`,
    `props_history.py`, and the paging arithmetic of `ui_history.py`): the
    jobs are fetched a page at a time by offset (`index`) and page size
    (`per_call`), shown in a list, and expanded one at a time. */
module BatchappsHistory {
  import opened Outcomes
  import opened PyStr
  import opened DisplayList
  import BlenderProps
  import Dates
  import BatchappsUtils

  /** The fields of a service job the page reads. `poolId` is
      `pool_info.pool_id`; `hasTimeSubmitted` says whether the job object
      has the `time_submitted` attribute that `format_date`'s handler logs. */
  datatype Job = Job(id: string, displayName: string, state: string,
                     creationIso: Option<string>, hasTimeSubmitted: bool,
                     poolId: Option<string>)

  /** `HistoryDetails`, one row of the list. */
  datatype Details = Details(id: string, name: string, status: string,
                             timestamp: string, poolId: string)

  const BlankDetails: Details := Details("", "", "", "", "Unknown")

  /** `HistoryDisplayProps` with the `job_list` kept beside it: the jobs are
      `lists.objs`, the rows `lists.disp`, and `selected` is `lists.index`.
      `total_count` and `index` are written by the page although their
      property declarations are commented out; they are plain fields here. */
  datatype History = History(lists: Lists<Job, Details>, perCall: int, totalCount: int, index: int)

  const Defaults: History := History(Lists([], [], -1), 5, 0, 0)

  /** `per_call` within its declared range 1..50. */
  predicate InBounds(h: History) {
    1 <= h.perCall <= 50
  }

  lemma DefaultsInBounds()
    ensures InBounds(Defaults) && Defaults.lists.index == -1 && Lockstep(Defaults.lists)
  {
  }

  /** Setting `per_call` through Blender clamps it into range. */
  function SetPerCall(h: History, v: int): (r: History)
    ensures InBounds(r) && r.lists == h.lists && r.index == h.index
    ensures 1 <= v <= 50 ==> r.perCall == v
  {
    h.(perCall := BlenderProps.Clamp(v, 1, 50))
  }

  // ------------------------------------------------------------------ rows

  /** `format_date` of `props_history.py`, the same helper as the other
      property modules: the handler's `time_submitted` read may raise. */
  function Stamp(job: Job): (r: Result<string>)
    ensures r.Raise? ==> !job.hasTimeSubmitted
  {
    Dates.FormatDate(job.creationIso, Dates.JobHandler(job.hasTimeSubmitted))
  }

  /** The row `add_job` fills in: id, name and status first, then the
      timestamp; `pool_id` keeps its default "Unknown" unless the job's pool
      id is truthy. An exception from the timestamp leaves the rest at the
      defaults. */
  function Entry(job: Job, stamp: Result<string>): (e: Details)
    ensures e.id == job.id && e.name == job.displayName && e.status == job.state
    ensures stamp.Raise? ==> e.timestamp == "" && e.poolId == "Unknown"
    ensures stamp.Ok? ==> e.timestamp == stamp.value
    ensures stamp.Ok? ==>
              e.poolId == (if job.poolId.Some? && job.poolId.value != "" then job.poolId.value else "Unknown")
  {
    var head := BlankDetails.(id := job.id, name := job.displayName, status := job.state);
    match stamp
    case Raise(_) => head
    case Ok(t) =>
      var withTime := head.(timestamp := t);
      if job.poolId.Some? && job.poolId.value != "" then withTime.(poolId := job.poolId.value) else withTime
  }

  /** `job_list.append(job)` followed by `display.add_job(job)`: both lists
      grow by one even when the timestamp raises. */
  function AddJob(h: History, job: Job, stamp: Result<string>): (r: Step<History>)
    requires Lockstep(h.lists)
    ensures Lockstep(r.state.lists)
    ensures r.state.lists.objs == h.lists.objs + [job]
    ensures r.state.lists.disp == h.lists.disp + [Entry(job, stamp)]
    ensures r.state.lists.index == h.lists.index
    ensures r.state.perCall == h.perCall && r.state.totalCount == h.totalCount && r.state.index == h.index
    ensures r.raised.Some? <==> stamp.Raise?
  {
    Step(h.(lists := Add(h.lists, job, Entry(job, stamp))), Raised(stamp))
  }

  /** The row and the failure `add_job` produces for one job, given how
      its date formats. */
  function HistoryRow(stamp: Job -> Result<string>): (row: Job -> Details)
  {
    j => Entry(j, stamp(j))
  }

  // ------------------------------------------------------------- operators

  /** The operator a row registers: "history." + the id with '-' turned
      into '_', under the add-on's prefix. */
  function JobOperator(id: string): (name: string)
    ensures StartsWith(name, "batchapps_history.")
    ensures name[|"batchapps_history."|..] == ReplaceChar(id, '-', '_')
    ensures '-' !in name[|"batchapps_history."|..]
  {
    ReplaceCharRemoves(id, '-', '_');
    BatchappsUtils.Register("history." + ReplaceChar(id, '-', '_'))
  }

  /** Two ids differing only in a '-' against a '_' register the same
      operator, so the later registration replaces the earlier one. */
  lemma JobOperatorsCollide(x: string, y: string)
    ensures JobOperator(x + "-" + y) == JobOperator(x + "_" + y)
  {
    var a, b := x + "-" + y, x + "_" + y;
    assert |a| == |b|;
    forall i | 0 <= i < |a| ensures ReplaceChar(a, '-', '_')[i] == ReplaceChar(b, '-', '_')[i] {
      if i < |x| {
        assert a[i] == b[i];
      } else if i > |x| {
        assert a[i] == b[i];
      }
    }
    assert ReplaceChar(a, '-', '_') == ReplaceChar(b, '-', '_');
  }

  /** The operators `get_job_list` registers, one per row in row order. */
  function JobOperators(rows: seq<Details>): (r: seq<string>)
    ensures |r| == |rows|
    ensures forall k :: 0 <= k < |rows| ==> r[k] == JobOperator(rows[k].id)
  {
    if |rows| == 0 then [] else [JobOperator(rows[0].id)] + JobOperators(rows[1..])
  }

  // ---------------------------------------------------------- get_job_list

  /** What `get_job_list` leaves behind: the properties, the operators it
      registered, and the page shown. */
  datatype Listing = Listing(step: Step<History>, operators: seq<string>, page: string)

  /** The jobs of one fetch added to the emptied lists, then the
      operators registered and HISTORY shown; the first date that cannot be
      formatted stops the listing. */
  function Fill(h: History, latest: seq<Job>, stamp: Job -> Result<string>, total: nat, page: string): (r: Listing)
    requires h.lists.objs == [] && h.lists.disp == []
    ensures Lockstep(r.step.state.lists) && r.step.state.lists.index == h.lists.index
    ensures r.step.state.perCall == h.perCall && r.step.state.index == h.index
    ensures r.step.raised.None? ==>
              r.step.state.lists.objs == latest
              && r.step.state.lists.disp == Rows(latest, HistoryRow(stamp))
              && r.step.state.totalCount == total
              && r.operators == JobOperators(r.step.state.lists.disp)
              && r.page == "HISTORY"
    ensures r.step.raised.Some? ==>
              r.page == BatchappsUtils.Session<()>(Raise(r.step.raised.value), page).1
  {
    var s := AddAll(h.lists, latest, HistoryRow(stamp), Failures(stamp));
    AddAllWhole(h.lists, latest, HistoryRow(stamp), Failures(stamp));
    if s.raised.Some? then
      Listing(Step(h.(lists := s.state), s.raised), [],
              BatchappsUtils.Session<()>(Raise(s.raised.value), page).1)
    else
      Listing(Step(h.(lists := s.state, totalCount := total), None),
              JobOperators(s.state.disp), "HISTORY")
  }

  /** `get_job_list`: empty both lists (the selection is kept), fetch
      `per_call` jobs from offset `index`, add them in order, record the
      manager's total, register one operator per row and show HISTORY. It
      runs under the session wrapper, whose page wins on an exception. */
  function GetJobList(h: History, fetch: (int, int) -> Result<seq<Job>>, stamp: Job -> Result<string>, total: nat, page: string)
    : (r: Listing)
    ensures Lockstep(r.step.state.lists) && r.step.state.lists.index == h.lists.index
    ensures r.step.state.perCall == h.perCall && r.step.state.index == h.index
    ensures fetch(h.index, h.perCall).Raise? ==>
              r.step.raised == Some(fetch(h.index, h.perCall).exc)
              && r.step.state.lists.objs == [] && r.step.state.lists.disp == []
    ensures r.step.raised.None? ==>
              fetch(h.index, h.perCall).Ok?
              && r.step.state.lists.objs == fetch(h.index, h.perCall).value
              && r.step.state.lists.disp == Rows(r.step.state.lists.objs, HistoryRow(stamp))
              && r.step.state.totalCount == total
              && r.operators == JobOperators(r.step.state.lists.disp)
              && r.page == "HISTORY"
    ensures r.step.raised.Some? ==>
              r.page == BatchappsUtils.Session<()>(Raise(r.step.raised.value), page).1
  {
    var cleared := h.(lists := h.lists.(objs := [], disp := []));
    match fetch(h.index, h.perCall)
    case Raise(e) => Listing(Step(cleared, Some(e)), [], BatchappsUtils.Session<()>(Raise(e), page).1)
    case Ok(latest) => Fill(cleared, latest, stamp, total, page)
  }

  /** A listing fails only when the fetch fails or some job's date cannot
      be formatted. */
  lemma GetJobListCompletes(h: History, fetch: (int, int) -> Result<seq<Job>>, stamp: Job -> Result<string>, total: nat, page: string)
    requires fetch(h.index, h.perCall).Ok?
    requires forall k :: 0 <= k < |fetch(h.index, h.perCall).value| ==> stamp(fetch(h.index, h.perCall).value[k]).Ok?
    ensures GetJobList(h, fetch, stamp, total, page).step.raised.None?
  {
    var cleared := h.(lists := h.lists.(objs := [], disp := []));
    assert GetJobList(h, fetch, stamp, total, page) == Fill(cleared, fetch(h.index, h.perCall).value, stamp, total, page);
    AddAllCompletes(cleared.lists, fetch(h.index, h.perCall).value, HistoryRow(stamp), Failures(stamp));
  }

  /** `get_selected_job`: `job_list[selected]`, so the default selection -1
      picks the last job. */
  function GetSelectedJob(h: History): (r: Result<Job>)
    ensures 0 <= h.lists.index < |h.lists.objs| ==> r == Ok(h.lists.objs[h.lists.index])
    ensures h.lists.index == -1 && |h.lists.objs| > 0 ==> r == Ok(h.lists.objs[|h.lists.objs| - 1])
    ensures r.Raise? <==> !(-|h.lists.objs| <= h.lists.index < |h.lists.objs|)
    ensures r.Raise? ==> r.exc == IndexError
  {
    PyIndex(h.lists.objs, h.lists.index)
  }

  // ---------------------------------------------------------------- paging

  /** `_history`: nothing selected, back to offset 0 with no total, and the
      page moves from HOME to LOADING while the listing thread runs. */
  function HistoryPage(h: History, page: string): (r: (History, string))
    ensures r.0.lists.index == -1 && r.0.index == 0 && r.0.totalCount == 0
    ensures r.0.lists.objs == h.lists.objs && r.0.lists.disp == h.lists.disp && r.0.perCall == h.perCall
    ensures r.1 == (if page == "HOME" then "LOADING" else page)
  {
    (h.(lists := h.lists.(index := -1), index := 0, totalCount := 0),
     if page == "HOME" then "LOADING" else page)
  }

  /** `_first`. */
  function First(h: History): (r: History)
    ensures r.index == 0 && r.lists == h.lists && r.perCall == h.perCall && r.totalCount == h.totalCount
  {
    h.(index := 0)
  }

  /** `_more` and `_less`: one page forward or back, with no bounds check. */
  function More(h: History): (r: History)
    ensures r.index - h.index == h.perCall
    ensures r == h.(index := r.index)
  {
    h.(index := h.index + h.perCall)
  }

  function Less(h: History): (r: History)
    ensures h.index - r.index == h.perCall
    ensures r == h.(index := r.index)
  {
    h.(index := h.index - h.perCall)
  }

  /** Back and forth leave the offset where it was. */
  lemma MoreLessInverse(h: History)
    ensures Less(More(h)) == h && More(Less(h)) == h
  {
  }

  /** `_last`: the offset of the last page, `total - per` when the total is
      a multiple of the page size and `total - per + (per - total % per)`
      otherwise. */
  function LastIndex(total: int, per: int): (i: int)
    requires per >= 1
  {
    if total % per == 0 then total - per else total - per + (per - total % per)
  }

  /** For a non-empty history the last page starts at the largest multiple
      of the page size below the total, so it holds 1..per jobs. */
  lemma LastIndexIsLastPage(total: int, per: int)
    requires per >= 1 && total >= 1
    ensures var i := LastIndex(total, per);
            i % per == 0 && total - per <= i < total && i == per * ((total - 1) / per)
  {
    var q := (total - 1) / per;
    var m := (total - 1) % per;
    assert total - 1 == q * per + m && 0 <= m < per;
    assert total == q * per + (m + 1);
    if m + 1 == per {
      assert total == (q + 1) * per;
      DivMod(total, per, q + 1, 0);
    } else {
      DivMod(total, per, q, m + 1);
    }
    DivMod(per * q, per, q, 0);
  }

  /** Division and remainder are determined by a quotient and a remainder
      in range. */
  lemma DivMod(a: int, per: int, q: int, m: int)
    requires per >= 1 && 0 <= m < per && a == q * per + m
    ensures a / per == q && a % per == m
  {
    var d, r := a / per, a % per;
    assert a == d * per + r && 0 <= r < per;
    assert (q - d) * per == r - m;
    if q > d {
      MulAtLeast(q - d, per);
    } else if q < d {
      MulAtLeast(d - q, per);
    }
  }

  lemma {:induction false} MulAtLeast(k: int, per: int)
    requires k >= 1 && per >= 1
    ensures k * per >= per
    decreases k
  {
    if k > 1 {
      MulAtLeast(k - 1, per);
      assert k * per == (k - 1) * per + per;
    }
  }

  /** With no jobs at all the last page is at offset -per. */
  lemma LastIndexOfEmpty(per: int)
    requires per >= 1
    ensures LastIndex(0, per) == -per
  {
  }

  function Last(h: History): (r: History)
    requires InBounds(h)
    ensures r == h.(index := LastIndex(h.totalCount, h.perCall))
  {
    h.(index := LastIndex(h.totalCount, h.perCall))
  }

  /** `page_controls`: the range shown, "0-0" for no jobs, else from
      `index + 1` over the `numJobs` rows on the page. */
  function PageRange(total: int, index: int, numJobs: int): (r: (int, int))
    ensures total == 0 ==> r == (0, 0)
    ensures total != 0 ==> r == (index + 1, index + numJobs)
  {
    if total == 0 then (0, 0)
    else if index == 0 then (1, numJobs)
    else (index + 1, (index + 1 + numJobs) - 1)
  }

  /** Whether first/less and more/last are enabled. */
  function Controls(total: int, index: int, numJobs: int): (r: (bool, bool))
    ensures r.0 <==> index != 0
    ensures r.1 <==> index + numJobs != total
  {
    (index != 0, index + numJobs != total)
  }

  /** On the last page of a non-empty history, fully listed, more/last are
      disabled and the range ends at the total; on the first page first/less
      are disabled. */
  lemma LastPageControls(total: int, per: int)
    requires per >= 1 && total >= 1
    ensures var i := LastIndex(total, per);
            1 <= total - i <= per
            && !Controls(total, i, total - i).1
            && PageRange(total, i, total - i).1 == total
            && !Controls(total, 0, per).0
  {
    LastIndexIsLastPage(total, per);
  }

  // --------------------------------------------------------------- details

  /** The icon map of `HistoryDisplayProps`. */
  const Icons: seq<(string, string)> := [
    ("active", "PREVIEW_RANGE"), ("completed", "FILE_TICK"), ("terminating", "CANCEL"),
    ("deleting", "CANCEL"), ("disabled", "ERROR"), ("disabling", "ERROR"), ("enabling", "TIME")]

  /** `status_icon`: the icon of the lower-cased status, "" when there is
      none. */
  function StatusIcon(status: string): (icon: string)
    ensures Lookup(Icons, ToLower(status)).Some? ==> icon == Lookup(Icons, ToLower(status)).value
    ensures Lookup(Icons, ToLower(status)).None? ==> icon == ""
  {
    match Lookup(Icons, ToLower(status))
    case Some(i) => i
    case None => ""
  }

  /** `details` shows the percentage only for these exact statuses. */
  predicate ShowsPercent(status: string) {
    status == "InProgress" || status == "Error" || status == "Cancelled"
  }

  /** `details` offers Cancel only for these lower-cased statuses. */
  predicate OffersCancel(status: string) {
    var lower := ToLower(status);
    lower == "notstarted" || lower == "inprogress"
  }

  /** Every job that can be cancelled is drawn without an icon: neither of
      its lower-cased statuses is a key of the icon map. */
  lemma CancellableHasNoIcon(status: string)
    requires OffersCancel(status)
    ensures StatusIcon(status) == ""
  {
    var s := ToLower(status);
    assert |s| == 10;
    forall i | 0 <= i < |Icons| ensures Icons[i].0 != s {
      assert |Icons[i].0| != 10;
    }
  }

  /** The two tests disagree on case: a status reported in lower case
      that offers Cancel never shows its percentage, since the percentage
      test only knows the capitalised spellings. */
  lemma CaseMismatch(status: string)
    requires forall i :: 0 <= i < |status| ==> !('A' <= status[i] <= 'Z')
    requires OffersCancel(status)
    ensures !ShowsPercent(status)
  {
    LowerUnchanged(status);
    assert status == "notstarted" || status == "inprogress";
    var first := status[0];
    assert first == 'n' || first == 'i';
    assert status != "InProgress" by { assert "InProgress"[0] != first; }
    assert status != "Error" by { assert "Error"[0] != first; }
    assert status != "Cancelled" by { assert "Cancelled"[0] != first; }
  }
}

=== FILE: batchapps_pools.dfy ===
/** The pools page of the Batch Apps add-on (`pools.py` and
    `props/props_pools.py`): the running pools are listed into a display,
    a row expands on click, a pool can be deleted, and a "create" operator
    toggles the CREATE page. `pools.py` takes its operator helper from the
    batched add-on, whose helper has no `register_expanding`. */
module BatchappsPools {
  import opened Outcomes
  import opened PyStr
  import opened DisplayList
  import Remote
  import BlenderProps
  import Dates
  import BatchedUtils

  /** The fields of a service pool the display reads. `creationIso` is the
      `isoformat()` of the creation time, None when that is None. */
  datatype Pool = Pool(id: string, displayName: string, creationIso: Option<string>,
                       targetDedicated: int, currentDedicated: int, allocationState: string)

  /** `PoolDetails`, one row of the display. */
  datatype Details = Details(id: string, auto: bool, created: string, target: int,
                             current: int, state: string, queue: int)

  /** A new row's defaults: note `auto` starts out True. */
  const BlankDetails: Details := Details("", true, "", 0, 0, "", 0)

  /** `PoolDisplayProps` together with the `pools` list of `PoolsProps`.
      The display rows are not kept in lockstep with `pools`: the whole
      listing is stored first and the rows are added afterwards. */
  datatype View = View(pools: seq<Pool>, display: seq<Details>, selected: int, poolSize: int)

  const Defaults: View := View([], [], -1, 3)

  /** `pool_size` within its declared range 1..20. */
  predicate InBounds(v: View) {
    1 <= v.poolSize <= 20
  }

  lemma DefaultsInBounds()
    ensures InBounds(Defaults) && Defaults.selected == -1 && Defaults.poolSize == 3
  {
  }

  /** Setting `pool_size` through Blender clamps it into range. */
  function SetPoolSize(v: View, n: int): (r: View)
    ensures InBounds(r) && r.pools == v.pools && r.display == v.display && r.selected == v.selected
    ensures 1 <= n <= 20 ==> r.poolSize == n
  {
    v.(poolSize := BlenderProps.Clamp(n, 1, 20))
  }

  /** `on_load`: a freshly opened scene reloads the pools only when the
      page is POOLS or CREATE. */
  predicate OnLoadRefreshes(page: string) {
    page == "POOLS" || page == "CREATE"
  }

  // ------------------------------------------------------------------ rows

  /** The auto-pool mark: the id begins with 'Blender_auto_pool_'. */
  predicate IsAuto(id: string) {
    StartsWith(id, "Blender_auto_pool_")
  }

  /** Pools submitted with the auto-pool prefix 'Blender_auto_' are marked
      only when the service's suffix happens to begin with 'pool_'. */
  lemma AutoMarkNarrowerThanPrefix(id: string, suffix: string)
    requires |suffix| > 0 && suffix[0] != 'p'
    ensures IsAuto(id) ==> StartsWith(id, "Blender_auto_")
    ensures !IsAuto("Blender_auto_" + suffix)
  {
    if IsAuto(id) {
      assert id[..|"Blender_auto_"|] == "Blender_auto_pool_"[..|"Blender_auto_"|];
    }
    var s := "Blender_auto_" + suffix;
    assert s[13] == suffix[0] != "Blender_auto_pool_"[13];
  }

  /** `format_date` of the pool properties: its handler calls
      `creation_time.isoformat()` again, so a pool without a creation time
      raises and every other pool gets a stamp. */
  function Stamp(pool: Pool): (r: Result<string>)
  {
    Dates.FormatDate(pool.creationIso, Dates.PoolHandler(pool.creationIso))
  }

  lemma StampRaisesWithoutCreationTime(pool: Pool)
    ensures Stamp(pool).Raise? <==> pool.creationIso.None?
    ensures pool.creationIso.Some? && 'T' !in pool.creationIso.value ==> Stamp(pool) == Ok("")
  {
  }

  /** The row `add_pool` fills in: first the auto mark and the shown id
      (the display name for an auto pool, the id otherwise), then the
      creation stamp, then sizes and state; the queue is always 0. An
      exception from the stamp leaves the later fields at their defaults. */
  function Entry(pool: Pool, stamp: Result<string>): (e: Details)
    ensures e.auto <==> IsAuto(pool.id)
    ensures e.id == (if IsAuto(pool.id) then pool.displayName else pool.id)
    ensures e.queue == 0
    ensures stamp.Raise? ==> e.created == "" && e.target == 0 && e.current == 0 && e.state == ""
    ensures stamp.Ok? ==>
              e.created == stamp.value && e.target == pool.targetDedicated
              && e.current == pool.currentDedicated && e.state == pool.allocationState
  {
    var auto := IsAuto(pool.id);
    var head := BlankDetails.(auto := auto, id := if auto then pool.displayName else pool.id);
    match stamp
    case Raise(_) => head
    case Ok(t) =>
      head.(created := t, target := pool.targetDedicated, current := pool.currentDedicated,
            state := pool.allocationState, queue := 0)
  }

  /** `add_pool`: exactly one row is appended, even when the stamp raises. */
  function AddPool(display: seq<Details>, pool: Pool, stamp: Result<string>): (r: Step<seq<Details>>)
    ensures r.state == display + [Entry(pool, stamp)]
    ensures r.raised.Some? <==> stamp.Raise?
  {
    Step(display + [Entry(pool, stamp)], Raised(stamp))
  }

  function PoolRow(stamp: Pool -> Result<string>): (row: Pool -> Details)
  {
    p => Entry(p, stamp(p))
  }

  function PoolFails(stamp: Pool -> Result<string>): (fails: Pool -> Option<Exc>)
    ensures forall p :: fails(p) == Raised(stamp(p))
  {
    p => Raised(stamp(p))
  }

  // ------------------------------------------------------------- operators

  /** The operator a row registers: "pools." + the id with '-' turned into
      '_', under the batched helper's prefix. */
  function PoolOperator(id: string): (name: string)
    ensures StartsWith(name, "batch_pools.")
    ensures name[|"batch_pools."|..] == ReplaceChar(id, '-', '_')
  {
    BatchedUtils.Register("pools." + ReplaceChar(id, '-', '_'))
  }

  /** `register_expanding` on the operator helper: `hasExpanding` says
      whether the helper defines it. The batched helper imported by
      `pools.py` does not, so the attribute lookup raises. */
  function RegisterExpanding(hasExpanding: bool, name: string): (r: Result<string>)
    ensures hasExpanding ==> r == Ok(BatchedUtils.Register(name))
    ensures !hasExpanding ==> r == Raise(AttributeError("register_expanding"))
  {
    if hasExpanding then Ok(BatchedUtils.Register(name)) else Raise(AttributeError("register_expanding"))
  }

  /** `_register_ops`: three plain operators, then the expanding "create"
      one; what was registered before an exception stays registered. */
  function RegisterOps(hasExpanding: bool): (r: Step<seq<string>>)
    ensures |r.state| >= 3 && r.state[..3] == [BatchedUtils.Register("pools.page"), BatchedUtils.Register("pools.start"),
                             BatchedUtils.Register("pools.delete")]
    ensures r.raised.None? <==> hasExpanding
    ensures r.raised.None? ==> |r.state| == 4 && r.state[3] == BatchedUtils.Register("pools.create")
    ensures r.raised.Some? ==> |r.state| == 3 && r.raised == Some(AttributeError("register_expanding"))
  {
    var plain := [BatchedUtils.Register("pools.page"), BatchedUtils.Register("pools.start"),
                  BatchedUtils.Register("pools.delete")];
    match RegisterExpanding(hasExpanding, "pools.create")
    case Ok(n) => Step(plain + [n], None)
    case Raise(e) => Step(plain, Some(e))
  }

  /** As written the page's manager cannot be built: the fourth
      registration raises. */
  lemma RegisterOpsAsWrittenFails()
    ensures RegisterOps(false).raised == Some(AttributeError("register_expanding"))
    ensures |RegisterOps(false).state| == 3
  {
  }

  /** With a helper that defines `register_expanding`, as the Batch Apps
      helper does, all four operators register under the prefix the page's
      own calls use. */
  lemma RegisterOpsIntended()
    ensures RegisterOps(true).raised.None?
    ensures forall k :: 0 <= k < |RegisterOps(true).state| ==> StartsWith(RegisterOps(true).state[k], "batch_pools.")
  {
    var r := RegisterOps(true);
    forall k | 0 <= k < |r.state| ensures StartsWith(r.state[k], "batch_pools.") {
      assert r.state[k][..|"batch_pools."|] == "batch_pools.";
    }
  }

  /** `register_pool` for each row in order; the first call that raises
      ends the loop. */
  function RegisterPools(hasExpanding: bool, rows: seq<Details>): (r: Result<seq<string>>)
    ensures r.Raise? <==> |rows| > 0 && !hasExpanding
    ensures r.Ok? ==> |r.value| == |rows|
    ensures r.Ok? ==> forall k :: 0 <= k < |rows| ==> r.value[k] == PoolOperator(rows[k].id)
  {
    if |rows| == 0 then Ok([])
    else if !hasExpanding then Raise(AttributeError("register_expanding"))
    else
      var rest := RegisterPools(hasExpanding, rows[1..]);
      Ok([PoolOperator(rows[0].id)] + rest.value)
  }

  // ---------------------------------------------------------------- _pools

  /** What `_pools` leaves behind: the view, the exception that ended it,
      the operators registered and the page shown. */
  datatype Listing = Listing(view: View, raised: Option<Exc>, operators: seq<string>, page: string)

  /** The rows for a fresh listing, then the row operators. */
  function Fill(v: View, all: seq<Pool>, stamp: Pool -> Result<string>, hasExpanding: bool, page: string)
    : (r: Listing)
    requires v.display == []
    ensures r.view.pools == v.pools && r.view.selected == v.selected && r.view.poolSize == v.poolSize
    ensures |r.view.display| <= |all|
    ensures r.raised.None? ==>
              r.view.display == Rows(all, PoolRow(stamp))
              && RegisterPools(hasExpanding, r.view.display) == Ok(r.operators)
              && r.page == "POOLS"
    ensures r.raised.Some? ==> r.page == "ERROR"
  {
    var s := AddAll(Lists([], [], -1), all, PoolRow(stamp), PoolFails(stamp));
    AddAllWhole(Lists([], [], -1), all, PoolRow(stamp), PoolFails(stamp));
    var shown := v.(display := s.state.disp);
    if s.raised.Some? then Listing(shown, s.raised, [], "ERROR")
    else
      match RegisterPools(hasExpanding, s.state.disp)
      case Raise(e) => Listing(shown, Some(e), [], "ERROR")
      case Ok(ops) => Listing(shown, None, ops, "POOLS")
  }

  /** `_pools`, under the batched session wrapper (any exception shows
      ERROR): clear the rows, select nothing, store the whole listing, add a
      row per pool, register a row operator per row, show POOLS. */
  function PoolsPage(v: View, listed: Result<seq<Pool>>, stamp: Pool -> Result<string>,
                     hasExpanding: bool, page: string): (r: Listing)
    ensures r.view.selected == -1 && r.view.poolSize == v.poolSize
    ensures listed.Raise? ==> r.raised == Some(listed.exc) && r.page == "ERROR" && r.view.display == []
    ensures listed.Ok? ==> r.view.pools == listed.value && |r.view.display| <= |r.view.pools|
    ensures r.raised.None? ==>
              listed.Ok? && r.view.display == Rows(r.view.pools, PoolRow(stamp))
              && RegisterPools(hasExpanding, r.view.display) == Ok(r.operators)
              && r.page == "POOLS"
    ensures r.raised.Some? ==> r.page == BatchedUtils.Session<()>(Raise(r.raised.value), page).1
  {
    var cleared := v.(display := [], selected := -1);
    match listed
    case Raise(e) => Listing(cleared, Some(e), [], "ERROR")
    case Ok(all) => Fill(cleared.(pools := all), all, stamp, hasExpanding, page)
  }

  /** As written, any non-empty listing ends on the ERROR page, because
      registering the first row raises. */
  lemma PoolsPageAsWrittenFails(v: View, all: seq<Pool>, stamp: Pool -> Result<string>, page: string)
    requires |all| > 0
    ensures PoolsPage(v, Ok(all), stamp, false, page).page == "ERROR"
  {
  }

  /** With a helper that defines `register_expanding`, a listing whose
      stamps all succeed shows every pool on the POOLS page. */
  lemma PoolsPageIntended(v: View, all: seq<Pool>, stamp: Pool -> Result<string>, page: string)
    requires forall k :: 0 <= k < |all| ==> stamp(all[k]).Ok?
    ensures var r := PoolsPage(v, Ok(all), stamp, true, page);
            r.page == "POOLS" && r.view.pools == all && |r.view.display| == |all|
            && |r.operators| == |all|
  {
    var cleared := v.(display := [], selected := -1, pools := all);
    AddAllCompletes(Lists([], [], -1), all, PoolRow(stamp), PoolFails(stamp));
    assert PoolsPage(v, Ok(all), stamp, true, page) == Fill(cleared, all, stamp, true, page);
  }

  // ------------------------------------------------------ other operators

  /** `_create`, registered as an expanding operator: the page reads the
      flag before the wrapper negates it, so CREATE and POOLS alternate. */
  function CreateClick(enabled: bool): (r: (bool, string))
    ensures r.0 == !enabled
    ensures r.1 == "CREATE" <==> !enabled
    ensures r.1 == "POOLS" <==> enabled
  {
    (!enabled, if enabled then "POOLS" else "CREATE")
  }

  lemma CreateClicksAlternate(enabled: bool)
    ensures CreateClick(CreateClick(enabled).0).0 == enabled
    ensures CreateClick(enabled).1 != CreateClick(CreateClick(enabled).0).1
  {
  }

  /** `get_selected_pool`: `pools[selected]`, so the default -1 picks the
      last pool. */
  function GetSelectedPool(v: View): (r: Result<Pool>)
    ensures 0 <= v.selected < |v.pools| ==> r == Ok(v.pools[v.selected])
    ensures v.selected == -1 && |v.pools| > 0 ==> r == Ok(v.pools[|v.pools| - 1])
    ensures r.Raise? <==> !(-|v.pools| <= v.selected < |v.pools|)
  {
    PyIndex(v.pools, v.selected)
  }

  /** `_delete`: delete the selected pool (`fails` when the service call
      raises); the page is then refreshed. */
  function DeleteSelected(r: Remote.RemoteState, v: View, fails: bool): (out: Result<Remote.RemoteState>)
    ensures GetSelectedPool(v).Raise? ==> out == Raise(IndexError)
    ensures GetSelectedPool(v).Ok? && fails ==> out.Raise?
    ensures out.Ok? ==> out.value == Remote.DeletePool(r, GetSelectedPool(v).value.id)
                        && GetSelectedPool(v).value.id !in out.value.pools
  {
    match GetSelectedPool(v)
    case Raise(e) => Raise(e)
    case Ok(pool) => if fails then Raise(ServiceError("pool.delete failed")) else Ok(Remote.DeletePool(r, pool.id))
  }
}

=== FILE: batchapps_submission.dfy ===
/** `batchapps_blender/submission.py` and `batchapps_blender/props/props_submission.py`:
    the submission settings kept in step with the scene, and the submission
    of a render job with one task per frame. */
module BatchappsSubmission {
  import opened Outcomes
  import opened PyStr
  import opened Remote
  import opened BatchedUtils
  import opened AssetProps
  import BlenderProps
  import BatchedAssets
  import BatchappsAssets
  import BatchedSubmission

  /** `supported_formats`: Blender's output format name to the name the
      render command takes. */
  const SupportedFormats: seq<(string, string)> := [
    ("PNG", "PNG"), ("JPEG", "JPEG"), ("BMP", "BMP"), ("CINEON", "CINEON"),
    ("DPX", "DPX"), ("HDR", "HDR"), ("IRIS", "IRIS"), ("OPEN_EXR", "EXR"),
    ("TARGA", "TGA"), ("TIFF", "TIFF"), ("OPEN_EXR_MULTILAYER", "MULTILAYER"),
    ("TARGA_RAW", "RAWTGA")]

  /** A key of `supported_formats`. */
  predicate Supported(format: string) {
    Lookup(SupportedFormats, format).Some?
  }

  /** `SubmissionDisplayProps`. */
  datatype Display = Display(title: string, startF: int, endF: int, imageFormat: string,
                             poolSize: int, validRange: bool, validFormat: bool,
                             pool: set<string>, poolId: string)

  /** The bounds Blender keeps the integer properties in. */
  predicate InBounds(d: Display) {
    d.startF >= 0 && d.endF >= 0 && 1 <= d.poolSize <= 20
  }

  /** A fresh property group. */
  const Defaults: Display := Display("", 1, 1, "PNG", 1, true, true, {"new"}, "")

  lemma DefaultsInBounds()
    ensures InBounds(Defaults) && Supported(Defaults.imageFormat)
  {
  }

  /** `framecheck`: on the SUBMIT page an end frame before the start frame is
      raised to it, and the range is marked valid exactly when it lies within
      the scene's own frame range. */
  function FrameCheck(d: Display, page: string, sceneStart: int, sceneEnd: int): (d': Display)
    ensures page != "SUBMIT" ==> d' == d
    ensures page == "SUBMIT" ==>
              d'.startF == d.startF
              && d'.endF == (if d.endF < d.startF then d.startF else d.endF)
              && d'.startF <= d'.endF
              && (d'.validRange <==> sceneStart <= d'.startF && d'.endF <= sceneEnd)
              && d' == d.(endF := d'.endF, validRange := d'.validRange)
    ensures InBounds(d) ==> InBounds(d')
  {
    if page != "SUBMIT" then d
    else
      var endF := if d.endF < d.startF then d.startF else d.endF;
      var e := d.(endF := endF);
      e.(validRange := !(e.startF < sceneStart || e.endF > sceneEnd))
  }

  /** Running the frame check again changes nothing. */
  lemma FrameCheckIdempotent(d: Display, page: string, sceneStart: int, sceneEnd: int)
    requires InBounds(d)
    ensures var once := FrameCheck(d, page, sceneStart, sceneEnd);
            FrameCheck(once, page, sceneStart, sceneEnd) == once
  {
  }

  /** `formatcheck`: on the SUBMIT page the scene's output format is taken
      when supported; otherwise PNG is used and the format marked invalid. */
  function FormatCheck(d: Display, page: string, format: string): (d': Display)
    ensures page != "SUBMIT" ==> d' == d
    ensures page == "SUBMIT" ==>
              Supported(d'.imageFormat)
              && (d'.validFormat <==> Supported(format))
              && d'.imageFormat == (if Supported(format) then format else "PNG")
              && d' == d.(imageFormat := d'.imageFormat, validFormat := d'.validFormat)
  {
    if page != "SUBMIT" then d
    else if !Supported(format) then d.(validFormat := false, imageFormat := "PNG")
    else d.(validFormat := true, imageFormat := format)
  }

  /** `on_load`: the frame range follows the scene just opened. */
  function OnLoad(d: Display, sceneStart: int, sceneEnd: int): (d': Display)
    ensures d'.startF == BlenderProps.ClampMin(sceneStart, 0)
    ensures d'.endF == BlenderProps.ClampMin(sceneEnd, 0)
    ensures d' == d.(startF := d'.startF, endF := d'.endF)
    ensures InBounds(d) ==> InBounds(d')
  {
    d.(startF := BlenderProps.ClampMin(sceneStart, 0), endF := BlenderProps.ClampMin(sceneEnd, 0))
  }

  /** `get_title`: an empty title becomes "Untitled_Job", any other is
      cleaned; either way the property keeps the result. */
  function GetTitle(d: Display, cleanName: string -> string): (out: (string, Display))
    ensures out.1 == d.(title := out.0)
    ensures d.title == "" ==> out.0 == "Untitled_Job"
    ensures d.title != "" ==> out.0 == cleanName(d.title)
  {
    var t := if d.title == "" then "Untitled_Job" else cleanName(d.title);
    (t, d.(title := t))
  }

  /** `gather_parameters`. */
  datatype Params = Params(output: string, start: int, end: int, format: string)

  /** `gather_parameters`: KeyError when the stored format is not a key of
      the supported formats. */
  function GatherParameters(d: Display, cleanName: string -> string): (r: Result<Params>)
    ensures r.Ok? <==> Supported(d.imageFormat)
    ensures r.Raise? ==> r.exc == KeyError
    ensures r.Ok? ==> (d.imageFormat, r.value.format) in SupportedFormats
    ensures r.Ok? ==> r.value.output == cleanName(d.title) && r.value.start == d.startF && r.value.end == d.endF
  {
    match Lookup(SupportedFormats, d.imageFormat)
    case None => Raise(KeyError)
    case Some(f) => Ok(Params(cleanName(d.title), d.startF, d.endF, f))
  }

  /** Once the format check has run on the SUBMIT page the parameters can
      always be gathered, whatever the scene's format. */
  lemma FormatCheckedParameters(d: Display, format: string, cleanName: string -> string)
    ensures GatherParameters(FormatCheck(d, "SUBMIT", format), cleanName).Ok?
  {
  }

  /** A pool reference: an existing pool by id, or an auto-pool spec. */
  datatype PoolRef = ById(id: string) | Auto(spec: AutoPoolSpec)

  /** The virtual machines of the pools this add-on makes. */
  function UbuntuPool(displayName: string, size: int): PoolConfig {
    VirtualMachineConfig(displayName, "BASIC_A1", ImageRef("UbuntuServer", "14.04.4-LTS"),
                         "batch.node.ubuntu 14.04", size)
  }

  /** `get_pool`: an existing pool by id; a new persistent pool named from a
      UUID, added at once (its failure escapes) and remembered for reuse; or
      an auto-pool living as long as the job. */
  function GetPool(d: Display, uuid: string, now: string, r: RemoteState, addFails: bool)
    : (out: (Result<PoolRef>, Display, RemoteState))
    ensures d.pool == {"reuse"} && d.poolId != "" ==> out == (Ok(ById(d.poolId)), d, r)
    ensures d.pool == {"create"} ==>
              var id := "Blender_Pool_" + uuid;
              (out.0.Ok? <==> !addFails)
              && (out.0.Ok? ==>
                    out.0.value == ById(id) && id in out.2.pools
                    && out.2 == Remote.AddPool(r, id, d.poolSize)
                    && out.1 == d.(pool := {"reuse"}, poolId := id))
              && (out.0.Raise? ==> out.1 == d && out.2 == r)
    ensures d.pool == {"new"} ==>
              out.0.Ok? && out.0.value.Auto? && out.1 == d && out.2 == r
              && out.0.value.spec.prefix == "Blender_auto_" && !out.0.value.spec.keepAlive
              && out.0.value.spec.pool.targetDedicated == d.poolSize
    ensures out.0.Ok? <==>
              (d.pool == {"reuse"} && d.poolId != "") || d.pool == {"new"} || (d.pool == {"create"} && !addFails)
    ensures out.0.Raise? && d.pool != {"create"} ==> out == (Raise(ValueError("Invalid pool settings.")), d, r)
    ensures out.1.title == d.title && out.1.startF == d.startF && out.1.endF == d.endF
    ensures out.1.imageFormat == d.imageFormat
    ensures out.2 == r.(pools := out.2.pools, targets := out.2.targets) && r.pools <= out.2.pools
  {
    if d.pool == {"reuse"} && d.poolId != "" then (Ok(ById(d.poolId)), d, r)
    else if d.pool == {"create"} then
      var id := "Blender_Pool_" + uuid;
      if addFails then (Raise(ServiceError("pool.add failed")), d, r)
      else (Ok(ById(id)), d.(pool := {"reuse"}, poolId := id), Remote.AddPool(r, id, d.poolSize))
    else if d.pool == {"new"} then
      var spec := AutoPoolSpec("Blender_auto_", JobLifetime, false,
                               UbuntuPool("Blender_Auto_Pool_" + now, d.poolSize));
      (Ok(Auto(spec)), d, r)
    else (Raise(ValueError("Invalid pool settings.")), d, r)
  }

  /** A frame's task id: `blender_{output}_{frame}`. */
  function TaskId(output: string, f: int): (id: string)
    ensures StartsWith(id, "blender_" + output + "_")
    ensures id[|"blender_" + output + "_"|..] == IntToStr(f)
  {
    var pre := "blender_" + output + "_";
    var id := pre + IntToStr(f);
    assert id[..|pre|] == pre;
    id
  }

  /** Frames that are not negative have distinct task ids. */
  lemma TaskIdInjective(output: string, f: int, g: int)
    requires 0 <= f && 0 <= g && f != g
    ensures TaskId(output, f) != TaskId(output, g)
  {
    if TaskId(output, f) == TaskId(output, g) {
      NatToStrInjective(f, g);
    }
  }

  /** The arguments of a frame's blender run: the blend file, the output
      pattern, the render format and the frame. */
  function BlendArg(jobFile: string): string { "blender -b \"" + jobFile + "\"" }
  function OutputArg(output: string): string { " -o \"" + output + "_####\"" }
  function FormatArg(format: string): string { " -F " + format }
  function FrameArg(f: int): string { " -f " + IntToStr(f) + " -t 0" }

  /** Where each argument sits in `a + o + m + t`. */
  lemma {:induction false} ArgPieces(a: string, o: string, m: string, t: string)
    ensures var c := a + o + m + t;
            StartsWith(c, a) && OccursAt(c, o, |a|) && OccursAt(c, m, |a| + |o|) && EndsWith(c, t)
  {
    var c := a + o + m + t;
    Pieces(a, o, m + t);
    assert c == a + o + (m + t);
    Pieces(a + o, m, t);
  }

  /** A task rendering frame `f` to `{output}_####` in the given format,
      with no display name, in the shell wrapper. */
  function FrameTask(p: Params, jobFile: string, res: seq<BatchedSubmission.ResourceFile>, f: int)
    : (t: BatchedSubmission.Task)
    ensures t.id == TaskId(p.output, f) && t.resources == res && t.dependsOn == [] && t.displayName == ""
    ensures StartsWith(t.command, BatchedSubmission.BashPrefix) && EndsWith(t.command, BatchedSubmission.BashSuffix)
            && |BatchedSubmission.BashPrefix| + |BatchedSubmission.BashSuffix| <= |t.command|
    ensures var cmd := BatchedSubmission.BashInner(t.command);
            StartsWith(cmd, BlendArg(jobFile))
            && OccursAt(cmd, OutputArg(p.output), |BlendArg(jobFile)|)
            && OccursAt(cmd, FormatArg(p.format), |BlendArg(jobFile)| + |OutputArg(p.output)|)
            && EndsWith(cmd, FrameArg(f))
  {
    var cmd := BlendArg(jobFile) + OutputArg(p.output) + FormatArg(p.format) + FrameArg(f);
    ArgPieces(BlendArg(jobFile), OutputArg(p.output), FormatArg(p.format), FrameArg(f));
    BatchedSubmission.BashRoundTrip(cmd);
    BatchedSubmission.Task(TaskId(p.output, f), BatchedSubmission.BashCommand(cmd), "", res, [])
  }

  /** The frame a task renders can be read back from its command: tasks of
      distinct frames that are not negative run distinct commands. */
  lemma FrameTaskCommandsDistinct(p: Params, jobFile: string, res: seq<BatchedSubmission.ResourceFile>,
                                  f: int, g: int)
    requires 0 <= f && 0 <= g && f != g
    ensures FrameTask(p, jobFile, res, f).command != FrameTask(p, jobFile, res, g).command
  {
    var pre := BlendArg(jobFile) + OutputArg(p.output) + FormatArg(p.format);
    if FrameTask(p, jobFile, res, f).command == FrameTask(p, jobFile, res, g).command {
      BatchedSubmission.BashRoundTrip(pre + FrameArg(f));
      BatchedSubmission.BashRoundTrip(pre + FrameArg(g));
      assert pre + FrameArg(f) == pre + FrameArg(g);
      assert FrameArg(f) == (pre + FrameArg(f))[|pre|..];
      assert FrameArg(g) == (pre + FrameArg(g))[|pre|..];
      var nf, ng := IntToStr(f), IntToStr(g);
      assert |nf| == |ng|;
      assert nf == FrameArg(f)[4..4 + |nf|];
      assert ng == FrameArg(g)[4..4 + |ng|];
      NatToStrInjective(f, g);
    }
  }

  /** The tasks for frames `p.start` to `p.end`, in frame order. */
  function FrameTasks(p: Params, jobFile: string, res: seq<BatchedSubmission.ResourceFile>)
    : (ts: seq<BatchedSubmission.Task>)
    ensures |ts| == BatchedSubmission.FrameCount(p.start, p.end)
    ensures forall k :: 0 <= k < |ts| ==> ts[k] == FrameTask(p, jobFile, res, p.start + k)
  {
    BatchedSubmission.Tabulate(BatchedSubmission.FrameCount(p.start, p.end), k => FrameTask(p, jobFile, res, p.start + k))
  }

  /** Task ids are unique when frames are not negative. */
  lemma TaskIdsDistinct(p: Params, jobFile: string, res: seq<BatchedSubmission.ResourceFile>)
    requires 0 <= p.start
    ensures var ts := FrameTasks(p, jobFile, res);
            forall i, j :: 0 <= i < j < |ts| ==> ts[i].id != ts[j].id
  {
    var ts := FrameTasks(p, jobFile, res);
    forall i, j | 0 <= i < j < |ts| ensures ts[i].id != ts[j].id {
      assert ts[i].id == TaskId(p.output, p.start + i);
      assert ts[j].id == TaskId(p.output, p.start + j);
      TaskIdInjective(p.output, p.start + i, p.start + j);
    }
  }

  /** The ids of the frame tasks, in frame order. */
  function FrameIds(p: Params): (r: seq<string>)
    ensures |r| == BatchedSubmission.FrameCount(p.start, p.end)
    ensures forall k :: 0 <= k < |r| ==> r[k] == TaskId(p.output, p.start + k)
  {
    BatchedSubmission.Tabulate(BatchedSubmission.FrameCount(p.start, p.end), k => TaskId(p.output, p.start + k))
  }

  /** The `except` block as written: only the job is deleted; when that
      fails, the misspelt `Exceptopn` turns the failure into a NameError. */
  function CleanUp(r: RemoteState, jobId: string, original: Exc, deleteFails: bool)
    : (out: (Result<()>, RemoteState))
    ensures BatchedSubmission.DeleteJobCall(r, jobId, deleteFails).Ok? ==>
              out == (Raise(original), DeleteJob(r, jobId))
    ensures BatchedSubmission.DeleteJobCall(r, jobId, deleteFails).Raise? ==>
              out == (Raise(NameError("Exceptopn")), r)
  {
    match BatchedSubmission.DeleteJobCall(r, jobId, deleteFails)
    case Ok(r1) => (Raise(original), r1)
    case Raise(_) => (Raise(NameError("Exceptopn")), r)
  }

  /** The job's commit as written. */
  function Commit(r: RemoteState, jobId: string, tasks: seq<BatchedSubmission.Task>,
                  svc: BatchedSubmission.Service): (out: (Result<()>, RemoteState))
    ensures out.0.Ok? <==> BatchedSubmission.AllAccepted(tasks, svc)
    ensures out.0.Ok? ==> out.1 == r.(jobs := r.jobs + {jobId}, tasks := r.tasks[jobId := BatchedSubmission.Ids(tasks)])
    ensures out.1.jobs <= r.jobs + {jobId} && out.1 == r.(jobs := out.1.jobs, tasks := out.1.tasks)
  {
    var (res, r') := BatchedSubmission.Attempt(r, jobId, tasks, svc);
    if res.Ok? then (res, r') else CleanUp(r', jobId, res.exc, svc.deleteJobFails)
  }

  /** A failed `job.add` leaves no job to delete, so the NameError of the
      misspelt handler replaces the service's error. */
  lemma CleanupFailureMasksError(r: RemoteState, jobId: string, tasks: seq<BatchedSubmission.Task>,
                                 svc: BatchedSubmission.Service)
    requires svc.addJobFails && jobId !in r.jobs
    ensures Commit(r, jobId, tasks, svc).0 == Raise(NameError("Exceptopn"))
  {
    assert BatchedSubmission.Attempt(r, jobId, tasks, svc).1 == r;
  }

  /** The commit as evidently intended: a failed clean-up is logged and the
      original exception raised again. */
  function CommitIntended(r: RemoteState, jobId: string, tasks: seq<BatchedSubmission.Task>,
                          svc: BatchedSubmission.Service): (out: (Result<()>, RemoteState))
    ensures out.0.Ok? <==> BatchedSubmission.AllAccepted(tasks, svc)
    ensures out.0.Raise? ==> out.0 == BatchedSubmission.Attempt(r, jobId, tasks, svc).0
    ensures out.1 == Commit(r, jobId, tasks, svc).1
  {
    var (res, r') := BatchedSubmission.Attempt(r, jobId, tasks, svc);
    if res.Ok? then (res, r')
    else match BatchedSubmission.DeleteJobCall(r', jobId, svc.deleteJobFails)
         case Ok(r1) => (Raise(res.exc), r1)
         case Raise(_) => (Raise(res.exc), r')
  }

  /** What `configure_assets` sees besides the asset page. */
  datatype AssetEnv = AssetEnv(scene: BatchedAssets.BlendData, resolve: string -> string,
                               fileFromPath: string -> Option<Asset>,
                               isUploaded: Asset -> Result<bool>, tempDir: string, tempName: string,
                               fs: FileSystem, saved: FileEntry, storeFails: Asset -> bool)

  /** The blend file the tasks render: a temporary one saved just now, or the
      one in the list, or one made from the page's path. Only the temporary
      one joins the upload list. */
  function JobFile(q: Props, e: AssetEnv): (a: Asset)
    ensures q.temp ==> a == MakeAsset(e.fs[e.resolve(q.path) := e.saved], e.resolve, q.path) && a.present
    ensures !q.temp && GetJobfile(q).Ok? ==> a in q.lists.objs && a.path == q.path
    ensures !q.temp && GetJobfile(q).Raise? ==> a == MakeAsset(e.fs, e.resolve, q.path)
  {
    if q.temp then MakeAsset(e.fs[e.resolve(q.path) := e.saved], e.resolve, q.path)
    else match GetJobfile(q)
         case Ok(a) => a
         case Raise(_) => MakeAsset(e.fs, e.resolve, q.path)
  }

  /** The upload list: the existing assets of the page, and a temporary
      blend file. */
  function Uploading(q: Props, e: AssetEnv): (r: seq<Asset>)
    ensures forall a :: a in q.lists.objs && a.present ==> a in r
    ensures q.temp ==> JobFile(q, e) in r
    ensures !q.temp ==> r == BatchedSubmission.Existing(q.lists.objs)
  {
    var r := BatchedSubmission.Existing(q.lists.objs) + (if q.temp then [JobFile(q, e)] else []);
    assert q.temp ==> r[|r| - 1] == JobFile(q, e);
    r
  }

  /** `configure_assets`: collect the assets if that has not happened yet,
      then upload the existing ones and a temporary blend file. A saved blend
      file missing from the list is not uploaded. */
  method ConfigureAssets(p: Props, page: string, e: AssetEnv, blobs: set<string>)
      returns (r: Result<seq<BatchedSubmission.ResourceFile>>, jobFile: Option<Asset>, q: Props,
               page': string, stored: set<string>)
    ensures p.path != "" ==> q == p && page' == page
    ensures p.path == "" ==>
              var (step, shown) := BatchappsAssets.Refresh(page, p, e.scene, e.resolve, e.fileFromPath,
                                                           e.isUploaded, e.tempDir, e.tempName);
              q == step.state && page' == shown
              && (shown == "ERROR" ==> r == Raise(PlainException("Failed to set up assets for job")))
    ensures jobFile.Some? ==> jobFile.value == JobFile(q, e)
    ensures r.Ok? ==> jobFile.Some?
    ensures r.Ok? ==> forall a :: a in q.lists.objs && a.present ==>
              a.checksum.Some? && BatchedSubmission.ResourceFile(a.name, BlobKey(a)) in r.value
    ensures r.Ok? && q.temp ==>
              jobFile.value.checksum.Some?
              && BatchedSubmission.ResourceFile(jobFile.value.name, BlobKey(jobFile.value)) in r.value
    ensures r.Ok? && !q.temp ==> |r.value| == |BatchedSubmission.Existing(q.lists.objs)|
    ensures r.Raise? ==> r.exc == PlainException("Failed to set up assets for job")
                         || r.exc == ValueError("Some required assets failed to upload.")
    ensures blobs <= stored
  {
    q, page' := p, page;
    if p.path == "" {
      var (step, shown) := BatchappsAssets.Refresh(page, p, e.scene, e.resolve, e.fileFromPath,
                                                   e.isUploaded, e.tempDir, e.tempName);
      q, page' := step.state, shown;
      if shown == "ERROR" {
        r, jobFile, stored := Raise(PlainException("Failed to set up assets for job")), None, blobs;
        return;
      }
    }
    jobFile := Some(JobFile(q, e));
    r, stored := BatchedSubmission.UploadAssets(Uploading(q, e), blobs, e.storeFails);
  }

  /** The job id: `blender_render_` and the cleaned time. */
  function JobId(now: string, cleanName: string -> string): (id: string)
    ensures StartsWith(id, "blender_render_") && id[|"blender_render_"|..] == cleanName(now)
  {
    var id := "blender_render_" + cleanName(now);
    assert id[..|"blender_render_"|] == "blender_render_";
    id
  }

  /** What `submit_job` reads besides the pages: the clock and the UUID, the
      name-cleaning function, and how `pool.add` turns out. */
  datatype Clock = Clock(now: string, poolNow: string, uuid: string, cleanName: string -> string,
                         poolAddFails: bool)

  /** The part of `submit_job` before the commit: the title, the pool, the
      uploads and the parameters. Gives the parameters, the resource files
      and the job file. */
  method PrepareJob(d: Display, c: Clock, ap: Props, e: AssetEnv, r: RemoteState, page: string)
      returns (prepared: Result<(Params, seq<BatchedSubmission.ResourceFile>, Asset)>,
               r': RemoteState, d': Display, ap': Props, page': string)
    ensures d'.title == GetTitle(d, c.cleanName).0
    ensures prepared.Ok? ==> GatherParameters(d', c.cleanName) == Ok(prepared.value.0)
    ensures prepared.Raise? ==> !prepared.exc.NameError?
    ensures r'.jobs == r.jobs && r'.tasks == r.tasks && r'.containers == r.containers
    ensures r.pools <= r'.pools && r.blobs <= r'.blobs
  {
    var titled := GetTitle(d, c.cleanName).1;
    d', r', ap', page' := titled, r, ap, page;
    var (pool, d2, r1) := GetPool(titled, c.uuid, c.poolNow, r, c.poolAddFails);
    d', r' := d2, r1;
    if pool.Raise? {
      prepared := Raise(pool.exc);
      return;
    }
    var res, jobFile, q, shown, stored := ConfigureAssets(ap, page, e, r'.blobs);
    r', ap', page' := r'.(blobs := stored), q, shown;
    if res.Raise? {
      prepared := Raise(res.exc);
      return;
    }
    var params := GatherParameters(d', c.cleanName);
    if params.Raise? {
      prepared := Raise(params.exc);
      return;
    }
    prepared := Ok((params.value, res.value, jobFile.value));
  }

  /** `submit_job` run under `session`. */
  method SubmitJob(d: Display, c: Clock, ap: Props, e: AssetEnv, r: RemoteState,
                   svc: BatchedSubmission.Service, page: string)
      returns (outcome: Result<string>, r': RemoteState, d': Display, ap': Props, page': string)
    ensures outcome.Ok? <==> page' == "SUBMITTED"
    ensures outcome.Raise? ==> page' == "ERROR"
    ensures d'.title == GetTitle(d, c.cleanName).0
    ensures outcome.Ok? ==>
              var id := JobId(c.now, c.cleanName);
              outcome.value == id && id in r'.jobs && id in r'.tasks
              && GatherParameters(d', c.cleanName).Ok?
              && r'.tasks[id] == FrameIds(GatherParameters(d', c.cleanName).value)
    ensures outcome.Ok? ==> forall i :: 0 <= i < |ap'.lists.disp| ==> ap'.lists.disp[i].uploadCheck
    ensures r'.jobs <= r.jobs + {JobId(c.now, c.cleanName)}
    ensures r'.containers == r.containers && r.pools <= r'.pools && r.blobs <= r'.blobs
  {
    var jobId := JobId(c.now, c.cleanName);
    var prepared;
    prepared, r', d', ap', page' := PrepareJob(d, c, ap, e, r, page);
    if prepared.Raise? {
      outcome, page' := Raise(prepared.exc), "ERROR";
      return;
    }
    var (params, res, jobFile) := prepared.value;
    var tasks := FrameTasks(params, jobFile.name, res);
    var (done, after) := Commit(r', jobId, tasks, svc);
    r' := after;
    if done.Raise? {
      outcome, page' := Raise(done.exc), "ERROR";
      return;
    }
    assert BatchedSubmission.Ids(tasks) == FrameIds(params);
    outcome, page', ap' := Ok(jobId), "SUBMITTED", SetUploaded(ap');
  }

  /** `submit_job` with the corrected clean-up: the same submission, but an
      exception raised while committing the job is the one that escapes,
      never a NameError. */
  method SubmitJobIntended(d: Display, c: Clock, ap: Props, e: AssetEnv, r: RemoteState,
                           svc: BatchedSubmission.Service, page: string)
      returns (outcome: Result<string>, r': RemoteState, d': Display, ap': Props, page': string)
    ensures outcome.Ok? <==> page' == "SUBMITTED"
    ensures outcome.Raise? ==> page' == "ERROR" && !outcome.exc.NameError?
    ensures d'.title == GetTitle(d, c.cleanName).0
    ensures outcome.Ok? ==>
              var id := JobId(c.now, c.cleanName);
              outcome.value == id && id in r'.jobs && id in r'.tasks
              && GatherParameters(d', c.cleanName).Ok?
              && r'.tasks[id] == FrameIds(GatherParameters(d', c.cleanName).value)
    ensures outcome.Ok? ==> forall i :: 0 <= i < |ap'.lists.disp| ==> ap'.lists.disp[i].uploadCheck
    ensures r'.jobs <= r.jobs + {JobId(c.now, c.cleanName)}
    ensures r'.containers == r.containers && r.pools <= r'.pools && r.blobs <= r'.blobs
  {
    var jobId := JobId(c.now, c.cleanName);
    var prepared;
    prepared, r', d', ap', page' := PrepareJob(d, c, ap, e, r, page);
    if prepared.Raise? {
      outcome, page' := Raise(prepared.exc), "ERROR";
      return;
    }
    var (params, res, jobFile) := prepared.value;
    var tasks := FrameTasks(params, jobFile.name, res);
    var (done, after) := CommitIntended(r', jobId, tasks, svc);
    r' := after;
    if done.Raise? {
      outcome, page' := Raise(done.exc), "ERROR";
      return;
    }
    assert BatchedSubmission.Ids(tasks) == FrameIds(params);
    outcome, page', ap' := Ok(jobId), "SUBMITTED", SetUploaded(ap');
  }
}

=== FILE: batchapps_utils.dfy ===
/** `batchapps_blender/utils.py`: the error-safe operator wrapper, operator
    registration, expanding operators, and the classification of the OAuth
    redirect request. */
module BatchappsUtils {
  import opened Outcomes
  import opened PyStr
  import BatchedUtils

  /** `BatchAppsOps.session`: run the function; an expired session sends the
      user back to LOGIN, any other exception to ERROR, and both return
      `{'CANCELLED'}`. */
  function Session<T>(outcome: Result<T>, page: string): (r: (Returned<T>, string))
    ensures outcome.Ok? ==> r == (Returned(outcome.value), page)
    ensures outcome.Raise? ==> r.0 == Cancelled
    ensures outcome.Raise? ==> (r.1 == "LOGIN" <==> outcome.exc == SessionExpired)
    ensures outcome.Raise? ==> (r.1 == "ERROR" <==> outcome.exc != SessionExpired)
  {
    match outcome
    case Ok(v) => (Returned(v), page)
    case Raise(SessionExpired) => (Cancelled, "LOGIN")
    case Raise(_) => (Cancelled, "ERROR")
  }

  /** The two add-ons' wrappers differ only on an expired session. */
  lemma SessionAgreesWithBatched<T>(outcome: Result<T>, page: string)
    ensures (Session(outcome, page) == BatchedUtils.Session(outcome, page))
            <==> !(outcome.Raise? && outcome.exc == SessionExpired)
  {
  }

  /** `BatchAppsOps.register` returns the operator's id name. */
  function Register(name: string): (r: string)
    ensures StartsWith(r, "batchapps_") && r[|"batchapps_"|..] == name
  {
    Prefixed("batchapps_", name)
  }

  /** Distinct names give distinct operator ids. */
  lemma RegisterInjective(a: string, b: string)
    requires Register(a) == Register(b)
    ensures a == b
  {
    assert a == Register(a)[|"batchapps_"|..];
  }

  /** The `execute` of the row operators that `register_job` and
      `register_pool` build: a click on the expanded, selected row collapses
      it (selection -1); any other click selects the row. */
  function SelectToggle(enabled: bool, selected: int, uiIndex: int): (s: int)
    ensures enabled && selected == uiIndex ==> s == -1
    ensures !(enabled && selected == uiIndex) ==> s == uiIndex
  {
    if enabled && selected == uiIndex then -1 else uiIndex
  }

  /** `register_expanding`: the wrapped `execute` runs, then the operator's
      own `enabled` flag (default False) is negated; the result is always
      `{'FINISHED'}`. */
  function Click(enabled: bool, selected: int, uiIndex: int): (r: (bool, int))
    ensures r.0 == !enabled
    ensures r.1 == SelectToggle(enabled, selected, uiIndex)
  {
    (!enabled, SelectToggle(enabled, selected, uiIndex))
  }

  /** Two clicks on a collapsed row of a non-negative index expand it and
      then collapse it again, leaving its flag as it was. */
  lemma ClickTwiceCollapses(selected: int, uiIndex: nat)
    ensures var (e1, s1) := Click(false, selected, uiIndex);
            e1 && s1 == uiIndex
            && Click(e1, s1, uiIndex) == (false, -1)
  {
  }

  /** The flag belongs to the operator, the selection to the page, so they
      drift apart: after row `a` is expanded and row `b` then selected, two
      more clicks on `a` leave `a` selected instead of collapsing it. */
  lemma FlagDriftsFromSelection(a: nat, b: nat)
    requires a != b
    ensures var (ea, s1) := Click(false, -1, a);
            var (_, s2) := Click(false, s1, b);
            var (ea2, s3) := Click(ea, s2, a);
            s3 == a && !ea2 && Click(ea2, s3, a).1 == a
  {
  }

  /** `OAuthRequestHandler.do_GET`: the raw request path is stored as the
      code either way; the answer is 200 for a path beginning '/?code' and
      401 otherwise. */
  function DoGet(path: string): (r: (string, int))
    ensures r.0 == path
    ensures r.1 == 200 <==> StartsWith(path, "/?code")
    ensures r.1 == 200 || r.1 == 401
  {
    (path, if StartsWith(path, "/?code") then 200 else 401)
  }
}

=== FILE: batched_assets.dfy ===
/** `batched_blender/assets.py`: collecting the external files a blend file
    references, choosing the blend file to submit, building the asset list,
    and the add / remove / upload operators of the asset page. */
module BatchedAssets {
  import opened Outcomes
  import opened PyStr
  import opened DisplayList
  import opened BatchedUtils
  import opened AssetProps

  /** A texture data-block: whether it has an `image` attribute at all, and
      the file path of its image, if one is set. */
  datatype Texture = Texture(hasImageAttr: bool, image: Option<string>)

  /** The parts of `bpy.data` the add-on reads: the blend file path ("" for
      a never-saved file) and the file paths of the referenced data-blocks. */
  datatype BlendData = BlendData(filepath: string, sounds: seq<string>, fonts: seq<string>,
                                 textures: seq<Texture>, images: seq<string>,
                                 libraries: seq<string>)

  /** Blender's placeholder path of its built-in font. */
  const BuiltinFont: string := "<builtin>"

  /** A file path the scene references and `collect_assets` picks up. */
  predicate Referenced(d: BlendData, fp: string) {
    fp in d.sounds
    || (fp in d.fonts && fp != BuiltinFont)
    || (exists t :: t in d.textures && t.hasImageAttr && t.image == Some(fp))
    || fp in d.images
    || fp in d.libraries
  }

  function ResolveAll(resolve: string -> string, paths: seq<string>): (r: seq<string>)
    ensures |r| == |paths|
    ensures forall k :: 0 <= k < |paths| ==> r[k] == resolve(paths[k])
  {
    if |paths| == 0 then [] else [resolve(paths[0])] + ResolveAll(resolve, paths[1..])
  }

  /** Every resolved path comes from one of the given paths, and every given
      path is resolved. */
  lemma ResolveAllMembers(resolve: string -> string, paths: seq<string>)
    ensures forall x :: x in ResolveAll(resolve, paths) ==> exists fp :: fp in paths && x == resolve(fp)
    ensures forall fp :: fp in paths ==> resolve(fp) in ResolveAll(resolve, paths)
  {
    var r := ResolveAll(resolve, paths);
    forall x | x in r ensures exists fp :: fp in paths && x == resolve(fp) {
      var k :| 0 <= k < |r| && r[k] == x;
      assert paths[k] in paths;
    }
    forall fp | fp in paths ensures resolve(fp) in r {
      var k :| 0 <= k < |paths| && paths[k] == fp;
      assert r[k] == resolve(fp);
    }
  }

  function UserFonts(fonts: seq<string>): (r: seq<string>)
    ensures forall x :: x in r <==> x in fonts && x != BuiltinFont
  {
    if |fonts| == 0 then []
    else if fonts[0] == BuiltinFont then UserFonts(fonts[1..])
    else [fonts[0]] + UserFonts(fonts[1..])
  }

  function TextureImages(ts: seq<Texture>): (r: seq<string>)
    ensures forall x :: x in r <==> exists t :: t in ts && t.hasImageAttr && t.image == Some(x)
  {
    if |ts| == 0 then []
    else
      var rest := TextureImages(ts[1..]);
      assert forall t :: t in ts[1..] ==> t in ts;
      assert forall t :: t in ts ==> t == ts[0] || t in ts[1..];
      if ts[0].hasImageAttr && ts[0].image.Some? then [ts[0].image.value] + rest else rest
  }

  /** `collect_assets`: the resolved paths of sounds, fonts other than the
      built-in one, texture images, images and libraries, in that order.
      `resolve` stands for `normpath(realpath(abspath(...)))`; the sounds and
      fonts skip `normpath`, which is the identity on a real path. Every
      referenced file is in the result, each block keeps the order of its
      data-blocks, and a path referenced twice is listed twice. */
  function CollectAssets(d: BlendData, resolve: string -> string): (r: seq<string>)
    ensures forall fp :: Referenced(d, fp) ==> resolve(fp) in r
    ensures var fonts, texs := UserFonts(d.fonts), TextureImages(d.textures);
            var o1 := |d.sounds|;
            var o2 := o1 + |fonts|;
            var o3 := o2 + |texs|;
            var o4 := o3 + |d.images|;
            |r| == o4 + |d.libraries|
            && (forall k :: 0 <= k < |d.sounds| ==> r[k] == resolve(d.sounds[k]))
            && (forall k :: 0 <= k < |fonts| ==> r[o1 + k] == resolve(fonts[k]))
            && (forall k :: 0 <= k < |texs| ==> r[o2 + k] == resolve(texs[k]))
            && (forall k :: 0 <= k < |d.images| ==> r[o3 + k] == resolve(d.images[k]))
            && (forall k :: 0 <= k < |d.libraries| ==> r[o4 + k] == resolve(d.libraries[k]))
  {
    var fonts := UserFonts(d.fonts);
    var texs := TextureImages(d.textures);
    ResolveAllMembers(resolve, d.sounds);
    ResolveAllMembers(resolve, fonts);
    ResolveAllMembers(resolve, texs);
    ResolveAllMembers(resolve, d.images);
    ResolveAllMembers(resolve, d.libraries);
    ResolveAll(resolve, d.sounds) + ResolveAll(resolve, fonts) + ResolveAll(resolve, texs)
    + ResolveAll(resolve, d.images) + ResolveAll(resolve, d.libraries)
  }

  /** Nothing else is in it: every collected path is the resolution of a
      referenced file. */
  lemma CollectAssetsSound(d: BlendData, resolve: string -> string)
    ensures forall x :: x in CollectAssets(d, resolve) ==> exists fp :: Referenced(d, fp) && x == resolve(fp)
  {
    var fonts := UserFonts(d.fonts);
    var texs := TextureImages(d.textures);
    forall x | x in CollectAssets(d, resolve) ensures exists fp :: Referenced(d, fp) && x == resolve(fp) {
      if x in ResolveAll(resolve, d.sounds) {
        ResolveAllMembers(resolve, d.sounds);
        var fp :| fp in d.sounds && x == resolve(fp);
        assert Referenced(d, fp);
      } else if x in ResolveAll(resolve, fonts) {
        ResolveAllMembers(resolve, fonts);
        var fp :| fp in fonts && x == resolve(fp);
        assert Referenced(d, fp);
      } else if x in ResolveAll(resolve, texs) {
        ResolveAllMembers(resolve, texs);
        var fp :| fp in texs && x == resolve(fp);
        assert Referenced(d, fp);
      } else if x in ResolveAll(resolve, d.images) {
        ResolveAllMembers(resolve, d.images);
        var fp :| fp in d.images && x == resolve(fp);
        assert Referenced(d, fp);
      } else {
        assert x in ResolveAll(resolve, d.libraries);
        ResolveAllMembers(resolve, d.libraries);
        var fp :| fp in d.libraries && x == resolve(fp);
        assert Referenced(d, fp);
      }
    }
  }

  // ------------------------------------------------------------- job path

  /** The characters `random.choice` draws from: `string.hexdigits`. */
  const HexDigits: string := "0123456789abcdefABCDEF"

  /** A name `name_generator` can produce. */
  predicate IsTempName(n: string) {
    |n| == 23 && n[..9] == "BATCHTMP_" && n[17..] == ".blend"
    && forall k :: 9 <= k < 17 ==> n[k] in HexDigits
  }

  /** `name_generator()`: `picks` are the eight characters `random.choice`
      returns. */
  function NameGenerator(picks: string): (n: string)
    requires |picks| == 8 && forall k :: 0 <= k < 8 ==> picks[k] in HexDigits
    ensures IsTempName(n) && n[9..17] == picks
  {
    "BATCHTMP_" + picks + ".blend"
  }

  /** Every name of that shape is one some draw produces. */
  lemma NameGeneratorOnto(n: string)
    requires IsTempName(n)
    ensures NameGenerator(n[9..17]) == n
  {
    assert n == n[..9] + n[9..17] + n[17..];
  }

  /** POSIX `os.path.join(dir, name)`. */
  function JoinPath(dir: string, name: string): (r: string)
    ensures |name| > 0 && name[0] != '/' ==> StartsWith(r, dir) && |name| <= |r| && r[|r| - |name|..] == name
  {
    if |name| > 0 && name[0] == '/' then name
    else if |dir| == 0 || dir[|dir| - 1] == '/' then dir + name
    else dir + "/" + name
  }

  /** Joining a directory and a plain file name ends in that file name. */
  lemma JoinPathBasename(dir: string, name: string)
    requires |name| > 0 && '/' !in name
    ensures Basename(JoinPath(dir, name)) == name
  {
    var r := JoinPath(dir, name);
    BasenameOfSuffix(r, name);
  }

  lemma {:induction false} BasenameOfSuffix(r: string, name: string)
    requires |name| <= |r| && r[|r| - |name|..] == name && '/' !in name
    requires |name| < |r| ==> r[|r| - |name| - 1] == '/'
    ensures Basename(r) == name
    decreases |name|
  {
    if |name| == 0 {
      if |r| > 0 {
        assert r[|r| - 1] == '/';
      }
    } else {
      assert r[|r| - 1] == name[|name| - 1];
      var r' := r[..|r| - 1];
      var name' := name[..|name| - 1];
      assert r'[|r'| - |name'|..] == name';
      BasenameOfSuffix(r', name');
    }
  }

  /** `get_jobpath`: a saved blend file is used as is (and `temp` is
      cleared); an unsaved one keeps its temporary path if it has one, or gets
      a fresh one in the temporary directory (`tempName` is the name generated
      for it). */
  function GetJobpath(dataPath: string, p: Props, tempDir: string, tempName: string): (r: (string, Props))
    ensures dataPath != "" ==> r.0 == dataPath && !r.1.temp
    ensures dataPath == "" ==> r.1.temp
    ensures dataPath == "" && p.temp && p.path != "" ==> r.0 == p.path
    ensures dataPath == "" && (!p.temp || p.path == "") ==> r.0 == JoinPath(tempDir, tempName)
    ensures r.1 == p.(temp := r.1.temp)
  {
    if dataPath == "" && p.temp then
      (if p.path != "" then p.path else JoinPath(tempDir, tempName), p)
    else if dataPath == "" then (JoinPath(tempDir, tempName), p.(temp := true))
    else (dataPath, p.(temp := false))
  }

  // ------------------------------------------------------------- collection

  /** A `BatchAsset` that `generate_collection` keeps: the path exists and is
      not a directory. */
  predicate Collectable(fs: FileSystem, path: string) {
    path in fs && !fs[path].isDir
  }

  /** The assets the loop of `generate_collection` means to add for the
      paths from position `i` on: one per collectable path, in order. */
  function Collected(paths: seq<string>, i: nat, fs: FileSystem, resolve: string -> string): (r: seq<Asset>)
    requires i <= |paths|
    ensures |r| <= |paths| - i
    ensures forall k :: 0 <= k < |r| ==> Collectable(fs, r[k].path)
    decreases |paths| - i
  {
    if i == |paths| then []
    else
      var a := MakeAsset(fs, resolve, paths[i]);
      if Collectable(fs, a.path) then [a] + Collected(paths, i + 1, fs, resolve)
      else Collected(paths, i + 1, fs, resolve)
  }

  /** Every collectable path from position `i` on has its asset among the
      collected ones. */
  lemma {:induction false} CollectedCovers(paths: seq<string>, i: nat, fs: FileSystem, resolve: string -> string)
    requires i <= |paths|
    ensures forall j :: i <= j < |paths| && Collectable(fs, resolve(paths[j])) ==>
              MakeAsset(fs, resolve, paths[j]) in Collected(paths, i, fs, resolve)
    decreases |paths| - i
  {
    if i < |paths| {
      CollectedCovers(paths, i + 1, fs, resolve);
    }
  }

  /** And nothing else: every collected asset is that of a path from
      position `i` on. */
  lemma {:induction false} CollectedSound(paths: seq<string>, i: nat, fs: FileSystem, resolve: string -> string)
    requires i <= |paths|
    ensures forall a :: a in Collected(paths, i, fs, resolve) ==>
              exists j :: i <= j < |paths| && a == MakeAsset(fs, resolve, paths[j])
    decreases |paths| - i
  {
    if i < |paths| {
      CollectedSound(paths, i + 1, fs, resolve);
    }
  }

  /** The loop of `generate_collection`, given the assets of the collectable
      paths. Its `user_file not in props.collection` test compares object
      identity (the asset class defines no equality), and a new object is
      never in the list, so it never skips anything. The first exception from
      `is_uploaded` stops the loop, after the asset it was asked about was
      added. */
  function AddPaths(p: Props, assets: seq<Asset>, isUploaded: Asset -> Result<bool>): (r: Step<Props>)
    requires Lockstep(p.lists)
    ensures Lockstep(r.state.lists)
    ensures r.state.path == p.path && r.state.temp == p.temp
    ensures |p.lists.objs| <= |r.state.lists.objs| <= |p.lists.objs| + |assets|
    ensures r.state.lists.objs == p.lists.objs + assets[..|r.state.lists.objs| - |p.lists.objs|]
    ensures r.raised.None? ==> r.state.lists.objs == p.lists.objs + assets
    decreases |assets|
  {
    if |assets| == 0 then Step(p, None)
    else
      var s := AddAsset(p, assets[0], isUploaded(assets[0]));
      assert s.state.lists.objs == p.lists.objs + [assets[0]];
      if s.raised.Some? then s
      else
        var r := AddPaths(s.state, assets[1..], isUploaded);
        var m := |r.state.lists.objs| - |s.state.lists.objs|;
        assert assets[..m + 1] == [assets[0]] + assets[1..][..m];
        r
  }

  /** Whatever the loop of `generate_collection` adds before it stops is
      the asset of a collectable referenced file. */
  lemma LoopAddsOnlyReferenced(p: Props, d: BlendData, fs: FileSystem, resolve: string -> string,
                               blobs: set<string>)
    ensures var paths := CollectAssets(d, resolve);
            var s := AddPaths(ResetAssets(p), Collected(paths, 0, fs, resolve), a => IsUploaded(a, blobs));
            forall a :: a in s.state.lists.objs ==>
              exists fp :: Referenced(d, fp) && Collectable(fs, a.path) && a == MakeAsset(fs, resolve, resolve(fp))
  {
    var paths := CollectAssets(d, resolve);
    var assets := Collected(paths, 0, fs, resolve);
    var s := AddPaths(ResetAssets(p), assets, a => IsUploaded(a, blobs));
    CollectedSound(paths, 0, fs, resolve);
    CollectAssetsSound(d, resolve);
    forall a | a in s.state.lists.objs
      ensures exists fp :: Referenced(d, fp) && Collectable(fs, a.path) && a == MakeAsset(fs, resolve, resolve(fp))
    {
      var m := |s.state.lists.objs|;
      assert s.state.lists.objs == assets[..m];
      var k :| 0 <= k < m && s.state.lists.objs[k] == a;
      assert a in assets && Collectable(fs, assets[k].path);
      var j :| 0 <= j < |paths| && a == MakeAsset(fs, resolve, paths[j]);
      assert paths[j] in paths;
      var fp :| Referenced(d, fp) && paths[j] == resolve(fp);
    }
  }

  /** `generate_collection`: reset, add every collectable referenced file,
      then (for a saved blend file) the blend file itself. The blend file
      object is always truthy and never already in the list, so it is added
      whether or not it exists. */
  function GenerateCollection(p: Props, d: BlendData, fs: FileSystem, resolve: string -> string,
                              blobs: set<string>): (r: Step<Props>)
    ensures Lockstep(r.state.lists)
    ensures r.state.path == p.path && r.state.temp == p.temp
    ensures r.raised.None? && !p.temp ==>
              |r.state.lists.objs| >= 1
              && r.state.lists.objs[|r.state.lists.objs| - 1] == MakeAsset(fs, resolve, p.path)
    ensures r.raised.None? ==>
              forall fp :: Referenced(d, fp) && Collectable(fs, resolve(resolve(fp))) ==>
                MakeAsset(fs, resolve, resolve(fp)) in r.state.lists.objs
    ensures forall a :: a in r.state.lists.objs ==>
              (exists fp :: Referenced(d, fp) && Collectable(fs, a.path) && a == MakeAsset(fs, resolve, resolve(fp)))
              || (!p.temp && a == MakeAsset(fs, resolve, p.path))
  {
    var paths := CollectAssets(d, resolve);
    var assets := Collected(paths, 0, fs, resolve);
    var s := AddPaths(ResetAssets(p), assets, a => IsUploaded(a, blobs));
    CollectedCovers(paths, 0, fs, resolve);
    assert forall fp :: Referenced(d, fp) ==> resolve(fp) in paths;
    LoopAddsOnlyReferenced(p, d, fs, resolve, blobs);
    if s.raised.Some? || p.temp then s
    else
      var job := MakeAsset(fs, resolve, p.path);
      AddAsset(s.state, job, IsUploaded(job, blobs))
  }

  /** Because the membership test never matches, a file referenced twice is
      listed twice. */
  lemma DuplicatesKept(p: Props, fs: FileSystem, resolve: string -> string, blobs: set<string>, fp: string)
    requires Lockstep(p.lists)
    requires Collectable(fs, resolve(fp))
    requires MakeAsset(fs, resolve, fp).checksum.Some?
    ensures var a := MakeAsset(fs, resolve, fp);
            var r := AddPaths(p, Collected([fp, fp], 0, fs, resolve), x => IsUploaded(x, blobs));
            r.raised.None? && r.state.lists.objs == p.lists.objs + [a, a]
  {
    var a := MakeAsset(fs, resolve, fp);
    assert Collected([fp, fp], 0, fs, resolve) == [a, a] by {
      assert Collected([fp, fp], 2, fs, resolve) == [];
    }
    var up := x => IsUploaded(x, blobs);
    assert up(a).Ok?;
    var s1 := AddAsset(p, a, up(a));
    var s2 := AddAsset(s1.state, a, up(a));
    assert AddPaths(s1.state, [a], up) == AddPaths(s2.state, [], up) by {
      assert [a][1..] == [];
    }
    assert AddPaths(p, [a, a], up) == AddPaths(s1.state, [a], up) by {
      assert [a, a][1..] == [a];
    }
  }

  /** The loop with the duplicate test as evidently intended, comparing
      assets by value: an asset equal to one already listed is skipped, so
      a list without repeats keeps none. */
  function AddPathsIntended(p: Props, assets: seq<Asset>, isUploaded: Asset -> Result<bool>): (r: Step<Props>)
    requires Lockstep(p.lists)
    ensures Lockstep(r.state.lists)
    ensures r.state.path == p.path && r.state.temp == p.temp
    ensures Distinct(p.lists.objs) ==> Distinct(r.state.lists.objs)
    ensures forall x :: x in p.lists.objs ==> x in r.state.lists.objs
    ensures forall x :: x in r.state.lists.objs ==> x in p.lists.objs || x in assets
    ensures r.raised.None? ==> forall x :: x in assets ==> x in r.state.lists.objs
    decreases |assets|
  {
    if |assets| == 0 then Step(p, None)
    else if assets[0] in p.lists.objs then AddPathsIntended(p, assets[1..], isUploaded)
    else
      var s := AddAsset(p, assets[0], isUploaded(assets[0]));
      assert s.state.lists.objs == p.lists.objs + [assets[0]];
      if s.raised.Some? then s
      else AddPathsIntended(s.state, assets[1..], isUploaded)
  }

  /** `generate_collection` with that test: the same collection, each
      asset listed once. */
  function GenerateCollectionIntended(p: Props, d: BlendData, fs: FileSystem, resolve: string -> string,
                                      blobs: set<string>): (r: Step<Props>)
    ensures Lockstep(r.state.lists) && Distinct(r.state.lists.objs)
    ensures r.state.path == p.path && r.state.temp == p.temp
    ensures r.raised.None? ==>
              forall fp :: Referenced(d, fp) && Collectable(fs, resolve(resolve(fp))) ==>
                MakeAsset(fs, resolve, resolve(fp)) in r.state.lists.objs
    ensures r.raised.None? && !p.temp ==> MakeAsset(fs, resolve, p.path) in r.state.lists.objs
    ensures forall a :: a in r.state.lists.objs ==>
              (exists fp :: Referenced(d, fp) && Collectable(fs, a.path) && a == MakeAsset(fs, resolve, resolve(fp)))
              || (!p.temp && a == MakeAsset(fs, resolve, p.path))
  {
    var paths := CollectAssets(d, resolve);
    var assets := Collected(paths, 0, fs, resolve);
    var s := AddPathsIntended(ResetAssets(p), assets, a => IsUploaded(a, blobs));
    CollectedCovers(paths, 0, fs, resolve);
    assert forall fp :: Referenced(d, fp) ==> resolve(fp) in paths;
    IntendedAddsOnlyReferenced(p, d, fs, resolve, blobs);
    if s.raised.Some? || p.temp then s
    else
      var job := MakeAsset(fs, resolve, p.path);
      if job in s.state.lists.objs then s
      else
        var r := AddAsset(s.state, job, IsUploaded(job, blobs));
        assert r.state.lists.objs == s.state.lists.objs + [job];
        r
  }

  lemma IntendedAddsOnlyReferenced(p: Props, d: BlendData, fs: FileSystem, resolve: string -> string,
                                   blobs: set<string>)
    ensures var paths := CollectAssets(d, resolve);
            var s := AddPathsIntended(ResetAssets(p), Collected(paths, 0, fs, resolve), a => IsUploaded(a, blobs));
            forall a :: a in s.state.lists.objs ==>
              exists fp :: Referenced(d, fp) && Collectable(fs, a.path) && a == MakeAsset(fs, resolve, resolve(fp))
  {
    var paths := CollectAssets(d, resolve);
    var assets := Collected(paths, 0, fs, resolve);
    var s := AddPathsIntended(ResetAssets(p), assets, a => IsUploaded(a, blobs));
    CollectedSound(paths, 0, fs, resolve);
    CollectAssetsSound(d, resolve);
    forall a | a in s.state.lists.objs
      ensures exists fp :: Referenced(d, fp) && Collectable(fs, a.path) && a == MakeAsset(fs, resolve, resolve(fp))
    {
      assert a in assets;
      var k :| 0 <= k < |assets| && assets[k] == a;
      assert Collectable(fs, assets[k].path);
      var j :| 0 <= j < |paths| && a == MakeAsset(fs, resolve, paths[j]);
      assert paths[j] in paths;
      var fp :| Referenced(d, fp) && paths[j] == resolve(fp);
    }
  }

  /** With that test a file referenced twice is listed once. */
  lemma DuplicatesSkippedIntended(p: Props, fs: FileSystem, resolve: string -> string, blobs: set<string>,
                                  fp: string)
    requires Lockstep(p.lists) && Distinct(p.lists.objs)
    requires Collectable(fs, resolve(fp))
    requires MakeAsset(fs, resolve, fp).checksum.Some?
    ensures var a := MakeAsset(fs, resolve, fp);
            var r := AddPathsIntended(p, Collected([fp, fp], 0, fs, resolve), x => IsUploaded(x, blobs));
            r.raised.None? && Distinct(r.state.lists.objs) && a in r.state.lists.objs
            && (a !in p.lists.objs ==> r.state.lists.objs == p.lists.objs + [a])
  {
    var a := MakeAsset(fs, resolve, fp);
    assert Collected([fp, fp], 0, fs, resolve) == [a, a] by {
      assert Collected([fp, fp], 2, fs, resolve) == [];
    }
    var up := x => IsUploaded(x, blobs);
    assert up(a).Ok?;
    assert [a, a][1..] == [a] && [a][1..] == [];
    if a !in p.lists.objs {
      var s1 := AddAsset(p, a, up(a));
      assert s1.state.lists.objs == p.lists.objs + [a];
      assert AddPathsIntended(p, [a, a], up) == AddPathsIntended(s1.state, [a], up);
      assert AddPathsIntended(s1.state, [a], up) == AddPathsIntended(s1.state, [], up);
    } else {
      assert AddPathsIntended(p, [a, a], up) == AddPathsIntended(p, [a], up);
      assert AddPathsIntended(p, [a], up) == AddPathsIntended(p, [], up);
    }
  }

  /** After a complete collection of a saved blend file whose path is
      already a resolved path, `get_jobfile` finds the blend file. */
  lemma JobfileAfterCollection(p: Props, d: BlendData, fs: FileSystem, resolve: string -> string,
                               blobs: set<string>)
    requires !p.temp && resolve(p.path) == p.path
    requires GenerateCollection(p, d, fs, resolve, blobs).raised.None?
    ensures GetJobfile(GenerateCollection(p, d, fs, resolve, blobs).state).Ok?
  {
    var r := GenerateCollection(p, d, fs, resolve, blobs).state;
    assert r.lists.objs[|r.lists.objs| - 1].path == r.path;
  }

  // ------------------------------------------------------------ operators

  /** `pending_upload`: the rows whose upload checkbox is ticked. */
  function PendingUpload(p: Props): (r: seq<nat>)
    ensures forall k :: 0 <= k < |r| ==> r[k] < |p.lists.disp| && p.lists.disp[r[k]].uploadCheckbox
    ensures forall i :: 0 <= i < |p.lists.disp| && p.lists.disp[i].uploadCheckbox ==> i in r
    ensures forall j, k :: 0 <= j < k < |r| ==> r[j] < r[k]
  {
    Checked(p.lists.disp, (e: AssetEntry) => e.uploadCheckbox)
  }

  /** The blob of `a` is in the store, or there is nothing to upload. */
  predicate Settled(a: Asset, stored: set<string>) {
    !a.present || (a.checksum.Some? && BlobKey(a) in stored)
  }

  /** `b` is the blob name of some asset ticked for upload. */
  predicate PendingKey(p: Props, b: string)
    requires Lockstep(p.lists)
  {
    exists i :: 0 <= i < |p.lists.objs| && p.lists.disp[i].uploadCheckbox
                && p.lists.objs[i].checksum.Some? && b == BlobKey(p.lists.objs[i])
  }

  /** Row `i` after `_upload` differs from before only in `upload_check`,
      which is set exactly for the rows whose upload went through. */
  predicate UploadedRow(p: Props, disp: seq<AssetEntry>, stored: set<string>, storeFails: seq<bool>, i: int)
    requires Lockstep(p.lists) && |storeFails| == |p.lists.objs| && |disp| == |p.lists.disp|
    requires 0 <= i < |disp|
  {
    var a := p.lists.objs[i];
    disp[i] == p.lists.disp[i].(uploadCheck := disp[i].uploadCheck)
    && (disp[i].uploadCheck ==> Settled(a, stored))
    && (!a.present || (a.checksum.Some? && !storeFails[i]) ==> disp[i].uploadCheck)
  }

  /** Rows below `n` that are ticked have been handled. */
  predicate Handled(p: Props, k: int, n: int)
    requires Lockstep(p.lists)
  {
    0 <= k < n && k < |p.lists.disp| && p.lists.disp[k].uploadCheckbox
  }

  /** The effect of one iteration of `_upload` on the row `n` it handles, the
      rows already handled, and the store. */
  lemma UploadStep(p: Props, disp: seq<AssetEntry>, before: set<string>, blobs: set<string>,
                   storeFails: seq<bool>, n: nat)
    requires Lockstep(p.lists) && |storeFails| == |p.lists.objs| && |disp| == |p.lists.disp|
    requires n < |disp| && p.lists.disp[n].uploadCheckbox
    requires blobs <= before && forall b :: b in before - blobs ==> PendingKey(p, b)
    requires forall k :: 0 <= k < |disp| && !Handled(p, k, n) ==> disp[k] == p.lists.disp[k]
    requires forall k :: 0 <= k < |disp| && Handled(p, k, n) ==> UploadedRow(p, disp, before, storeFails, k)
    ensures var out := Upload(p.lists.objs[n], before, storeFails[n]);
            var after := if out.Ok? then out.value else before;
            var disp' := disp[n := disp[n].(uploadCheck := out.Ok?)];
            blobs <= after && (forall b :: b in after - blobs ==> PendingKey(p, b))
            && (forall k :: 0 <= k < |disp'| && !Handled(p, k, n + 1) ==> disp'[k] == p.lists.disp[k])
            && (forall k :: 0 <= k < |disp'| && Handled(p, k, n + 1) ==> UploadedRow(p, disp', after, storeFails, k))
  {
    var a := p.lists.objs[n];
    var out := Upload(a, before, storeFails[n]);
    var after := if out.Ok? then out.value else before;
    var disp' := disp[n := disp[n].(uploadCheck := out.Ok?)];
    forall b | b in after - blobs ensures PendingKey(p, b) {
      if b !in before {
        assert b == BlobKey(a);
      }
    }
    if out.Ok? && a.present {
      IsUploadedIffKeyStored(a, after);
    }
    if a.present && a.checksum.Some? && !storeFails[n] {
      IsUploadedIffKeyStored(a, before);
    }
    assert UploadedRow(p, disp', after, storeFails, n);
    forall k | 0 <= k < |disp'| && Handled(p, k, n) ensures UploadedRow(p, disp', after, storeFails, k) {
      assert UploadedRow(p, disp, before, storeFails, k);
    }
  }

  /** `_upload`: every ticked row (the indices `pending_upload` lists, in
      increasing order) is uploaded in turn; a failure only clears that
      row's `upload_check` and the loop goes on. `storeFails[i]` is whether
      storing the blob of row `i` would fail. */
  method UploadPending(p: Props, blobs: set<string>, storeFails: seq<bool>)
      returns (q: Props, stored: set<string>)
    requires Lockstep(p.lists) && |storeFails| == |p.lists.objs|
    ensures q.lists.objs == p.lists.objs && q.lists.index == p.lists.index
    ensures q.path == p.path && q.temp == p.temp
    ensures Lockstep(q.lists)
    ensures blobs <= stored
    ensures forall b :: b in stored - blobs ==> PendingKey(p, b)
    ensures forall i :: 0 <= i < |q.lists.disp| && !p.lists.disp[i].uploadCheckbox ==>
              q.lists.disp[i] == p.lists.disp[i]
    ensures forall i :: 0 <= i < |q.lists.disp| && p.lists.disp[i].uploadCheckbox ==>
              UploadedRow(p, q.lists.disp, stored, storeFails, i)
  {
    var disp := p.lists.disp;
    stored := blobs;
    var n := 0;
    while n < |disp|
      invariant 0 <= n <= |disp| == |p.lists.disp|
      invariant blobs <= stored
      invariant forall b :: b in stored - blobs ==> PendingKey(p, b)
      invariant forall k :: 0 <= k < |disp| && !Handled(p, k, n) ==> disp[k] == p.lists.disp[k]
      invariant forall k :: 0 <= k < |disp| && Handled(p, k, n) ==> UploadedRow(p, disp, stored, storeFails, k)
    {
      if p.lists.disp[n].uploadCheckbox {
        UploadStep(p, disp, stored, blobs, storeFails, n);
        var outcome := Upload(p.lists.objs[n], stored, storeFails[n]);
        if outcome.Ok? {
          stored := outcome.value;
        }
        disp := disp[n := disp[n].(uploadCheck := outcome.Ok?)];
      } else {
        assert forall k :: Handled(p, k, n + 1) <==> Handled(p, k, n);
      }
      n := n + 1;
    }
    q := p.(lists := p.lists.(disp := disp));
  }

  /** `_add_execute`: the chosen file is always added (the object is always
      truthy and never in the list), so a missing file is listed and then
      `is_uploaded` raises TypeError on its missing checksum. */
  function AddExecute(p: Props, fs: FileSystem, resolve: string -> string, filePath: string,
                      blobs: set<string>): (r: Step<Props>)
    requires Lockstep(p.lists)
    ensures Lockstep(r.state.lists)
    ensures |r.state.lists.objs| == |p.lists.objs| + 1
    ensures r.state.lists.objs[|p.lists.objs|] == MakeAsset(fs, resolve, filePath)
    ensures resolve(filePath) !in fs ==> r.raised == Some(TypeError)
  {
    var a := MakeAsset(fs, resolve, filePath);
    AddAsset(p, a, IsUploaded(a, blobs))
  }

  /** `_remove`: removes the selected row when the list is not empty. */
  function RemoveOp(p: Props): (r: Result<Props>)
    requires Lockstep(p.lists)
    ensures |p.lists.disp| == 0 ==> r == Ok(p)
    ensures |p.lists.disp| > 0 && 0 <= p.lists.index < |p.lists.disp| ==>
              r.Ok? && |r.value.lists.objs| == |p.lists.objs| - 1 && Lockstep(r.value.lists)
    ensures |p.lists.disp| > 0 && !(0 <= p.lists.index < |p.lists.disp|) ==> r == Raise(IndexError)
    ensures r.Ok? && |p.lists.disp| > 0 ==>
              var i := p.lists.index;
              r.value.lists.objs == p.lists.objs[..i] + p.lists.objs[i + 1..]
              && r.value.lists.disp == p.lists.disp[..i] + p.lists.disp[i + 1..]
    ensures r.Ok? ==> r.value.path == p.path && r.value.temp == p.temp
  {
    if |p.lists.disp| == 0 then Ok(p)
    else
      var l :- RemoveSelected(p.lists);
      var i := p.lists.index;
      assert l.objs == p.lists.objs[..i] + p.lists.objs[i + 1..];
      assert l.disp == p.lists.disp[..i] + p.lists.disp[i + 1..];
      LockstepPreserved(p.lists, p.lists.objs[0], p.lists.disp[0]);
      Ok(p.(lists := l))
  }

  /** `_assets` and `_refresh` (the latter without switching the page): the
      job path is chosen and stored, then the list is rebuilt. Under
      `session` an exception leaves the page on ERROR. */
  function Refresh(page: string, setPage: bool, p: Props, d: BlendData, fs: FileSystem,
                   resolve: string -> string, blobs: set<string>, tempDir: string,
                   tempName: string): (r: (Step<Props>, string))
    ensures var (path, _) := GetJobpath(d.filepath, p, tempDir, tempName);
            r.0.state.path == path
    ensures r.0.raised.Some? ==> r.1 == "ERROR"
    ensures r.0.raised.None? ==> r.1 == (if setPage then "ASSETS" else page)
    ensures Lockstep(r.0.state.lists)
    ensures var (path, p1) := GetJobpath(d.filepath, p, tempDir, tempName);
            r.0 == GenerateCollection(p.(path := path, temp := p1.temp), d, fs, resolve, blobs)
  {
    var (path, p1) := GetJobpath(d.filepath, p, tempDir, tempName);
    var s := GenerateCollection(p1.(path := path), d, fs, resolve, blobs);
    var shown := if setPage then "ASSETS" else page;
    (s, if s.raised.Some? then "ERROR" else shown)
  }
}

=== FILE: batched_jobs.dfy ===
/** `batched_blender/jobs.py` and `batched_blender/props/props_jobs.py`:
    the job list page, loaded a page at a time by continuation token, and
    job deletion. */
module BatchedJobs {
  import opened Outcomes
  import opened PyStr
  import opened DisplayList
  import opened Remote
  import BlenderProps
  import Dates
  import BatchedSubmission

  /** A `CloudJob` as the service lists it. `displayName` and `poolId` are
      None when the attribute is missing or empty; `creationIso` is the
      `isoformat()` of the creation time, None when that is None;
      `hasTimeSubmitted` is whether the object has the attribute the date
      helper's `except` clause reads. */
  datatype Job = Job(id: string, displayName: Option<string>, poolId: Option<string>,
                     creationIso: Option<string>, hasTimeSubmitted: bool, state: string)

  /** A `JobDisplayProps` row. */
  datatype JobEntry = JobEntry(name: string, id: string, pool: string, percent: int,
                               deleteCheckbox: bool, timestamp: string, status: string)

  /** A new row's defaults. */
  const BlankEntry: JobEntry := JobEntry("", "", "", 0, false, "", "")

  datatype JobProps = JobProps(lists: Lists<Job, JobEntry>, more: string, perCall: int)

  /** A fresh property group. */
  const Defaults: JobProps := JobProps(Empty(), "", 5)

  /** `per_call` as Blender keeps it: within 1..50. */
  function SetPerCall(p: JobProps, v: int): (q: JobProps)
    ensures 1 <= q.perCall <= 50
    ensures 1 <= v <= 50 ==> q.perCall == v
    ensures q == p.(perCall := q.perCall)
  {
    p.(perCall := BlenderProps.Clamp(v, 1, 50))
  }

  /** The date of a job: the formatted creation time, or "" when that fails
      and the `except` clause can read `time_submitted`. */
  function Stamp(job: Job): Result<string> {
    Dates.FormatDate(job.creationIso, Dates.JobHandler(job.hasTimeSubmitted))
  }

  /** The row `add_job` fills in field by field; `stamp` is the outcome of
      `format_date` for the job, whose exception leaves the rest of the row
      at its defaults. `percent` is what the job-percentage helper reports. */
  function Entry(job: Job, stamp: Result<string>, percent: int): (e: JobEntry)
    ensures e.name == (if job.displayName.Some? then job.displayName.value else job.id)
    ensures !e.deleteCheckbox
    ensures stamp.Raise? ==> e.id == "" && e.timestamp == "" && e.status == "" && e.pool == ""
    ensures stamp.Ok? ==>
              e.timestamp == stamp.value && e.id == job.id && e.status == job.state
              && e.pool == (if job.poolId.Some? then job.poolId.value else "auto pool")
              && e.percent == percent
  {
    var name := if job.displayName.Some? then job.displayName.value else job.id;
    var head := BlankEntry.(name := name);
    match stamp
    case Raise(_) => head
    case Ok(t) =>
      var pool := if job.poolId.Some? then job.poolId.value else "auto pool";
      head.(timestamp := t, pool := pool, status := job.state, id := job.id, percent := percent)
  }

  /** `add_job`: the job and its row are appended even when formatting the
      date raises, and the exception then propagates. */
  function AddJob(p: JobProps, job: Job, stamp: Result<string>, percent: int): (r: Step<JobProps>)
    requires Lockstep(p.lists)
    ensures Lockstep(r.state.lists)
    ensures r.state.lists.objs == p.lists.objs + [job]
    ensures r.state.lists.disp == p.lists.disp + [Entry(job, stamp, percent)]
    ensures r.state.lists.index == p.lists.index
    ensures r.state.more == p.more && r.state.perCall == p.perCall
    ensures r.raised.Some? <==> stamp.Raise?
  {
    var l := Add(p.lists, job, Entry(job, stamp, percent));
    Step(p.(lists := l), Raised(stamp))
  }

  /** The row of each job in a listing. */
  function JobRow(stamp: Job -> Result<string>, percent: string -> int): (row: Job -> JobEntry)
  {
    j => Entry(j, stamp(j), percent(j.id))
  }

  /** The loop of `get_job_list` over a fetched page, `add_job` per job;
      the first job whose date cannot be formatted stops it. */
  function AddJobs(p: JobProps, jobs: seq<Job>, stamp: Job -> Result<string>, percent: string -> int)
    : (r: Step<JobProps>)
    requires Lockstep(p.lists)
    ensures Lockstep(r.state.lists) && r.state.lists.index == p.lists.index
    ensures r.state.more == p.more && r.state.perCall == p.perCall
    ensures var n := |r.state.lists.objs| - |p.lists.objs|;
            0 <= n <= |jobs|
            && r.state.lists.objs == p.lists.objs + jobs[..n]
  {
    var s := AddAll(p.lists, jobs, JobRow(stamp, percent), Failures(stamp));
    AddAllAppends(p.lists, jobs, JobRow(stamp, percent), Failures(stamp));
    Step(p.(lists := s.state), s.raised)
  }

  /** Each job added gets its own row. */
  lemma AddJobsRows(p: JobProps, jobs: seq<Job>, stamp: Job -> Result<string>, percent: string -> int)
    requires Lockstep(p.lists)
    ensures var r := AddJobs(p, jobs, stamp, percent);
            var n := |r.state.lists.objs| - |p.lists.objs|;
            r.state.lists.disp == p.lists.disp + Rows(jobs[..n], JobRow(stamp, percent))
  {
    AddAllRows(p.lists, jobs, JobRow(stamp, percent), Failures(stamp));
  }

  /** A listing that raised stopped at the last job it added, whose date
      could not be formatted. */
  lemma AddJobsStops(p: JobProps, jobs: seq<Job>, stamp: Job -> Result<string>, percent: string -> int)
    requires Lockstep(p.lists)
    ensures var r := AddJobs(p, jobs, stamp, percent);
            var n := |r.state.lists.objs| - |p.lists.objs|;
            r.raised.Some? ==> n > 0 && stamp(jobs[n - 1]).Raise? && r.raised.value == stamp(jobs[n - 1]).exc
  {
    var a := AddAll(p.lists, jobs, JobRow(stamp, percent), Failures(stamp));
    AddAllAppends(p.lists, jobs, JobRow(stamp, percent), Failures(stamp));
    var n := |a.state.objs| - |p.lists.objs|;
    if a.raised.Some? {
      assert a.raised == Raised(stamp(jobs[n - 1]));
    }
  }

  /** The whole page is listed exactly when every job's date formats. */
  lemma AddJobsCompletes(p: JobProps, jobs: seq<Job>, stamp: Job -> Result<string>, percent: string -> int)
    requires Lockstep(p.lists)
    ensures AddJobs(p, jobs, stamp, percent).raised.None? <==> forall k :: 0 <= k < |jobs| ==> stamp(jobs[k]).Ok?
  {
    AddAllCompletes(p.lists, jobs, JobRow(stamp, percent), Failures(stamp));
  }

  /** One job through the loop is one `add_job`. */
  lemma AddJobsOne(p: JobProps, job: Job, stamp: Job -> Result<string>, percent: string -> int)
    requires Lockstep(p.lists)
    ensures AddJobs(p, [job], stamp, percent) == AddJob(p, job, stamp(job), percent(job.id))
  {
    var r := AddJobs(p, [job], stamp, percent);
    var q := AddJob(p, job, stamp(job), percent(job.id));
    AddJobsRows(p, [job], stamp, percent);
    AddJobsStops(p, [job], stamp, percent);
    assert |r.state.lists.objs| == |p.lists.objs| + 1;
    assert [job][..1] == [job];
    assert Rows([job], JobRow(stamp, percent)) == [Entry(job, stamp(job), percent(job.id))];
  }

  /** A page of the job listing: the jobs and the `next_link`, None when the
      service gives none. */
  datatype JobPage = JobPage(jobs: seq<Job>, nextLink: Option<string>)

  /** The server-side filter of the listing, `startswith(id,'blender_render')`. */
  const ListFilter: string := "blender_render"

  /** A page the service can send for the options `get_job_list` passes:
      at most `max_results` jobs, each matching the filter. */
  predicate Served(got: JobPage, perCall: int) {
    |got.jobs| <= perCall && forall k :: 0 <= k < |got.jobs| ==> StartsWith(got.jobs[k].id, ListFilter)
  }

  /** `get_job_list`: the page after the stored token, or the first page
      when there is none (`fetch("")`), is appended to the list; the token
      becomes the page's `next_link` or "", and the page JOBS is shown. A
      listing call that raises leaves everything as it was and the page on
      ERROR. `percent` is the job-percentage helper. */
  function GetJobList(p: JobProps, fetch: string -> Result<JobPage>, percent: string -> int, page: string)
    : (r: (Step<JobProps>, string))
    requires Lockstep(p.lists)
    requires fetch(p.more).Ok? ==> Served(fetch(p.more).value, p.perCall)
    ensures fetch(p.more).Raise? ==> r == (Step(p, Some(fetch(p.more).exc)), "ERROR")
    ensures fetch(p.more).Ok? ==>
            var got := fetch(p.more).value;
            var s := r.0.state;
            Lockstep(s.lists) && s.perCall == p.perCall
            && |p.lists.objs| <= |s.lists.objs| <= |p.lists.objs| + |got.jobs|
            && s.lists.objs == p.lists.objs + got.jobs[..|s.lists.objs| - |p.lists.objs|]
            && ((forall k :: 0 <= k < |got.jobs| ==> Stamp(got.jobs[k]).Ok?) ==> r.0.raised.None?)
            && (r.0.raised.None? ==>
                  s.lists.objs == p.lists.objs + got.jobs
                  && s.more == (if got.nextLink.Some? then got.nextLink.value else "")
                  && r.1 == "JOBS")
            && (r.0.raised.Some? ==> s.more == p.more && r.1 == "ERROR")
    ensures fetch(p.more).Ok? ==> |r.0.state.lists.objs| <= |p.lists.objs| + p.perCall
    ensures forall k :: |p.lists.objs| <= k < |r.0.state.lists.objs| ==>
              StartsWith(r.0.state.lists.objs[k].id, ListFilter)
  {
    match fetch(p.more)
    case Raise(x) => (Step(p, Some(x)), "ERROR")
    case Ok(got) =>
      var s := AddJobs(p, got.jobs, Stamp, percent);
      AddJobsCompletes(p, got.jobs, Stamp, percent);
      assert forall k :: |p.lists.objs| <= k < |s.state.lists.objs| ==>
               s.state.lists.objs[k] == got.jobs[k - |p.lists.objs|];
      if s.raised.Some? then (s, "ERROR")
      else (Step(s.state.(more := if got.nextLink.Some? then got.nextLink.value else ""), None), "JOBS")
  }

  /** Because of that filter, no job the submission creates is ever among
      the rows a listing adds. */
  lemma SubmittedJobNeverListed(p: JobProps, fetch: string -> Result<JobPage>, percent: string -> int,
                                page: string, lux: bool, now: string, cleanName: string -> string)
    requires Lockstep(p.lists)
    requires fetch(p.more).Ok? ==> Served(fetch(p.more).value, p.perCall)
    ensures var s := GetJobList(p, fetch, percent, page).0.state;
            forall k :: |p.lists.objs| <= k < |s.lists.objs| ==>
              s.lists.objs[k].id != BatchedSubmission.JobId(lux, now, cleanName)
  {
    SubmittedJobsFilteredOut(lux, now, cleanName);
  }

  /** `_jobs` (also reached through `_refresh` and `_delete`): reset the
      list, forget the token, and move from HOME to LOADING; the listing
      itself runs afterwards. */
  function JobsPage(p: JobProps, page: string): (r: (JobProps, string))
    ensures r.0.lists.objs == [] && r.0.lists.disp == [] && r.0.lists.index == 0
    ensures r.0.more == "" && r.0.perCall == p.perCall
    ensures r.1 == (if page == "HOME" then "LOADING" else page)
  {
    (p.(lists := Reset(p.lists), more := ""), if page == "HOME" then "LOADING" else page)
  }

  /** Refreshing always starts over from the first page: the listing after
      `_jobs` shows exactly the first page's jobs. */
  lemma RefreshStartsOver(p: JobProps, page: string, fetch: string -> Result<JobPage>, percent: string -> int)
    requires fetch("").Ok? ==> Served(fetch("").value, p.perCall)
    ensures var (q, shown) := JobsPage(p, page);
            var r := GetJobList(q, fetch, percent, shown).0;
            r.raised.None? ==> fetch("").Ok? && r.state.lists.objs == fetch("").value.jobs
  {
  }

  /** `_more` appends without resetting: the rows already shown stay, in
      front of the new ones. */
  lemma MoreOnlyGrows(p: JobProps, fetch: string -> Result<JobPage>, percent: string -> int, page: string)
    requires Lockstep(p.lists)
    requires fetch(p.more).Ok? ==> Served(fetch(p.more).value, p.perCall)
    ensures var s := GetJobList(p, fetch, percent, page).0.state;
            |p.lists.objs| <= |s.lists.objs| && s.lists.objs[..|p.lists.objs|] == p.lists.objs
  {
    var s := GetJobList(p, fetch, percent, page).0.state;
    if fetch(p.more).Raise? { return; }
    var got := fetch(p.more).value;
    assert s.lists.objs[..|p.lists.objs|] == (p.lists.objs + got.jobs[..|s.lists.objs| - |p.lists.objs|])[..|p.lists.objs|];
  }

  /** The listing's filter never matches a job id the submission makes,
      which begins with 'blender-render-' or 'luxblend-render-'. */
  lemma SubmittedJobsFilteredOut(lux: bool, now: string, cleanName: string -> string)
    ensures !StartsWith(BatchedSubmission.JobId(lux, now, cleanName), ListFilter)
  {
    var id := BatchedSubmission.JobId(lux, now, cleanName);
    if lux {
      assert id[..|"luxblend-render-"|] == "luxblend-render-";
      assert id[0] == 'l' && ListFilter[0] == 'b';
    } else {
      assert id[..|"blender-render-"|] == "blender-render-";
      assert id[7] == '-' && ListFilter[7] == '_';
    }
  }

  /** The filter as evidently intended: the prefixes the submission gives
      its job ids. */
  predicate ListedIntended(id: string) {
    StartsWith(id, "blender-render-") || StartsWith(id, "luxblend-render-")
  }

  /** With that filter every submitted job is listed. */
  lemma SubmittedJobsListedIntended(lux: bool, now: string, cleanName: string -> string)
    ensures ListedIntended(BatchedSubmission.JobId(lux, now, cleanName))
  {
  }

  /** `pending_delete`. */
  function PendingDelete(p: JobProps): (r: seq<nat>)
    ensures forall k :: 0 <= k < |r| ==> r[k] < |p.lists.disp| && p.lists.disp[r[k]].deleteCheckbox
    ensures forall i :: 0 <= i < |p.lists.disp| && p.lists.disp[i].deleteCheckbox ==> i in r
    ensures forall j, k :: 0 <= j < k < |r| ==> r[j] < r[k]
  {
    Checked(p.lists.disp, (e: JobEntry) => e.deleteCheckbox)
  }

  /** The ids `_delete` gets deleted from row `i` on: every ticked row,
      except those whose deletion fails (`fails[i]`), which are only
      logged. */
  function DeletedFrom(p: JobProps, fails: seq<bool>, i: nat): set<string>
    requires Lockstep(p.lists) && |fails| == |p.lists.objs| && i <= |p.lists.objs|
  {
    set k | i <= k < |p.lists.objs| && p.lists.disp[k].deleteCheckbox && !fails[k] :: p.lists.objs[k].id
  }

  /** `_delete` before it re-lists. */
  function DeletePending(r: RemoteState, p: JobProps, fails: seq<bool>): (r': RemoteState)
    requires Lockstep(p.lists) && |fails| == |p.lists.objs|
    ensures r'.jobs == r.jobs - DeletedFrom(p, fails, 0)
    ensures forall j :: j in r.tasks && j !in DeletedFrom(p, fails, 0) ==> j in r'.tasks && r'.tasks[j] == r.tasks[j]
    ensures r' == r.(jobs := r'.jobs, tasks := r'.tasks)
  {
    DeleteFrom(r, p, fails, 0)
  }

  function DeleteFrom(r: RemoteState, p: JobProps, fails: seq<bool>, i: nat): (r': RemoteState)
    requires Lockstep(p.lists) && |fails| == |p.lists.objs| && i <= |p.lists.objs|
    ensures r'.jobs == r.jobs - DeletedFrom(p, fails, i)
    ensures forall j :: j in r.tasks && j !in DeletedFrom(p, fails, i) ==> j in r'.tasks && r'.tasks[j] == r.tasks[j]
    ensures r' == r.(jobs := r'.jobs, tasks := r'.tasks)
    decreases |p.lists.objs| - i
  {
    if i == |p.lists.objs| then r
    else
      var r1 := if p.lists.disp[i].deleteCheckbox && !fails[i] then DeleteJob(r, p.lists.objs[i].id) else r;
      var r' := DeleteFrom(r1, p, fails, i + 1);
      assert DeletedFrom(p, fails, i) == DeletedFrom(p, fails, i + 1)
               + (if p.lists.disp[i].deleteCheckbox && !fails[i] then {p.lists.objs[i].id} else {});
      r'
  }
}

=== FILE: batched_pools.dfy ===
/** `batched_blender/pools.py` and `batched_blender/props/props_pools.py`:
    the pool list page, pool creation, deletion and resizing. */
module BatchedPools {
  import opened Outcomes
  import opened PyStr
  import opened DisplayList
  import opened Remote
  import opened BatchedUtils
  import Dates

  /** A `CloudPool` as the service lists it. `displayName` is None when the
      attribute is missing or empty; `creationIso` is the `isoformat()` of
      the creation time, None when that is None. */
  datatype Pool = Pool(id: string, displayName: Option<string>, creationIso: Option<string>,
                       currentDedicated: int, allocationState: string)

  /** A `PoolDisplayProps` row. */
  datatype PoolEntry = PoolEntry(name: string, auto: bool, nodes: int, deleteCheckbox: bool,
                                 timestamp: string, state: string, id: string)

  /** A new row's defaults. */
  const BlankEntry: PoolEntry := PoolEntry("", false, 0, false, "", "", "")

  datatype PoolProps = PoolProps(lists: Lists<Pool, PoolEntry>, poolSize: int, poolName: string)

  /** The auto-pool mark of a row: the id begins with 'blender_auto_'. */
  predicate IsAutoId(id: string) {
    StartsWith(id, "blender_auto_")
  }

  /** `add_pool`: the row is filled in field by field; `format_date` raises
      when the creation time is None, leaving the rest of the row at its
      defaults. */
  function AddPool(p: PoolProps, pool: Pool): (r: Step<PoolProps>)
    requires Lockstep(p.lists)
    ensures Lockstep(r.state.lists) && |r.state.lists.objs| == |p.lists.objs| + 1
    ensures r.state.poolSize == p.poolSize && r.state.poolName == p.poolName
    ensures r.state.lists.objs == p.lists.objs + [pool]
    ensures var e := r.state.lists.disp[|p.lists.disp|];
            e.name == (if pool.displayName.Some? then pool.displayName.value else pool.id)
            && (e.auto <==> IsAutoId(pool.id))
    ensures r.raised.Some? <==> pool.creationIso.None?
    ensures r.raised.None? ==>
              var e := r.state.lists.disp[|p.lists.disp|];
              e.id == pool.id && e.nodes == pool.currentDedicated && e.state == pool.allocationState
              && e.timestamp == Dates.FormatDate(pool.creationIso, None).value
  {
    var name := if pool.displayName.Some? then pool.displayName.value else pool.id;
    var head := BlankEntry.(name := name, auto := IsAutoId(pool.id));
    var stamp := Dates.FormatDate(pool.creationIso, Dates.PoolHandler(pool.creationIso));
    match stamp
    case Raise(e) => Step(p.(lists := Add(p.lists, pool, head)), Some(e))
    case Ok(t) =>
      var row := head.(timestamp := t, nodes := pool.currentDedicated,
                       state := pool.allocationState, id := pool.id);
      Step(p.(lists := Add(p.lists, pool, row)), None)
  }

  /** The auto pools the service creates for a submission carry the prefix
      `get_auto_pool` chose: under LuxRender 'luxblend_auto', which is never
      marked auto, and otherwise 'blender_auto', marked exactly when the
      service's suffix begins with '_'. */
  lemma AutoMarkByEngine(name: string, lux: bool, s: PoolSettings, skus: seq<NodeAgentSku>, suffix: string)
    ensures GetAutoPool(name, lux, s, skus).Ok? ==>
              var id := GetAutoPool(name, lux, s, skus).value.prefix + suffix;
              (lux ==> !IsAutoId(id))
              && (!lux ==> (IsAutoId(id) <==> StartsWith(suffix, "_")))
  {
    if GetAutoPool(name, lux, s, skus).Ok? {
      var prefix := GetAutoPool(name, lux, s, skus).value.prefix;
      AutoMarkOfPrefix(prefix, suffix);
    }
  }

  lemma AutoMarkOfPrefix(prefix: string, suffix: string)
    requires prefix == "luxblend_auto" || prefix == "blender_auto"
    ensures prefix == "luxblend_auto" ==> !IsAutoId(prefix + suffix)
    ensures prefix == "blender_auto" ==> (IsAutoId(prefix + suffix) <==> StartsWith(suffix, "_"))
  {
    var id := prefix + suffix;
    if prefix == "luxblend_auto" {
      assert id[0] == 'l';
    } else {
      assert id[..12] == prefix;
      if |id| >= 13 {
        assert id[..13] == prefix + [suffix[0]];
        assert suffix[..1] == [suffix[0]];
      }
    }
  }

  /** The id prefix of the server-side list filter. */
  function ListPrefix(lux: bool): (s: string)
    ensures s == (if lux then "lux" else "blender")
  {
    if lux then "lux" else "blender"
  }

  /** The service's answer to `pool.list(filter=startswith(id, prefix))`. */
  function ListPools(all: seq<Pool>, prefix: string): (r: seq<Pool>)
    ensures forall k :: 0 <= k < |r| ==> StartsWith(r[k].id, prefix) && r[k] in all
    ensures forall q :: q in r <==> q in all && StartsWith(q.id, prefix)
  {
    if |all| == 0 then []
    else if StartsWith(all[0].id, prefix) then [all[0]] + ListPools(all[1..], prefix)
    else ListPools(all[1..], prefix)
  }

  /** The loop of `_pools` over the listed pools from position `i` on; the
      first row whose date cannot be formatted stops it. */
  function AddPools(p: PoolProps, pools: seq<Pool>, i: nat): (r: Step<PoolProps>)
    requires Lockstep(p.lists) && i <= |pools|
    ensures Lockstep(r.state.lists)
    ensures r.raised.Some? <==> exists k :: i <= k < |pools| && pools[k].creationIso.None?
    ensures r.raised.None? ==> r.state.lists.objs == p.lists.objs + pools[i..]
    ensures |p.lists.objs| <= |r.state.lists.objs| && r.state.lists.objs[..|p.lists.objs|] == p.lists.objs
    ensures forall k :: |p.lists.objs| <= k < |r.state.lists.objs| ==> r.state.lists.objs[k] in pools
    ensures r.state.poolSize == p.poolSize && r.state.poolName == p.poolName
    decreases |pools| - i
  {
    if i == |pools| then Step(p, None)
    else
      var s := AddPool(p, pools[i]);
      if s.raised.Some? then s
      else
        var r := AddPools(s.state, pools, i + 1);
        AddPoolsStep(p.lists.objs, s.state.lists.objs, r.state.lists.objs, pools, i);
        r
  }

  lemma AddPoolsStep(before: seq<Pool>, mid: seq<Pool>, after: seq<Pool>, pools: seq<Pool>, i: nat)
    requires i < |pools| && mid == before + [pools[i]]
    requires |mid| <= |after| && after[..|mid|] == mid
    ensures after[..|before|] == before
    ensures after == mid + pools[i + 1..] ==> after == before + pools[i..]
  {
    assert after[..|before|] == after[..|mid|][..|before|];
    assert pools[i..] == [pools[i]] + pools[i + 1..];
  }

  /** `_pools` (also reached through `_refresh`, `_run`, `_delete` and
      `_resize`): reset, list the pools whose id starts with 'lux' under
      LuxRender and 'blender' otherwise, add them all, show POOLS. `all` is
      the service's pools, or the exception `pool.list` raises; under
      `session` any exception shows ERROR. */
  function PoolsPage(p: PoolProps, all: Result<seq<Pool>>, lux: bool, page: string): (r: (Step<PoolProps>, string))
    ensures Lockstep(r.0.state.lists)
    ensures all.Raise? ==> r == (Step(p.(lists := Reset(p.lists)), Some(all.exc)), "ERROR")
    ensures r.0.raised.None? ==>
              all.Ok? && r.1 == "POOLS" && r.0.state.lists.objs == ListPools(all.value, ListPrefix(lux))
    ensures r.0.raised.Some? ==> r.1 == "ERROR"
    ensures forall k :: 0 <= k < |r.0.state.lists.objs| ==> StartsWith(r.0.state.lists.objs[k].id, ListPrefix(lux))
  {
    var cleared := p.(lists := Reset(p.lists));
    match all
    case Raise(e) => (Step(cleared, Some(e)), "ERROR")
    case Ok(pools) =>
      var s := AddPools(cleared, ListPools(pools, ListPrefix(lux)), 0);
      (s, if s.raised.Some? then "ERROR" else "POOLS")
  }

  /** Under LuxRender the list never shows the non-LuxRender pools, and
      without it never the LuxRender ones. */
  lemma PoolsPageSeparatesEngines(p: PoolProps, all: Result<seq<Pool>>, lux: bool, page: string)
    ensures var objs := PoolsPage(p, all, lux, page).0.state.lists.objs;
            forall k :: 0 <= k < |objs| ==> (lux <==> !StartsWith(objs[k].id, "blender"))
  {
    var objs := PoolsPage(p, all, lux, page).0.state.lists.objs;
    forall k | 0 <= k < |objs| ensures lux <==> !StartsWith(objs[k].id, "blender") {
      PrefixesExclusive(objs[k].id, lux);
    }
  }

  lemma PrefixesExclusive(id: string, lux: bool)
    requires StartsWith(id, ListPrefix(lux))
    ensures lux <==> !StartsWith(id, "blender")
  {
    if lux {
      assert id[..3] == "lux";
      assert id[0] == 'l';
      if |id| >= 7 {
        assert id[..7][0] == 'l';
        assert id[..7] != "blender";
      }
    }
  }

  /** `_start`. */
  function StartPage(): (page: string)
    ensures page == "CREATE"
  {
    "CREATE"
  }

  /** The id `_create` gives a new pool, from the clock reading `now`:
      the `id` keyword never reaches `_create`, so the default is always
      used. */
  function NewPoolId(lux: bool, now: string, cleanName: string -> string): (id: string)
    ensures lux ==> StartsWith(id, "luxblend_pool_")
    ensures !lux ==> StartsWith(id, "blender_pool_")
  {
    (if lux then "luxblend_pool_" else "blender_pool_") + CurrentTime(now, cleanName)
  }

  /** `_create`: configure and add a pool named `pool_name` (or its id);
      `addFails` is whether the service rejects it. */
  function Create(r: RemoteState, p: PoolProps, lux: bool, now: string, cleanName: string -> string,
                  s: PoolSettings, skus: seq<NodeAgentSku>, addFails: bool): (out: Result<RemoteState>)
    ensures out.Ok? <==> GetPoolConfig(if p.poolName != "" then p.poolName else NewPoolId(lux, now, cleanName), lux, s, skus).Ok? && !addFails
    ensures out.Ok? ==> out.value == Remote.AddPool(r, NewPoolId(lux, now, cleanName), s.poolSize)
    ensures out.Raise? ==> out.exc == StopIteration || out.exc == ServiceError("pool.add failed")
  {
    var id := NewPoolId(lux, now, cleanName);
    var name := if p.poolName != "" then p.poolName else id;
    var cfg :- GetPoolConfig(name, lux, s, skus);
    if addFails then Raise(ServiceError("pool.add failed"))
    else Ok(Remote.AddPool(r, id, cfg.targetDedicated))
  }

  /** `_run`: the create operator (whose failure `session` turns into the
      ERROR page) followed by the page operator, which shows POOLS again
      whenever the listing and its rows succeed: a failed creation leaves
      no trace on the page. */
  function Run(r: RemoteState, p: PoolProps, lux: bool, now: string, cleanName: string -> string,
               s: PoolSettings, skus: seq<NodeAgentSku>, addFails: bool,
               all: Result<seq<Pool>>): (out: (RemoteState, Step<PoolProps>, string))
    ensures out.0 == (match Create(r, p, lux, now, cleanName, s, skus, addFails)
                      case Ok(r') => r' case Raise(_) => r)
    ensures out.2 == PoolsPage(p, all, lux, "ERROR").1
  {
    var created := Create(r, p, lux, now, cleanName, s, skus, addFails);
    var r' := match created case Ok(v) => v case Raise(_) => r;
    var (step, page) := PoolsPage(p, all, lux, if created.Raise? then "ERROR" else "CREATE");
    (r', step, page)
  }

  /** `pending_delete`. */
  function PendingDelete(p: PoolProps): (r: seq<nat>)
    ensures forall k :: 0 <= k < |r| ==> r[k] < |p.lists.disp| && p.lists.disp[r[k]].deleteCheckbox
    ensures forall i :: 0 <= i < |p.lists.disp| && p.lists.disp[i].deleteCheckbox ==> i in r
    ensures forall j, k :: 0 <= j < k < |r| ==> r[j] < r[k]
  {
    Checked(p.lists.disp, (e: PoolEntry) => e.deleteCheckbox)
  }

  /** `_delete` before it re-lists: every ticked pool is deleted, except
      those whose deletion fails (`fails[i]`), which are only logged. */
  function DeletePending(r: RemoteState, p: PoolProps, fails: seq<bool>): (r': RemoteState)
    requires Lockstep(p.lists) && |fails| == |p.lists.objs|
    ensures r'.pools == r.pools - set i | 0 <= i < |p.lists.objs| && p.lists.disp[i].deleteCheckbox && !fails[i] :: p.lists.objs[i].id
    ensures r' == r.(pools := r'.pools)
  {
    DeleteFrom(r, p, fails, 0)
  }

  function DeleteFrom(r: RemoteState, p: PoolProps, fails: seq<bool>, i: nat): (r': RemoteState)
    requires Lockstep(p.lists) && |fails| == |p.lists.objs| && i <= |p.lists.objs|
    ensures r'.pools == r.pools - set k | i <= k < |p.lists.objs| && p.lists.disp[k].deleteCheckbox && !fails[k] :: p.lists.objs[k].id
    ensures r' == r.(pools := r'.pools)
    decreases |p.lists.objs| - i
  {
    if i == |p.lists.objs| then r
    else
      var r1 := if p.lists.disp[i].deleteCheckbox && !fails[i] then DeletePool(r, p.lists.objs[i].id) else r;
      DeleteFrom(r1, p, fails, i + 1)
  }

  /** `_resize` before it re-lists: the selected row (Python indexing, so
      -1 is the last row) is resized to the node count shown in it;
      `fails` is whether the service refuses, which is only logged. */
  function Resize(r: RemoteState, p: PoolProps, fails: bool): (out: Result<RemoteState>)
    requires Lockstep(p.lists)
    ensures out.Ok? <==> -|p.lists.disp| <= p.lists.index < |p.lists.disp|
    ensures out.Ok? && fails ==> out.value == r
    ensures out.Ok? && !fails ==>
              var k := if p.lists.index < 0 then |p.lists.disp| + p.lists.index else p.lists.index;
              out.value == ResizePool(r, p.lists.objs[k].id, p.lists.disp[k].nodes)
  {
    if -|p.lists.disp| <= p.lists.index < |p.lists.disp| then
      var k := if p.lists.index < 0 then |p.lists.disp| + p.lists.index else p.lists.index;
      if fails then Ok(r) else Ok(ResizePool(r, p.lists.objs[k].id, p.lists.disp[k].nodes))
    else Raise(IndexError)
  }
}

=== FILE: batched_submission.dfy ===
/** `batched_blender/submission.py`: assembling and submitting a render job —
    the pool the job runs on, the uploaded assets, one task per frame added in
    batches of one hundred, and the clean-up of a job the service did not
    fully accept. */
module BatchedSubmission {
  import opened Outcomes
  import opened PyStr
  import opened Remote
  import opened BatchedUtils
  import opened AssetProps
  import BatchedAssets
  import BatchedPools

  /** The `batch_submission` settings a submission reads and writes. */
  datatype Settings = Settings(title: string, startF: int, endF: int, videoMerge: bool,
                               poolType: set<string>, poolId: string)

  /** `PoolInformation`: an existing pool by id, or an auto-pool spec. */
  datatype PoolInfo = ById(id: string) | Auto(spec: AutoPoolSpec)

  /** What `get_pool` can see: the render engine, the clock readings of
      `get_pool` itself and of the pool-creating operator, the pool page's
      settings, whether `pool.add` fails, and whether the pool-creating
      operator declares an `id` property. Blender rejects a keyword the
      operator does not declare with TypeError before running it; the
      operator `pools.py` registers declares none (`opTakesId` false). */
  datatype PoolEnv = PoolEnv(lux: bool, refNow: string, opNow: string,
                             cleanName: string -> string, pools: BatchedPools.PoolProps,
                             cfg: PoolSettings, skus: seq<NodeAgentSku>, addFails: bool,
                             opTakesId: bool)

  /** What `get_pool` leaves behind: the pool reference or the exception,
      the settings, the service and the session page. */
  datatype PoolOutcome = PoolOutcome(info: Result<PoolInfo>, settings: Settings,
                                     remote: RemoteState, page: string)

  /** The id `get_pool` gives the job for a pool it has created. */
  function ReferencedPoolId(e: PoolEnv): (id: string)
    ensures StartsWith(id, "blender_pool_")
  {
    "blender_pool_" + CurrentTime(e.refNow, e.cleanName)
  }

  /** `get_pool` as written. The "create" branch calls the pool-creating
      operator with an `id` keyword: an operator without that property
      makes the call raise TypeError. One that had it would still run
      `_create` without the keyword (the session wrapper forwards only the
      operator and the context), so `_create` picks its own id from its own
      clock reading and swallows its failures into the ERROR page, while
      the job is pointed at the id `get_pool` made up. The "auto" branch
      names an undefined variable. */
  function GetPool(s: Settings, e: PoolEnv, r: RemoteState, page: string): (o: PoolOutcome)
    ensures o.info.Ok? <==> (s.poolType == {"reuse"} && s.poolId != "") || (s.poolType == {"create"} && e.opTakesId)
    ensures s.poolType == {"reuse"} && s.poolId != "" ==>
              o == PoolOutcome(Ok(ById(s.poolId)), s, r, page)
    ensures s.poolType == {"create"} && !e.opTakesId ==> o == PoolOutcome(Raise(TypeError), s, r, page)
    ensures s.poolType == {"create"} && e.opTakesId ==>
              o.info == Ok(ById(ReferencedPoolId(e)))
              && o.settings == s.(poolType := {"reuse"}, poolId := ReferencedPoolId(e))
              && var made := BatchedPools.Create(r, e.pools, e.lux, e.opNow, e.cleanName,
                                                 e.cfg, e.skus, e.addFails);
                 (made.Ok? ==> o.remote == made.value && o.page == page)
                 && (made.Raise? ==> o.remote == r && o.page == "ERROR")
    ensures s.poolType == {"auto"} ==> o == PoolOutcome(Raise(NameError("pool_name")), s, r, page)
    ensures o.info.Raise? && s.poolType != {"auto"} && s.poolType != {"create"} ==>
              o == PoolOutcome(Raise(ValueError("Invalid pool settings.")), s, r, page)
    ensures o.remote == r.(pools := o.remote.pools, targets := o.remote.targets) && r.pools <= o.remote.pools
  {
    if s.poolType == {"reuse"} && s.poolId != "" then
      PoolOutcome(Ok(ById(s.poolId)), s, r, page)
    else if s.poolType == {"create"} && !e.opTakesId then
      PoolOutcome(Raise(TypeError), s, r, page)
    else if s.poolType == {"create"} then
      var id := ReferencedPoolId(e);
      var made := BatchedPools.Create(r, e.pools, e.lux, e.opNow, e.cleanName, e.cfg, e.skus, e.addFails);
      var (r', page') := match made case Ok(v) => (v, page) case Raise(_) => (r, "ERROR");
      PoolOutcome(Ok(ById(id)), s.(poolType := {"reuse"}, poolId := id), r', page')
    else if s.poolType == {"auto"} then
      PoolOutcome(Raise(NameError("pool_name")), s, r, page)
    else
      PoolOutcome(Raise(ValueError("Invalid pool settings.")), s, r, page)
  }

  /** The auto-pool branch never produces a pool reference. */
  lemma AutoPoolNameError(s: Settings, e: PoolEnv, r: RemoteState, page: string)
    requires s.poolType == {"auto"}
    ensures GetPool(s, e, r, page).info == Raise(NameError("pool_name"))
  {
  }

  /** With the operator as registered, "create" never gets past the call:
      the `id` keyword raises TypeError, no pool is made, the settings keep
      pool type "create", and the session wrapper shows ERROR. */
  lemma CreateRejectsKeyword(s: Settings, e: PoolEnv, r: RemoteState, page: string)
    requires s.poolType == {"create"} && !e.opTakesId
    ensures GetPool(s, e, r, page).info == Raise(TypeError)
    ensures GetPool(s, e, r, page).remote == r && GetPool(s, e, r, page).settings == s
    ensures Session(GetPool(s, e, r, page).info, page).1 == "ERROR"
  {
  }

  /** Even when the operator accepts the keyword, the pool is not the one
      the job is given: under LuxRender the created pool always has another
      id, and when the creation fails the job is still given an id; either
      way a job pointed at a pool that did not exist before names no pool
      at all. */
  lemma CreatedPoolNotReferenced(s: Settings, e: PoolEnv, r: RemoteState, page: string)
    requires s.poolType == {"create"} && e.opTakesId
    requires e.lux || BatchedPools.Create(r, e.pools, e.lux, e.opNow, e.cleanName, e.cfg, e.skus, e.addFails).Raise?
    requires ReferencedPoolId(e) !in r.pools
    ensures GetPool(s, e, r, page).info == Ok(ById(ReferencedPoolId(e)))
    ensures ReferencedPoolId(e) !in GetPool(s, e, r, page).remote.pools
  {
    var id := ReferencedPoolId(e);
    var made := BatchedPools.Create(r, e.pools, e.lux, e.opNow, e.cleanName, e.cfg, e.skus, e.addFails);
    if made.Ok? {
      var other := BatchedPools.NewPoolId(e.lux, e.opNow, e.cleanName);
      assert id[0] == 'b' && other[0] == 'l';
      assert made.value.pools == r.pools + {other};
    }
  }

  /** `get_pool` as evidently intended: the job is given the id of the pool
      that was actually created, a failed creation stops the submission,
      and the auto branch builds its spec from the name it has just made. */
  function GetPoolIntended(s: Settings, e: PoolEnv, r: RemoteState, page: string): (o: PoolOutcome)
    ensures s.poolType == {"reuse"} && s.poolId != "" ==>
              o == PoolOutcome(Ok(ById(s.poolId)), s, r, page)
    ensures s.poolType == {"create"} ==>
              (o.info.Ok? <==> BatchedPools.Create(r, e.pools, e.lux, e.opNow, e.cleanName,
                                                   e.cfg, e.skus, e.addFails).Ok?)
    ensures s.poolType == {"create"} && o.info.Ok? ==>
              o.info.value.ById? && o.info.value.id in o.remote.pools
              && o.info.value.id == BatchedPools.NewPoolId(e.lux, e.opNow, e.cleanName)
              && o.settings == s.(poolType := {"reuse"}, poolId := o.info.value.id)
    ensures s.poolType == {"auto"} ==>
              var name := "Blender Auto Pool " + CurrentTime(e.refNow, e.cleanName);
              (o.info.Ok? <==> GetPoolConfig(name, e.lux, e.cfg, e.skus).Ok?)
              && (o.info.Ok? ==> o.info.value.Auto?
                                 && o.info.value.spec.prefix == (if e.lux then "luxblend_auto" else "blender_auto"))
              && o.remote == r
    ensures o.info.Raise? ==> o.remote == r && o.settings == s
    ensures o.info.Raise? ==> o.info.exc == StopIteration || o.info.exc == ServiceError("pool.add failed")
                              || o.info.exc == ValueError("Invalid pool settings.")
    ensures o.remote == r.(pools := o.remote.pools, targets := o.remote.targets) && r.pools <= o.remote.pools
  {
    if s.poolType == {"reuse"} && s.poolId != "" then
      PoolOutcome(Ok(ById(s.poolId)), s, r, page)
    else if s.poolType == {"create"} then
      var id := BatchedPools.NewPoolId(e.lux, e.opNow, e.cleanName);
      match BatchedPools.Create(r, e.pools, e.lux, e.opNow, e.cleanName, e.cfg, e.skus, e.addFails)
      case Ok(r') => PoolOutcome(Ok(ById(id)), s.(poolType := {"reuse"}, poolId := id), r', page)
      case Raise(x) => PoolOutcome(Raise(x), s, r, page)
    else if s.poolType == {"auto"} then
      var name := "Blender Auto Pool " + CurrentTime(e.refNow, e.cleanName);
      match GetAutoPool(name, e.lux, e.cfg, e.skus)
      case Ok(spec) => PoolOutcome(Ok(Auto(spec)), s, r, page)
      case Raise(x) => PoolOutcome(Raise(x), s, r, page)
    else
      PoolOutcome(Raise(ValueError("Invalid pool settings.")), s, r, page)
  }

  /** `ResourceFile`: where a task finds an uploaded asset; the signed URL is
      reduced to the blob it signs. */
  datatype ResourceFile = ResourceFile(filePath: string, blobName: string)

  /** `TaskAddParameter`. */
  datatype Task = Task(id: string, command: string, displayName: string,
                       resources: seq<ResourceFile>, dependsOn: seq<string>)

  /** A frame's task id: the frame number padded with zeros to the width of
      the last frame's number. */
  function FrameId(f: int, endF: int): (id: string)
    ensures |id| == if |IntToStr(f)| >= |IntToStr(endF)| then |IntToStr(f)| else |IntToStr(endF)|
    ensures forall k :: 0 <= k < |id| ==> IsDigit(id[k]) || id[k] == '-'
  {
    var s := IntToStr(f);
    assert forall k :: 0 <= k < |s| ==> IsDigit(s[k]) || s[k] == '-';
    RJust(s, |IntToStr(endF)|, '0')
  }

  /** The shell wrapper of every Linux task command. */
  const BashPrefix: string := "/bin/bash -c 'set -e; set -o pipefail; "
  const BashSuffix: string := "; wait'"

  /** `"/bin/bash -c 'set -e; set -o pipefail; {}; wait'".format(cmd)`. */
  function BashCommand(cmd: string): (c: string)
    ensures StartsWith(c, BashPrefix) && EndsWith(c, BashSuffix)
    ensures OccursAt(c, cmd, |BashPrefix|) && |c| == |BashPrefix| + |cmd| + |BashSuffix|
  {
    Pieces(BashPrefix, cmd, BashSuffix);
    BashPrefix + cmd + BashSuffix
  }

  /** The command a wrapped command line runs. */
  function BashInner(c: string): string
    requires |BashPrefix| + |BashSuffix| <= |c|
  {
    c[|BashPrefix|..|c| - |BashSuffix|]
  }

  /** The wrapped command can be read back, so distinct commands stay
      distinct once wrapped. */
  lemma BashRoundTrip(cmd: string)
    ensures BashInner(BashCommand(cmd)) == cmd
  {
  }

  /** The pieces of the Windows command line of a LuxRender frame. */
  const LuxBlenderDir: string := "\\Blender"
  const LuxExe: string := "\\blender.exe -b "
  const LuxTail: string := " -P render.py < NUL"

  /** `cmd /c` and the application package's directory variable. */
  function LuxPackage(cfg: PoolSettings): string {
    "cmd /c %AZ_BATCH_APP_PACKAGE_" + ToUpper(cfg.luxAppImage) + "%"
  }

  /** The package version, appended to the variable unless it is
      "default". */
  function LuxVersionMark(cfg: PoolSettings): string {
    if cfg.luxAppVersion != "default" then "#" + ToUpper(cfg.luxAppVersion) else ""
  }

  /** The Windows command line of a LuxRender frame: the blender executable
      of the application package, run on `jobFile`. */
  function LuxCommand(cfg: PoolSettings, jobFile: string): string {
    LuxPackage(cfg) + LuxVersionMark(cfg) + LuxBlenderDir + LuxExe + jobFile + LuxTail
  }

  /** How a string `a + m + b + x + j + t` is laid out: the shape of the
      LuxRender command line, with its version mark `m` and job file `j`. */
  lemma {:induction false} LuxPieces(a: string, m: string, b: string, x: string, j: string, t: string)
    ensures var c := a + m + b + x + j + t;
            StartsWith(c, a) && OccursAt(c, m + b, |a|) && EndsWith(c, b + x + j + t) && Contains(c, j)
  {
    var c := a + m + b + x + j + t;
    assert c == a + (m + b) + (x + j + t);
    Pieces(a, m + b, x + j + t);
    assert c == a + m + (b + x + j + t);
    Pieces(a + m, b + x + j + t, "");
    assert c == (a + m + b + x) + j + t;
    Pieces(a + m + b + x, j, t);
  }

  /** The LuxRender command line: the package's blender, its version mark
      after the closing `%`, and `jobFile` near the end. */
  lemma LuxCommandShape(cfg: PoolSettings, jobFile: string)
    ensures var c := LuxCommand(cfg, jobFile);
            StartsWith(c, LuxPackage(cfg))
            && EndsWith(c, LuxBlenderDir + LuxExe + jobFile + LuxTail)
            && (cfg.luxAppVersion == "default" ==> OccursAt(c, LuxBlenderDir, |LuxPackage(cfg)|))
            && (cfg.luxAppVersion != "default" ==>
                  OccursAt(c, "#" + ToUpper(cfg.luxAppVersion) + LuxBlenderDir, |LuxPackage(cfg)|))
            && Contains(c, jobFile)
  {
    LuxPieces(LuxPackage(cfg), LuxVersionMark(cfg), LuxBlenderDir, LuxExe, jobFile, LuxTail);
    if cfg.luxAppVersion == "default" {
      assert LuxVersionMark(cfg) + LuxBlenderDir == LuxBlenderDir;
    }
  }

  /** The Linux render command line, in the shell wrapper. */
  lemma RenderLinuxShape(jobFile: string)
    ensures Contains(BashCommand("blender -b \"" + jobFile + "\" -P \"render.py\""), jobFile)
  {
    var pre := "blender -b \"";
    var tail := "\" -P \"render.py\"";
    assert BashCommand(pre + jobFile + tail) == (BashPrefix + pre) + jobFile + (tail + BashSuffix);
    Pieces(BashPrefix + pre, jobFile, tail + BashSuffix);
  }

  /** The command line of a frame's task: under LuxRender the blender of the
      application package, whose version mark lands after the closing `%`;
      otherwise `blender -b "<jobFile>" -P "render.py"` in the shell
      wrapper. */
  function RenderCommand(lux: bool, cfg: PoolSettings, jobFile: string): (c: string)
    ensures Contains(c, jobFile)
    ensures !lux ==> c == BashCommand("blender -b \"" + jobFile + "\" -P \"render.py\"")
    ensures lux ==>
              StartsWith(c, LuxPackage(cfg))
              && EndsWith(c, LuxBlenderDir + LuxExe + jobFile + LuxTail)
              && (cfg.luxAppVersion == "default" ==> OccursAt(c, LuxBlenderDir, |LuxPackage(cfg)|))
              && (cfg.luxAppVersion != "default" ==>
                    OccursAt(c, "#" + ToUpper(cfg.luxAppVersion) + LuxBlenderDir, |LuxPackage(cfg)|))
  {
    if lux then
      LuxCommandShape(cfg, jobFile);
      LuxCommand(cfg, jobFile)
    else
      RenderLinuxShape(jobFile);
      BashCommand("blender -b \"" + jobFile + "\" -P \"render.py\"")
  }

  /** A task rendering frame `f`, shown as "Frame <f>". */
  function FrameTask(lux: bool, cfg: PoolSettings, jobFile: string, res: seq<ResourceFile>,
                     f: int, endF: int): (t: Task)
    ensures t.id == FrameId(f, endF) && t.resources == res && t.dependsOn == []
    ensures t.command == RenderCommand(lux, cfg, jobFile) && Contains(t.command, jobFile)
    ensures StartsWith(t.displayName, "Frame ") && t.displayName[6..] == IntToStr(f)
  {
    Task(FrameId(f, endF), RenderCommand(lux, cfg, jobFile), "Frame " + IntToStr(f), res, [])
  }

  /** How many frames `range(start, end + 1)` visits. */
  function FrameCount(start: int, end: int): (n: nat)
    ensures start <= end ==> n == end - start + 1
    ensures end < start ==> n == 0
  {
    if start <= end then end - start + 1 else 0
  }

  /** The sequence `[f(0), ..., f(n - 1)]`. */
  function Tabulate<U>(n: nat, f: int -> U): (r: seq<U>)
    ensures |r| == n && forall k :: 0 <= k < n ==> r[k] == f(k)
  {
    seq(n, k => f(k))
  }

  /** The tasks for frames `f` to `endF`, in frame order. */
  function FrameTasks(lux: bool, cfg: PoolSettings, jobFile: string, res: seq<ResourceFile>,
                      f: int, endF: int): (ts: seq<Task>)
    ensures |ts| == FrameCount(f, endF)
    ensures forall k :: 0 <= k < |ts| ==> ts[k] == FrameTask(lux, cfg, jobFile, res, f + k, endF)
  {
    Tabulate(FrameCount(f, endF), k => FrameTask(lux, cfg, jobFile, res, f + k, endF))
  }

  /** The ids of some tasks, in order. */
  function Ids(ts: seq<Task>): (r: seq<string>)
    ensures |r| == |ts| && forall k :: 0 <= k < |ts| ==> r[k] == ts[k].id
  {
    if |ts| == 0 then [] else [ts[0].id] + Ids(ts[1..])
  }

  /** A frame id of a frame `0 <= f` reads back as `f`. */
  lemma FrameIdValue(f: int, endF: int)
    requires 0 <= f
    ensures AllDigits(FrameId(f, endF)) && DigitsValue(FrameId(f, endF)) == f
  {
    NatToStrRoundTrip(f);
    LeadingZeros(|IntToStr(endF)| - |IntToStr(f)|, NatToStr(f));
  }

  /** Frames that are not negative have distinct ids. */
  lemma FrameIdInjective(f: int, g: int, endF: int)
    requires 0 <= f && 0 <= g && f != g
    ensures FrameId(f, endF) != FrameId(g, endF)
  {
    FrameIdValue(f, endF);
    FrameIdValue(g, endF);
  }

  /** Frame task ids are unique when frames are not negative. */
  lemma FrameIdsDistinct(lux: bool, cfg: PoolSettings, jobFile: string, res: seq<ResourceFile>,
                         startF: int, endF: int)
    requires 0 <= startF
    ensures var ts := FrameTasks(lux, cfg, jobFile, res, startF, endF);
            forall i, j :: 0 <= i < j < |ts| ==> ts[i].id != ts[j].id
  {
    var ts := FrameTasks(lux, cfg, jobFile, res, startF, endF);
    forall i, j | 0 <= i < j < |ts| ensures ts[i].id != ts[j].id {
      assert ts[i].id == FrameId(startF + i, endF);
      assert ts[j].id == FrameId(startF + j, endF);
      FrameIdInjective(startF + i, startF + j, endF);
    }
  }

  /** Frame ids all have the width of the last frame's number. */
  lemma FrameIdsSameWidth(lux: bool, cfg: PoolSettings, jobFile: string, res: seq<ResourceFile>,
                          startF: int, endF: int)
    requires 0 <= startF
    ensures var ts := FrameTasks(lux, cfg, jobFile, res, startF, endF);
            forall i :: 0 <= i < |ts| ==> |ts[i].id| == |IntToStr(endF)|
  {
    var ts := FrameTasks(lux, cfg, jobFile, res, startF, endF);
    forall i | 0 <= i < |ts| ensures |ts[i].id| == |IntToStr(endF)| {
      NatToStrLengthMonotone(startF + i, endF);
    }
  }

  /** The most tasks one `task.add_collection` call takes. */
  const BatchSize: nat := 100

  /** `tasks[i:i+100]` for `i` in `range(0, len(tasks), 100)`. */
  function Batches<T>(s: seq<T>): (r: seq<seq<T>>)
    ensures forall k :: 0 <= k < |r| ==> 1 <= |r[k]| <= BatchSize
    ensures forall k :: 0 <= k < |r| - 1 ==> |r[k]| == BatchSize
    decreases |s|
  {
    if |s| == 0 then []
    else if |s| <= BatchSize then [s]
    else [s[..BatchSize]] + Batches(s[BatchSize..])
  }

  /** The batches from the `k`-th on, put back together. */
  function ConcatFrom<T>(bs: seq<seq<T>>, k: nat): seq<T>
    decreases |bs| - k
  {
    if k >= |bs| then [] else bs[k] + ConcatFrom(bs, k + 1)
  }

  lemma {:induction false} ConcatFromShift<T>(x: seq<T>, bs: seq<seq<T>>, k: nat)
    ensures ConcatFrom([x] + bs, k + 1) == ConcatFrom(bs, k)
    decreases |bs| - k
  {
    if k < |bs| {
      ConcatFromShift(x, bs, k + 1);
      assert ([x] + bs)[k + 1] == bs[k];
    }
  }

  /** The batches hold every task, once each, in order. */
  lemma {:induction false} BatchesConcat<T>(s: seq<T>)
    ensures ConcatFrom(Batches(s), 0) == s
    decreases |s|
  {
    if |s| > BatchSize {
      BatchesConcat(s[BatchSize..]);
      ConcatFromShift(s[..BatchSize], Batches(s[BatchSize..]), 0);
      assert s == s[..BatchSize] + s[BatchSize..];
    }
  }

  /** One call per hundred tasks, rounded up. */
  lemma {:induction false} BatchesCount<T>(s: seq<T>)
    ensures |Batches(s)| == (|s| + BatchSize - 1) / BatchSize
    decreases |s|
  {
    if |s| > BatchSize {
      BatchesCount(s[BatchSize..]);
    }
  }

  /** The ids of the tasks the service accepts, in order. */
  function AcceptedIds(ts: seq<Task>, rejected: string -> bool): (r: seq<string>)
    ensures |r| <= |ts|
    ensures |r| == |ts| <==> forall i :: 0 <= i < |ts| ==> !rejected(ts[i].id)
  {
    if |ts| == 0 then []
    else if rejected(ts[0].id) then AcceptedIds(ts[1..], rejected)
    else [ts[0].id] + AcceptedIds(ts[1..], rejected)
  }

  /** When nothing is rejected, every task is accepted, in order. */
  lemma {:induction false} AcceptedAll(ts: seq<Task>, rejected: string -> bool)
    ensures (forall i :: 0 <= i < |ts| ==> !rejected(ts[i].id)) ==> AcceptedIds(ts, rejected) == Ids(ts)
  {
    if |ts| > 0 && forall i :: 0 <= i < |ts| ==> !rejected(ts[i].id) {
      AcceptedAll(ts[1..], rejected);
    }
  }

  lemma {:induction false} AcceptedAppend(a: seq<Task>, b: seq<Task>, rejected: string -> bool)
    ensures AcceptedIds(a + b, rejected) == AcceptedIds(a, rejected) + AcceptedIds(b, rejected)
  {
    if |a| > 0 {
      AcceptedAppend(a[1..], b, rejected);
      assert (a + b)[1..] == a[1..] + b;
    } else {
      assert a + b == b;
    }
  }

  /** How each service call of a submission turns out. */
  datatype Service = Service(createContainerFails: bool, addJobFails: bool, batchRaises: nat -> bool,
                             rejected: string -> bool, deleteJobFails: bool, deleteContainerFails: bool)

  /** The `add_collection` loop from the `k`-th batch on: a call that raises
      ends it; otherwise the accepted tasks join the job and the rejected
      ones are counted. Gives the outcome, and the ids that joined the job
      before the loop ended. */
  function AddBatches(bs: seq<seq<Task>>, k: nat, svc: Service): (out: (Result<nat>, seq<string>))
    requires k <= |bs|
    ensures out.0.Ok? <==> forall j :: k <= j < |bs| ==> !svc.batchRaises(j)
    ensures out.0.Raise? ==> out.0.exc.ServiceError?
    ensures out.0.Ok? ==>
              out.1 == AcceptedIds(ConcatFrom(bs, k), svc.rejected)
              && out.0.value == |ConcatFrom(bs, k)| - |out.1|
    decreases |bs| - k
  {
    if k == |bs| then (Ok(0), [])
    else if svc.batchRaises(k) then (Raise(ServiceError("add_collection failed")), [])
    else
      var acc := AcceptedIds(bs[k], svc.rejected);
      var rest := AddBatches(bs, k + 1, svc);
      AcceptedAppend(bs[k], ConcatFrom(bs, k + 1), svc.rejected);
      if rest.0.Raise? then (Raise(rest.0.exc), acc + rest.1)
      else (Ok(|bs[k]| - |acc| + rest.0.value), acc + rest.1)
  }

  /** The service takes the job and every one of its tasks. */
  predicate AllAccepted(tasks: seq<Task>, svc: Service) {
    && !svc.addJobFails
    && (forall j :: 0 <= j < |Batches(tasks)| ==> !svc.batchRaises(j))
    && (forall i :: 0 <= i < |tasks| ==> !svc.rejected(tasks[i].id))
  }

  /** The batch-sending part of the `try` block: every batch is sent, then ValueError
      is raised if any task was rejected. Gives the outcome and the ids that
      joined the job. */
  function AddAllTasks(tasks: seq<Task>, svc: Service): (out: (Result<()>, seq<string>))
    ensures out.0.Ok? <==> (forall j :: 0 <= j < |Batches(tasks)| ==> !svc.batchRaises(j))
                           && (forall i :: 0 <= i < |tasks| ==> !svc.rejected(tasks[i].id))
    ensures out.0.Ok? ==> out.1 == Ids(tasks)
    ensures out.0.Raise? ==> out.0.exc.ServiceError? || out.0.exc == ValueError("Some tasks failed to submit.")
  {
    BatchesConcat(tasks);
    AcceptedAll(tasks, svc.rejected);
    var (res, added) := AddBatches(Batches(tasks), 0, svc);
    match res
    case Raise(x) => (Raise(x), added)
    case Ok(failed) =>
      if failed > 0 then (Raise(ValueError("Some tasks failed to submit.")), added)
      else (Ok(()), added)
  }

  /** The `try` block of `submit_job`: add the job (`AddJob`), then its
      tasks (`AddTasks`). */
  function Attempt(r: RemoteState, jobId: string, tasks: seq<Task>, svc: Service)
    : (out: (Result<()>, RemoteState))
    ensures out.0.Ok? <==> AllAccepted(tasks, svc)
    ensures out.0.Ok? ==> out.1 == r.(jobs := r.jobs + {jobId}, tasks := r.tasks[jobId := Ids(tasks)])
    ensures svc.addJobFails ==> out.1 == r
    ensures !svc.addJobFails ==>
              out.1.jobs == r.jobs + {jobId} && jobId in out.1.tasks
              && out.1.tasks == r.tasks[jobId := out.1.tasks[jobId]]
              && out.1 == r.(jobs := out.1.jobs, tasks := out.1.tasks)
    ensures out.0.Raise? ==> out.0.exc.ServiceError? || out.0.exc == ValueError("Some tasks failed to submit.")
  {
    if svc.addJobFails then (Raise(ServiceError("job.add failed")), r)
    else
      var (res, added) := AddAllTasks(tasks, svc);
      (res, r.(jobs := r.jobs + {jobId}, tasks := r.tasks[jobId := added]))
  }

  /** `job.delete`: the service refuses to delete a job it does not have. */
  function DeleteJobCall(r: RemoteState, id: string, fails: bool): (out: Result<RemoteState>)
    ensures out.Ok? <==> !fails && id in r.jobs
    ensures out.Ok? ==> out.value == DeleteJob(r, id)
  {
    if fails || id !in r.jobs then Raise(ServiceError("job.delete failed")) else Ok(DeleteJob(r, id))
  }

  /** The `except` block of `submit_job` as written: delete the job, then the
      container. When either call raises, the misspelt `Exceptopn` of the
      inner handler is looked up and a NameError replaces the exception. */
  function CleanUp(r: RemoteState, jobId: string, original: Exc, svc: Service)
    : (out: (Result<()>, RemoteState))
    ensures out.0.Raise?
    ensures DeleteJobCall(r, jobId, svc.deleteJobFails).Ok? && !svc.deleteContainerFails ==>
              out == (Raise(original), DeleteContainer(DeleteJob(r, jobId), jobId))
    ensures DeleteJobCall(r, jobId, svc.deleteJobFails).Raise? || svc.deleteContainerFails ==>
              out.0 == Raise(NameError("Exceptopn")) && out.1.containers == r.containers
  {
    match DeleteJobCall(r, jobId, svc.deleteJobFails)
    case Raise(_) => (Raise(NameError("Exceptopn")), r)
    case Ok(r1) =>
      if svc.deleteContainerFails then (Raise(NameError("Exceptopn")), r1)
      else (Raise(original), DeleteContainer(r1, jobId))
  }

  /** The job's commit as written: the attempt, then the clean-up of a
      failed one. */
  function Commit(r: RemoteState, jobId: string, tasks: seq<Task>, svc: Service)
    : (out: (Result<()>, RemoteState))
    ensures out.0.Ok? <==> AllAccepted(tasks, svc)
    ensures out.0.Ok? ==> out.1 == r.(jobs := r.jobs + {jobId}, tasks := r.tasks[jobId := Ids(tasks)])
    ensures out.1.jobs <= r.jobs + {jobId} && out.1.pools == r.pools && out.1.blobs == r.blobs
  {
    var (res, r') := Attempt(r, jobId, tasks, svc);
    if res.Ok? then (res, r') else CleanUp(r', jobId, res.exc, svc)
  }

  /** A job the service took but whose tasks it did not all take is removed,
      with its container, when both clean-up calls succeed: the service is
      left as it was before the job, less the container. */
  lemma RollbackRestores(r: RemoteState, jobId: string, tasks: seq<Task>, svc: Service)
    requires jobId !in r.jobs && jobId !in r.tasks
    requires !AllAccepted(tasks, svc) && !svc.addJobFails
    requires !svc.deleteJobFails && !svc.deleteContainerFails
    ensures Commit(r, jobId, tasks, svc).1 == DeleteContainer(r, jobId)
    ensures Commit(r, jobId, tasks, svc).0 == Raise(Attempt(r, jobId, tasks, svc).0.exc)
  {
    var (res, r') := Attempt(r, jobId, tasks, svc);
    var gone := DeleteJob(r', jobId);
    assert gone.tasks == r.tasks;
  }

  /** When `job.add` itself fails, the clean-up's `job.delete` finds no job,
      so the NameError of the misspelt handler replaces the service's error
      and the job's container is left behind. */
  lemma CleanupFailureMasksError(r: RemoteState, jobId: string, tasks: seq<Task>, svc: Service)
    requires svc.addJobFails && jobId !in r.jobs
    ensures Commit(r, jobId, tasks, svc) == (Raise(NameError("Exceptopn")), r)
  {
  }

  /** The `except` block as evidently intended: a failed clean-up is logged
      and the original exception is raised again. */
  function CleanUpIntended(r: RemoteState, jobId: string, original: Exc, svc: Service)
    : (out: (Result<()>, RemoteState))
    ensures out.0 == Raise(original)
    ensures DeleteJobCall(r, jobId, svc.deleteJobFails).Raise? ==> out.1 == r
    ensures DeleteJobCall(r, jobId, svc.deleteJobFails).Ok? ==>
              out.1.jobs == r.jobs - {jobId}
              && out.1.containers == (if svc.deleteContainerFails then r.containers else r.containers - {jobId})
  {
    match DeleteJobCall(r, jobId, svc.deleteJobFails)
    case Raise(_) => (Raise(original), r)
    case Ok(r1) =>
      if svc.deleteContainerFails then (Raise(original), r1)
      else (Raise(original), DeleteContainer(r1, jobId))
  }

  function CommitIntended(r: RemoteState, jobId: string, tasks: seq<Task>, svc: Service)
    : (out: (Result<()>, RemoteState))
    ensures out.0.Ok? <==> AllAccepted(tasks, svc)
    ensures out.0.Ok? ==> out.1 == r.(jobs := r.jobs + {jobId}, tasks := r.tasks[jobId := Ids(tasks)])
    ensures out.0.Raise? ==> out.0 == Attempt(r, jobId, tasks, svc).0
    ensures out.0.Raise? ==> out.0.exc.ServiceError? || out.0.exc == ValueError("Some tasks failed to submit.")
    ensures out.1.jobs <= r.jobs + {jobId} && out.1.pools == r.pools && out.1.blobs == r.blobs
  {
    var (res, r') := Attempt(r, jobId, tasks, svc);
    if res.Ok? then (res, r') else CleanUpIntended(r', jobId, res.exc, svc)
  }

  /** With the intended clean-up the two versions agree on the service and
      on success, and differ only in which exception escapes. */
  lemma CommitVersionsAgree(r: RemoteState, jobId: string, tasks: seq<Task>, svc: Service)
    ensures Commit(r, jobId, tasks, svc).1 == CommitIntended(r, jobId, tasks, svc).1
    ensures Commit(r, jobId, tasks, svc).0.Ok? == CommitIntended(r, jobId, tasks, svc).0.Ok?
  {
  }

  /** One pass of the `upload_assets` loop: the upload, then the blob name
      made from the checksum, which raises TypeError when there is none. */
  function UploadOne(a: Asset, blobs: set<string>, fails: bool): (out: (Result<ResourceFile>, set<string>))
    ensures out.0.Ok? <==> a.checksum.Some? && Upload(a, blobs, fails).Ok?
    ensures out.0.Ok? ==> out.0.value == ResourceFile(a.name, BlobKey(a))
                          && out.1 == Upload(a, blobs, fails).value
    ensures out.0.Raise? ==> out.1 == blobs
    ensures a.checksum.Some? && !fails ==> out.0.Ok?
  {
    match Upload(a, blobs, fails)
    case Raise(x) => (Raise(x), blobs)
    case Ok(b) =>
      if a.checksum.None? then (Raise(TypeError), b)
      else (Ok(ResourceFile(a.name, BlobKey(a))), b)
  }

  /** `upload_assets`: every asset is tried; if any failed, ValueError,
      otherwise one resource file per asset, in order. */
  method UploadAssets(assets: seq<Asset>, blobs: set<string>, storeFails: Asset -> bool)
      returns (r: Result<seq<ResourceFile>>, stored: set<string>)
    ensures r.Ok? ==> |r.value| == |assets|
    ensures r.Ok? ==> forall i :: 0 <= i < |assets| ==>
              assets[i].checksum.Some? && r.value[i] == ResourceFile(assets[i].name, BlobKey(assets[i]))
    ensures r.Ok? ==> forall i :: 0 <= i < |assets| && assets[i].present ==> BlobKey(assets[i]) in stored
    ensures (forall i :: 0 <= i < |assets| ==> assets[i].checksum.Some? && !storeFails(assets[i])) ==> r.Ok?
    ensures (exists i :: 0 <= i < |assets| && assets[i].checksum.None?) ==> r.Raise?
    ensures r.Ok? ==> forall a :: a in assets ==>
              a.checksum.Some? && ResourceFile(a.name, BlobKey(a)) in r.value
    ensures r.Raise? ==> r.exc == ValueError("Some required assets failed to upload.")
    ensures blobs <= stored
    ensures forall b :: b in stored - blobs ==>
              exists i :: 0 <= i < |assets| && assets[i].checksum.Some? && b == BlobKey(assets[i])
  {
    var uploaded: seq<ResourceFile> := [];
    var failed := false;
    stored := blobs;
    var i := 0;
    while i < |assets|
      invariant 0 <= i <= |assets|
      invariant blobs <= stored
      invariant forall b :: b in stored - blobs ==>
                  exists k :: 0 <= k < i && assets[k].checksum.Some? && b == BlobKey(assets[k])
      invariant !failed ==> |uploaded| == i
      invariant !failed ==> forall k :: 0 <= k < i ==>
                  assets[k].checksum.Some? && uploaded[k] == ResourceFile(assets[k].name, BlobKey(assets[k]))
      invariant !failed ==> forall k :: 0 <= k < i && assets[k].present ==> BlobKey(assets[k]) in stored
      invariant (forall k :: 0 <= k < i ==> assets[k].checksum.Some? && !storeFails(assets[k])) ==> !failed
      invariant (exists k :: 0 <= k < i && assets[k].checksum.None?) ==> failed
    {
      var (one, after) := UploadOne(assets[i], stored, storeFails(assets[i]));
      forall b | b in after - blobs
        ensures exists k :: 0 <= k < i + 1 && assets[k].checksum.Some? && b == BlobKey(assets[k])
      {
        if b !in stored {
          assert assets[i].present && assets[i].checksum.Some? && b == BlobKey(assets[i]);
        } else {
          assert b in stored - blobs;
          var k :| 0 <= k < i && assets[k].checksum.Some? && b == BlobKey(assets[k]);
        }
      }
      if one.Ok? {
        uploaded := uploaded + [one.value];
      } else {
        failed := true;
      }
      stored := after;
      i := i + 1;
    }
    if failed {
      r := Raise(ValueError("Some required assets failed to upload."));
    } else {
      r := Ok(uploaded);
      forall a | a in assets
        ensures a.checksum.Some? && ResourceFile(a.name, BlobKey(a)) in r.value
      {
        var k :| 0 <= k < |assets| && assets[k] == a;
        assert r.value[k] == ResourceFile(a.name, BlobKey(a));
      }
    }
  }

  /** The assets of the page whose files exist (`_exists`). */
  function Existing(objs: seq<Asset>): (r: seq<Asset>)
    ensures forall a :: a in r <==> a in objs && a.present
  {
    if |objs| == 0 then []
    else if objs[0].present then [objs[0]] + Existing(objs[1..])
    else Existing(objs[1..])
  }

  /** What `configure_assets` sees besides the asset page: the scene, the
      file system, the saved copy a temporary blend file becomes, the
      render script's path, and which uploads fail. */
  datatype AssetEnv = AssetEnv(scene: BatchedAssets.BlendData, fs: FileSystem, resolve: string -> string,
                               tempDir: string, tempName: string, renderScript: string,
                               saved: FileEntry, storeFails: Asset -> bool)

  /** The blend file the tasks render, and whether it joins the upload list:
      a temporary file is saved first and always uploaded; a saved file is
      looked up in the list, and made afresh and uploaded only when absent. */
  function JobFile(q: Props, e: AssetEnv): (out: (Asset, bool))
    ensures out.1 <==> q.temp || GetJobfile(q).Raise?
    ensures q.temp ==> out.0 == MakeAsset(e.fs[e.resolve(q.path) := e.saved], e.resolve, q.path)
                       && out.0.present
    ensures !q.temp && GetJobfile(q).Ok? ==> out.0 in q.lists.objs && out.0.path == q.path
    ensures !q.temp && GetJobfile(q).Raise? ==> out.0 == MakeAsset(e.fs, e.resolve, q.path)
    ensures out.0.path == e.resolve(q.path) || (out.0 in q.lists.objs && out.0.path == q.path)
  {
    if q.temp then (MakeAsset(e.fs[e.resolve(q.path) := e.saved], e.resolve, q.path), true)
    else match GetJobfile(q)
         case Ok(a) => (a, false)
         case Raise(_) => (MakeAsset(e.fs, e.resolve, q.path), true)
  }

  /** The upload list of `configure_assets`. */
  function Uploading(q: Props, e: AssetEnv): (r: seq<Asset>)
    ensures forall a :: a in q.lists.objs && a.present ==> a in r
    ensures MakeAsset(e.fs, e.resolve, e.renderScript) in r
    ensures JobFile(q, e).1 ==> JobFile(q, e).0 in r
    ensures forall a :: a in r ==>
              ((a in q.lists.objs && a.present) || a == MakeAsset(e.fs, e.resolve, e.renderScript)
               || (JobFile(q, e).1 && a == JobFile(q, e).0))
  {
    var (job, appended) := JobFile(q, e);
    var r := Existing(q.lists.objs) + [MakeAsset(e.fs, e.resolve, e.renderScript)]
             + (if appended then [job] else []);
    assert MakeAsset(e.fs, e.resolve, e.renderScript) == r[|Existing(q.lists.objs)|];
    assert appended ==> job == r[|r| - 1];
    r
  }

  /** `configure_assets`: collect the assets if that has not happened yet,
      then upload the existing ones, the render script and the blend file
      the tasks render — a temporary one saved just now, or else the one in
      the list, or else one made from the page's path. */
  method ConfigureAssets(p: Props, page: string, e: AssetEnv, blobs: set<string>)
      returns (r: Result<seq<ResourceFile>>, jobFile: Option<Asset>, q: Props, page': string,
               stored: set<string>)
    ensures p.path != "" ==> q == p && page' == page
    ensures p.path == "" ==>
              var (step, shown) := BatchedAssets.Refresh(page, false, p, e.scene, e.fs, e.resolve, blobs,
                                                         e.tempDir, e.tempName);
              q == step.state && page' == shown
              && (shown == "ERROR" ==> r == Raise(PlainException("Failed to set up assets for job")))
    ensures r.Ok? ==> jobFile.Some? && (jobFile.value.path == e.resolve(q.path)
                      || (jobFile.value in q.lists.objs && jobFile.value.path == q.path))
    ensures r.Ok? && q.temp ==> jobFile.Some? && jobFile.value.present
    ensures r.Ok? ==> jobFile.Some? && (jobFile.value.present ==>
              jobFile.value.checksum.Some? && ResourceFile(jobFile.value.name, BlobKey(jobFile.value)) in r.value)
    ensures r.Ok? ==> forall a :: a in q.lists.objs && a.present ==>
              a.checksum.Some? && ResourceFile(a.name, BlobKey(a)) in r.value
    ensures r.Ok? ==> var script := MakeAsset(e.fs, e.resolve, e.renderScript);
                      script.checksum.Some? && ResourceFile(script.name, BlobKey(script)) in r.value
    ensures jobFile.Some? ==> jobFile.value == JobFile(q, e).0
    ensures r.Raise? && jobFile.None? ==> stored == blobs
    ensures r.Raise? ==> r.exc == PlainException("Failed to set up assets for job")
                         || r.exc == ValueError("Some required assets failed to upload.")
    ensures blobs <= stored
  {
    q, page' := p, page;
    if p.path == "" {
      var (step, shown) := BatchedAssets.Refresh(page, false, p, e.scene, e.fs, e.resolve, blobs,
                                                 e.tempDir, e.tempName);
      q, page' := step.state, shown;
      if shown == "ERROR" {
        r, jobFile, stored := Raise(PlainException("Failed to set up assets for job")), None, blobs;
        return;
      }
    }
    jobFile := Some(JobFile(q, e).0);
    r, stored := UploadAssets(Uploading(q, e), blobs, e.storeFails);
  }


  /** `merge_task` as written: it names `render_script`, a variable of
      `configure_assets`, and so raises NameError before building anything. */
  function MergeTask(ts: seq<Task>, mergeUpload: Result<seq<ResourceFile>>): (r: Result<Task>)
    ensures r == Raise(NameError("render_script"))
  {
    Raise(NameError("render_script"))
  }

  /** `merge_task` as evidently intended: the merge script it locates is the
      one uploaded, and the merge task depends on every frame task. */
  function MergeTaskIntended(ts: seq<Task>, mergeUpload: Result<seq<ResourceFile>>): (r: Result<Task>)
    ensures r.Ok? <==> mergeUpload.Ok?
    ensures r.Raise? ==> r.exc == mergeUpload.exc
    ensures r.Ok? ==> r.value.id == "merge" && r.value.resources == mergeUpload.value
                      && |r.value.dependsOn| == |ts|
                      && forall k :: 0 <= k < |ts| ==> r.value.dependsOn[k] == ts[k].id
  {
    var res :- mergeUpload;
    var cmd := BashCommand("blender -b -P \"merge.py\"");
    Ok(Task("merge", cmd, "Merge Task", res, Ids(ts)))
  }

  /** The merge task's id is not the id of any frame task. */
  lemma MergeIdFresh(lux: bool, cfg: PoolSettings, jobFile: string, res: seq<ResourceFile>,
                     startF: int, endF: int, mergeUpload: Result<seq<ResourceFile>>)
    requires mergeUpload.Ok?
    ensures var ts := FrameTasks(lux, cfg, jobFile, res, startF, endF);
            forall k :: 0 <= k < |ts| ==> ts[k].id != MergeTaskIntended(ts, mergeUpload).value.id
  {
    var ts := FrameTasks(lux, cfg, jobFile, res, startF, endF);
    forall k | 0 <= k < |ts| ensures ts[k].id != "merge" {
      var id := FrameId(startF + k, endF);
      assert ts[k].id == id;
      assert IsDigit(id[0]) || id[0] == '-';
    }
  }

  /** The ids of the frame tasks, in frame order. */
  function FrameIds(startF: int, endF: int): (r: seq<string>)
    ensures |r| == FrameCount(startF, endF)
    ensures forall k :: 0 <= k < |r| ==> r[k] == FrameId(startF + k, endF)
  {
    Tabulate(FrameCount(startF, endF), k => FrameId(startF + k, endF))
  }

  /** The job id: the engine's prefix and the time it is read. */
  function JobId(lux: bool, now: string, cleanName: string -> string): (id: string)
    ensures var pre := if lux then "luxblend-render-" else "blender-render-";
            StartsWith(id, pre) && id[|pre|..] == CurrentTime(now, cleanName)
  {
    (if lux then "luxblend-render-" else "blender-render-") + CurrentTime(now, cleanName)
  }

  /** `_start`: the page becomes PROCESSING only if the submission thread
      has not already moved it on. */
  function StartSubmission(page: string): (page': string)
    ensures page == "SUBMIT" ==> page' == "PROCESSING"
    ensures page != "SUBMIT" ==> page' == page
  {
    if page == "SUBMIT" then "PROCESSING" else page
  }

  /** The part of `submit_job` before any job exists: the pool reference,
      then the uploaded assets and the blend file the tasks render. */
  method PrepareJob(s: Settings, pe: PoolEnv, ap: Props, ae: AssetEnv, r: RemoteState, page: string)
      returns (prepared: Result<(seq<ResourceFile>, Asset)>, r': RemoteState, s': Settings,
               ap': Props, page': string)
    ensures prepared.Raise? ==> page' == "ERROR"
    ensures s.poolType == {"auto"} ==>
              prepared == Raise(NameError("pool_name")) && r' == r && s' == s && ap' == ap
    ensures r'.jobs == r.jobs && r'.tasks == r.tasks && r'.containers == r.containers
    ensures r.pools <= r'.pools && r.blobs <= r'.blobs
  {
    var po := GetPool(s, pe, r, page);
    s', r', ap', page' := po.settings, po.remote, ap, po.page;
    if po.info.Raise? {
      prepared, page' := Raise(po.info.exc), "ERROR";
      return;
    }
    var res, jobFile, q, shown, stored := ConfigureAssets(ap, page', ae, r'.blobs);
    r', ap', page' := r'.(blobs := stored), q, shown;
    if res.Raise? {
      prepared, page' := Raise(res.exc), "ERROR";
      return;
    }
    prepared := Ok((res.value, jobFile.value));
  }

  /** `submit_job` run under `session`: what a submission leaves behind. */
  method SubmitJob(s: Settings, lux: bool, now: string, pe: PoolEnv, ap: Props, ae: AssetEnv,
                   r: RemoteState, svc: Service, page: string)
      returns (outcome: Result<string>, r': RemoteState, s': Settings, ap': Props, page': string)
    ensures outcome.Ok? <==> page' == "SUBMITTED"
    ensures outcome.Raise? ==> page' == "ERROR"
    ensures outcome.Ok? ==>
              var id := JobId(lux, now, pe.cleanName);
              outcome.value == id && id in r'.jobs && id in r'.containers
              && id in r'.tasks && r'.tasks[id] == FrameIds(s.startF, s.endF)
    ensures outcome.Ok? ==> forall i :: 0 <= i < |ap'.lists.disp| ==> ap'.lists.disp[i].uploadCheck
    ensures s.poolType == {"auto"} ==>
              outcome == Raise(NameError("pool_name")) && r' == r && s' == s && ap' == ap
    ensures !lux && s.videoMerge ==> outcome.Raise? && r'.jobs == r.jobs
    ensures svc.createContainerFails ==> outcome.Raise? && r'.jobs == r.jobs && r'.containers == r.containers
    ensures r'.jobs <= r.jobs + {JobId(lux, now, pe.cleanName)}
    ensures r.pools <= r'.pools && r.blobs <= r'.blobs
  {
    var jobId := JobId(lux, now, pe.cleanName);
    var prepared;
    prepared, r', s', ap', page' := PrepareJob(s, pe, ap, ae, r, page);
    if prepared.Raise? {
      outcome := Raise(prepared.exc);
      return;
    }
    var (res, jobFile) := prepared.value;
    if svc.createContainerFails {
      outcome, page' := Raise(ServiceError("create_container failed")), "ERROR";
      return;
    }
    r' := CreateContainer(r', jobId);
    var tasks := FrameTasks(lux, pe.cfg, jobFile.name, res, s.startF, s.endF);
    if !lux && s.videoMerge {
      var merge := MergeTask(tasks, Raise(NameError("render_script")));
      outcome, page' := Raise(merge.exc), "ERROR";
      return;
    }
    var (done, after) := Commit(r', jobId, tasks, svc);
    r' := after;
    if done.Raise? {
      outcome, page' := Raise(done.exc), "ERROR";
      return;
    }
    assert Ids(tasks) == FrameIds(s.startF, s.endF);
    outcome, page', ap' := Ok(jobId), "SUBMITTED", SetUploaded(ap');
  }

  /** The part of `submit_job` before any job exists, with the corrected
      `get_pool`. */
  method PrepareJobIntended(s: Settings, pe: PoolEnv, ap: Props, ae: AssetEnv, r: RemoteState, page: string)
      returns (prepared: Result<(seq<ResourceFile>, Asset, PoolInfo)>, r': RemoteState, s': Settings,
               ap': Props, page': string)
    ensures prepared.Raise? ==> page' == "ERROR" && !prepared.exc.NameError?
    ensures prepared.Ok? ==> GetPoolIntended(s, pe, r, page).info == Ok(prepared.value.2)
    ensures prepared.Ok? && s.poolType == {"create"} ==>
              prepared.value.2.ById? && prepared.value.2.id in r'.pools
    ensures r'.jobs == r.jobs && r'.tasks == r.tasks && r'.containers == r.containers
    ensures r.pools <= r'.pools && r.blobs <= r'.blobs
  {
    var po := GetPoolIntended(s, pe, r, page);
    s', r', ap', page' := po.settings, po.remote, ap, po.page;
    if po.info.Raise? {
      prepared, page' := Raise(po.info.exc), "ERROR";
      return;
    }
    var res, jobFile, q, shown, stored := ConfigureAssets(ap, page', ae, r'.blobs);
    r', ap', page' := r'.(blobs := stored), q, shown;
    if res.Raise? {
      prepared, page' := Raise(res.exc), "ERROR";
      return;
    }
    prepared := Ok((res.value, jobFile.value, po.info.value));
  }

  /** What a submission gives back: the job's id and the pool it runs on. */
  datatype Submitted = Submitted(jobId: string, pool: PoolInfo)

  /** `submit_job` with the three corrections: the job runs on the pool
      that was created or specified, the merge task carries the uploaded
      merge script, and a failed clean-up lets the original exception
      through. No undefined name is ever looked up. */
  method SubmitJobIntended(s: Settings, lux: bool, now: string, pe: PoolEnv, ap: Props, ae: AssetEnv,
                           mergeScript: string, r: RemoteState, svc: Service, page: string)
      returns (outcome: Result<Submitted>, r': RemoteState, s': Settings, ap': Props, page': string)
    ensures outcome.Ok? <==> page' == "SUBMITTED"
    ensures outcome.Raise? ==> page' == "ERROR" && !outcome.exc.NameError?
    ensures outcome.Ok? ==>
              var id := JobId(lux, now, pe.cleanName);
              outcome.value.jobId == id && id in r'.jobs && id in r'.containers && id in r'.tasks
              && r'.tasks[id] == FrameIds(s.startF, s.endF) + (if !lux && s.videoMerge then ["merge"] else [])
    ensures outcome.Ok? ==> GetPoolIntended(s, pe, r, page).info == Ok(outcome.value.pool)
    ensures outcome.Ok? && s.poolType == {"create"} ==>
              outcome.value.pool.ById? && outcome.value.pool.id in r'.pools
    ensures outcome.Ok? ==> forall i :: 0 <= i < |ap'.lists.disp| ==> ap'.lists.disp[i].uploadCheck
    ensures svc.createContainerFails ==> outcome.Raise? && r'.jobs == r.jobs && r'.containers == r.containers
    ensures r'.jobs <= r.jobs + {JobId(lux, now, pe.cleanName)}
    ensures r.pools <= r'.pools && r.blobs <= r'.blobs
  {
    var jobId := JobId(lux, now, pe.cleanName);
    var prepared;
    prepared, r', s', ap', page' := PrepareJobIntended(s, pe, ap, ae, r, page);
    if prepared.Raise? {
      outcome := Raise(prepared.exc);
      return;
    }
    var (res, jobFile, pool) := prepared.value;
    if svc.createContainerFails {
      outcome, page' := Raise(ServiceError("create_container failed")), "ERROR";
      return;
    }
    r' := CreateContainer(r', jobId);
    var tasks := FrameTasks(lux, pe.cfg, jobFile.name, res, s.startF, s.endF);
    assert Ids(tasks) == FrameIds(s.startF, s.endF);
    var all, stored := WithMerge(tasks, !lux && s.videoMerge, ae, mergeScript, r'.blobs);
    r' := r'.(blobs := stored);
    if all.Raise? {
      outcome, page' := Raise(all.exc), "ERROR";
      return;
    }
    var (done, after) := CommitIntended(r', jobId, all.value, svc);
    r' := after;
    if done.Raise? {
      outcome, page' := Raise(done.exc), "ERROR";
      return;
    }
    outcome, page', ap' := Ok(Submitted(jobId, pool)), "SUBMITTED", SetUploaded(ap');
  }

  /** The frame tasks, followed by the corrected merge task when `merge` is
      set; the merge script is uploaded first. */
  method WithMerge(tasks: seq<Task>, merge: bool, ae: AssetEnv, mergeScript: string, blobs: set<string>)
      returns (all: Result<seq<Task>>, stored: set<string>)
    ensures all.Ok? ==> Ids(all.value) == Ids(tasks) + (if merge then ["merge"] else [])
    ensures all.Raise? ==> merge && all.exc == ValueError("Some required assets failed to upload.")
    ensures !merge ==> all == Ok(tasks) && stored == blobs
    ensures blobs <= stored
  {
    all, stored := Ok(tasks), blobs;
    if merge {
      var mergeUpload;
      mergeUpload, stored := UploadAssets([MakeAsset(ae.fs, ae.resolve, mergeScript)], blobs, ae.storeFails);
      var t := MergeTaskIntended(tasks, mergeUpload);
      if t.Raise? {
        all := Raise(t.exc);
        return;
      }
      IdsAppend(tasks, t.value);
      all := Ok(tasks + [t.value]);
    }
  }

  /** The ids of tasks with one more appended. */
  lemma IdsAppend(ts: seq<Task>, t: Task)
    ensures Ids(ts + [t]) == Ids(ts) + [t.id]
  {
  }
}

=== FILE: batched_utils.dfy ===
/** `batched_blender/utils.py`: the clock string, the auto-pool and pool
    configuration, the error-safe operator wrapper, content-addressed assets,
    and the job-watcher argument quoting. */
module BatchedUtils {
  import opened Outcomes
  import opened PyStr

  // ---------------------------------------------------------------- clock

  /** `BatchUtils.current_time`: the ISO clock reading passed through
      Blender's `clean_name` (opaque here), then with every 'T' and every '_'
      turned into '-'. */
  function CurrentTime(isoNow: string, cleanName: string -> string): (r: string)
    ensures '_' !in r && 'T' !in r
    ensures |r| == |cleanName(isoNow)|
    ensures forall i :: 0 <= i < |r| ==>
              r[i] == (if cleanName(isoNow)[i] == 'T' || cleanName(isoNow)[i] == '_' then '-'
                       else cleanName(isoNow)[i])
  {
    var once := ReplaceChar(cleanName(isoNow), 'T', '-');
    ReplaceCharRemoves(cleanName(isoNow), 'T', '-');
    ReplaceCharRemoves(once, '_', '-');
    ReplaceCharKeepsAbsent(once, '_', '-', 'T');
    ReplaceChar(once, '_', '-')
  }

  // ------------------------------------------------------ pool configuration

  datatype ImageRef = ImageRef(offer: string, sku: string)
  datatype NodeAgentSku = NodeAgentSku(id: string, images: seq<ImageRef>)

  datatype PoolConfig =
    | CloudServiceConfig(displayName: string, vmSize: string, osFamily: string,
                         targetDedicated: int, appId: string, appVersion: Option<string>)
    | VirtualMachineConfig(displayName: string, vmSize: string, image: ImageRef,
                           nodeAgentSkuId: string, targetDedicated: int)

  datatype PoolLifetime = JobLifetime
  datatype AutoPoolSpec = AutoPoolSpec(prefix: string, lifetime: PoolLifetime,
                                       keepAlive: bool, pool: PoolConfig)

  /** The pool settings of the scene (`batch_pools`) and the add-on
      preferences that `get_pool_config` reads. */
  datatype PoolSettings = PoolSettings(luxAppImage: string, luxAppVersion: string,
                                       poolSize: int, vmDistro: string,
                                       vmVersion: string, vmType: string)

  /** Case-insensitive substring match of the distro in the offer and of the
      version in the sku. */
  predicate ImageMatches(img: ImageRef, distro: string, version: string) {
    Contains(ToLower(img.offer), ToLower(distro)) && Contains(ToLower(img.sku), ToLower(version))
  }

  predicate HasMatchingImage(agent: NodeAgentSku, distro: string, version: string) {
    exists k :: 0 <= k < |agent.images| && ImageMatches(agent.images[k], distro, version)
  }

  /** The first index from `start` on whose element satisfies `p`. */
  function FirstWhere<T>(s: seq<T>, p: T -> bool, start: nat): (r: Option<nat>)
    requires start <= |s|
    ensures r.Some? <==> exists i :: start <= i < |s| && p(s[i])
    ensures r.Some? ==> start <= r.value < |s| && p(s[r.value])
                        && forall i :: start <= i < r.value ==> !p(s[i])
    decreases |s| - start
  {
    if start == |s| then None
    else if p(s[start]) then Some(start)
    else FirstWhere(s, p, start + 1)
  }

  /** The last index below `n` whose element satisfies `p`. */
  function LastWhere<T>(s: seq<T>, p: T -> bool, n: nat): (r: Option<nat>)
    requires n <= |s|
    ensures r.Some? <==> exists k :: 0 <= k < n && p(s[k])
    ensures r.Some? ==> r.value < n && p(s[r.value])
                        && forall j :: r.value < j < n ==> !p(s[j])
  {
    if n == 0 then None
    else if p(s[n - 1]) then Some(n - 1)
    else LastWhere(s, p, n - 1)
  }

  /** The generator expression handed to `next`: the first agent that has a
      matching image; `next` raises StopIteration when there is none. */
  function FirstMatchingAgent(skus: seq<NodeAgentSku>, distro: string, version: string): (r: Result<nat>)
    ensures r.Ok? <==> exists i :: 0 <= i < |skus| && HasMatchingImage(skus[i], distro, version)
    ensures r.Raise? ==> r.exc == StopIteration
    ensures r.Ok? ==> r.value < |skus| && HasMatchingImage(skus[r.value], distro, version)
    ensures r.Ok? ==> forall i :: 0 <= i < r.value ==> !HasMatchingImage(skus[i], distro, version)
  {
    var p := (a: NodeAgentSku) => HasMatchingImage(a, distro, version);
    match FirstWhere(skus, p, 0)
    case None => Raise(StopIteration)
    case Some(i) => Ok(i)
  }

  /** `[img for img in agent.images if matches][-1]`: the last matching image,
      or IndexError when the list is empty. */
  function LastMatchingImage(images: seq<ImageRef>, distro: string, version: string): (r: Result<ImageRef>)
    ensures r.Ok? <==> exists k :: 0 <= k < |images| && ImageMatches(images[k], distro, version)
    ensures r.Raise? ==> r.exc == IndexError
    ensures r.Ok? ==> exists k :: 0 <= k < |images| && images[k] == r.value
                        && ImageMatches(images[k], distro, version)
                        && forall j :: k < j < |images| ==> !ImageMatches(images[j], distro, version)
  {
    var p := (img: ImageRef) => ImageMatches(img, distro, version);
    match LastWhere(images, p, |images|)
    case None => Raise(IndexError)
    case Some(k) => Ok(images[k])
  }

  /** `BatchUtils.get_pool_config`. Under LuxRender a cloud-service pool of
      "medium" machines on OS family 4 with the LuxRender application
      package; otherwise a virtual-machine pool of the configured size on
      the first node agent that has a matching image, using that agent's
      last matching image. */
  function GetPoolConfig(name: string, lux: bool, s: PoolSettings, skus: seq<NodeAgentSku>): (r: Result<PoolConfig>)
    ensures lux ==> r.Ok? && r.value.CloudServiceConfig?
                    && r.value.vmSize == "medium" && r.value.osFamily == "4"
                    && r.value.appId == s.luxAppImage
                    && r.value.appVersion == (if s.luxAppVersion == "default" then None else Some(s.luxAppVersion))
    ensures !lux ==> (r.Ok? <==> exists i :: 0 <= i < |skus| && HasMatchingImage(skus[i], s.vmDistro, s.vmVersion))
    ensures !lux && r.Ok? ==>
              r.value.VirtualMachineConfig?
              && ImageMatches(r.value.image, s.vmDistro, s.vmVersion)
              && (exists i :: 0 <= i < |skus| && skus[i].id == r.value.nodeAgentSkuId
                              && HasMatchingImage(skus[i], s.vmDistro, s.vmVersion)
                              && forall j :: 0 <= j < i ==> !HasMatchingImage(skus[j], s.vmDistro, s.vmVersion))
    ensures !lux && r.Ok? ==>
              r.value.VirtualMachineConfig? && r.value.vmSize == s.vmType
              && exists i :: 0 <= i < |skus| && FirstMatchingAgent(skus, s.vmDistro, s.vmVersion) == Ok(i)
                             && skus[i].id == r.value.nodeAgentSkuId
                             && LastMatchingImage(skus[i].images, s.vmDistro, s.vmVersion) == Ok(r.value.image)
    ensures r.Ok? ==> r.value.displayName == name && r.value.targetDedicated == s.poolSize
    ensures r.Raise? ==> r.exc == StopIteration
  {
    if lux then
      Ok(CloudServiceConfig(name, "medium", "4", s.poolSize, s.luxAppImage,
                            if s.luxAppVersion == "default" then None else Some(s.luxAppVersion)))
    else
      var i :- FirstMatchingAgent(skus, s.vmDistro, s.vmVersion);
      var img := LastMatchingImage(skus[i].images, s.vmDistro, s.vmVersion);
      assert img.Ok?;
      Ok(VirtualMachineConfig(name, s.vmType, img.value, skus[i].id, s.poolSize))
  }

  /** `BatchUtils.get_auto_pool`. */
  function GetAutoPool(name: string, lux: bool, s: PoolSettings, skus: seq<NodeAgentSku>): (r: Result<AutoPoolSpec>)
    ensures r.Ok? <==> GetPoolConfig(name, lux, s, skus).Ok?
    ensures r.Ok? ==> r.value.prefix == (if lux then "luxblend_auto" else "blender_auto")
                      && r.value.lifetime == JobLifetime && !r.value.keepAlive
                      && r.value.pool == GetPoolConfig(name, lux, s, skus).value
    ensures r.Raise? ==> r.exc == StopIteration
  {
    var cfg :- GetPoolConfig(name, lux, s, skus);
    Ok(AutoPoolSpec(if lux then "luxblend_auto" else "blender_auto", JobLifetime, false, cfg))
  }

  // ------------------------------------------------------------ operators

  /** `BatchOps.session`: run the function; any exception is swallowed, the
      page becomes ERROR and `{'CANCELLED'}` is returned. */
  function Session<T>(outcome: Result<T>, page: string): (r: (Returned<T>, string))
    ensures outcome.Ok? ==> r == (Returned(outcome.value), page)
    ensures outcome.Raise? ==> r == (Cancelled, "ERROR")
  {
    match outcome
    case Ok(v) => (Returned(v), page)
    case Raise(_) => (Cancelled, "ERROR")
  }

  /** `BatchOps.register` returns the operator's id name. */
  function Register(name: string): (r: string)
    ensures StartsWith(r, "batch_") && r[|"batch_"|..] == name
  {
    Prefixed("batch_", name)
  }

  // ---------------------------------------------------------------- assets

  /** What the file system shows at one normalised real path. `digest` is the
      MD5 hex digest of the file's bytes (RFC 1321), computed outside the
      model, or None when reading the file fails. */
  datatype FileEntry = FileEntry(isDir: bool, mtime: string, digest: Option<string>)
  type FileSystem = map<string, FileEntry>

  /** A `BatchAsset`. */
  datatype Asset = Asset(path: string, name: string, present: bool,
                         lastModified: Option<string>, checksum: Option<string>)

  /** `get_checksum`: opening a directory or failing to read gives None. */
  function Checksum(fs: FileSystem, path: string): (r: Option<string>)
    ensures r.Some? ==> path in fs && !fs[path].isDir
  {
    if path in fs && !fs[path].isDir then fs[path].digest else None
  }

  /** `BatchAsset(file_path, client)`. `resolve` stands for
      `normpath(realpath(abspath(...)))`. */
  function MakeAsset(fs: FileSystem, resolve: string -> string, filePath: string): (a: Asset)
    ensures a.path == resolve(filePath) && a.name == Basename(resolve(filePath))
    ensures a.present == (resolve(filePath) in fs)
    ensures a.lastModified.None? == (resolve(filePath) !in fs)
    ensures resolve(filePath) !in fs ==> a.checksum.None?
    ensures resolve(filePath) in fs && !fs[resolve(filePath)].isDir ==> a.checksum == fs[resolve(filePath)].digest
  {
    var p := resolve(filePath);
    var ex := p in fs;
    Asset(p, Basename(p), ex, if ex then Some(fs[p].mtime) else None,
          if ex then Checksum(fs, p) else None)
  }

  /** The content-addressed blob name `name + '_' + checksum`. */
  function BlobKey(a: Asset): (k: string)
    requires a.checksum.Some?
    ensures |k| == |a.name| + 1 + |a.checksum.value|
    ensures StartsWith(k, a.name) && k[|a.name|] == '_' && k[|a.name| + 1..] == a.checksum.value
  {
    a.name + "_" + a.checksum.value
  }

  /** `list_blobs(container, prefix=name)`. */
  function ListBlobs(blobs: set<string>, prefix: string): (r: set<string>)
    ensures r <= blobs
    ensures forall b :: b in blobs ==> (b in r <==> StartsWith(b, prefix))
  {
    set b | b in blobs && StartsWith(b, prefix)
  }

  /** `BatchAsset.is_uploaded`: concatenating a missing checksum raises
      TypeError. */
  function IsUploaded(a: Asset, blobs: set<string>): Result<bool>
  {
    if a.checksum.None? then Raise(TypeError)
    else Ok(BlobKey(a) in ListBlobs(blobs, a.name))
  }

  /** The prefix listing never hides the key: `is_uploaded` holds exactly
      when the key is among all blob names. */
  lemma IsUploadedIffKeyStored(a: Asset, blobs: set<string>)
    ensures IsUploaded(a, blobs).Ok? <==> a.checksum.Some?
    ensures a.checksum.Some? ==> IsUploaded(a, blobs) == Ok(BlobKey(a) in blobs)
  {
  }

  /** `BatchAsset.upload`: a no-op for a missing file or a key already
      listed; otherwise `create_blob_from_path`, whose failure is
      `storeFails`. */
  function Upload(a: Asset, blobs: set<string>, storeFails: bool): (r: Result<set<string>>)
    ensures r.Ok? ==> blobs <= r.value
    ensures r.Ok? && a.present ==> a.checksum.Some? && r.value == blobs + {BlobKey(a)}
    ensures !a.present ==> r == Ok(blobs)
    ensures a.present && a.checksum.None? ==> r == Raise(TypeError)
  {
    if !a.present then Ok(blobs)
    else
      var up :- IsUploaded(a, blobs);
      if up then Ok(blobs)
      else if storeFails then Raise(ServiceError("create_blob_from_path failed"))
      else Ok(blobs + {BlobKey(a)})
  }

  /** After a successful upload of an existing file `is_uploaded` holds, and
      uploading again changes nothing, whatever the store would do. */
  lemma UploadThenUploaded(a: Asset, blobs: set<string>, storeFails: bool, again: bool)
    requires a.present
    requires Upload(a, blobs, storeFails).Ok?
    ensures IsUploaded(a, Upload(a, blobs, storeFails).value) == Ok(true)
    ensures Upload(a, Upload(a, blobs, storeFails).value, again) == Upload(a, blobs, storeFails)
  {
    IsUploadedIffKeyStored(a, Upload(a, blobs, storeFails).value);
  }

  /** An already stored key is never re-sent: the upload skips it even when
      the store would fail. */
  lemma UploadSkipsStoredKey(a: Asset, blobs: set<string>, storeFails: bool)
    requires a.checksum.Some? && BlobKey(a) in blobs
    ensures Upload(a, blobs, storeFails) == Ok(blobs)
  {
    IsUploadedIffKeyStored(a, blobs);
  }

  // ----------------------------------------------------------- job watcher

  /** `JobWatcher.cleanup_args`: each argument wrapped in the platform's
      quote string, in order. Its only caller, `prepare_args`,
      passes exactly three arguments (the watcher script, the job id and
      the download directory), the number its debug message's format
      string expects; the model maps any number. */
  function CleanupArgs(quotes: string, args: seq<string>): (r: seq<string>)
    ensures |r| == |args|
    ensures forall i :: 0 <= i < |args| ==> r[i] == quotes + args[i] + quotes
  {
    if |args| == 0 then [] else [quotes + args[0] + quotes] + CleanupArgs(quotes, args[1..])
  }

  /** Stripping the quotes from both ends of every prepared argument gives
      the arguments back. */
  lemma CleanupArgsInverse(quotes: string, args: seq<string>)
    ensures forall i :: 0 <= i < |args| ==>
              var c := CleanupArgs(quotes, args)[i];
              |c| >= 2 * |quotes| && c[|quotes|..|c| - |quotes|] == args[i]
  {
    var r := CleanupArgs(quotes, args);
    forall i | 0 <= i < |args|
      ensures |r[i]| >= 2 * |quotes| && r[i][|quotes|..|r[i]| - |quotes|] == args[i]
    {
      assert r[i] == quotes + args[i] + quotes;
    }
  }
}

=== FILE: blender_props.dfy ===
/** The Blender property semantics the add-on's property groups rely on. */
module BlenderProps {

  /** Assigning to an `IntProperty` with a hard `min` and `max` stores the
      value clamped into that range. */
  function Clamp(v: int, lo: int, hi: int): (r: int)
    requires lo <= hi
    ensures lo <= r <= hi
    ensures lo <= v <= hi ==> r == v
    ensures v < lo ==> r == lo
    ensures v > hi ==> r == hi
  {
    if v < lo then lo else if v > hi then hi else v
  }

  /** Assigning to an `IntProperty` with only a hard `min`. */
  function ClampMin(v: int, lo: int): (r: int)
    ensures r >= lo
    ensures v >= lo ==> r == v
    ensures v < lo ==> r == lo
  {
    if v < lo then lo else v
  }
}

=== FILE: dates.dfy ===
/** The `format_date` helpers of the property modules: an ISO 8601 stamp
    `YYYY-MM-DDThh:mm:ss[.ffffff][+hh:mm]` shown as `YYYY-MM-DD hh:mm:ss`.
    The stamp is what `isoformat()` returns, or None when the datetime
    attribute itself is None (so `isoformat` raises AttributeError). */
module Dates {
  import opened Outcomes
  import opened PyStr

  /** The body of the `try`: split at 'T', cut the second piece at '.', join
      the pieces with a space. A stamp without 'T' raises IndexError. */
  function FormatIso(iso: Option<string>): (r: Result<string>)
    ensures iso.None? ==> r == Raise(AttributeError("isoformat"))
    ensures iso.Some? ==> (r.Ok? <==> 'T' in iso.value)
    ensures r.Raise? && iso.Some? ==> r.exc == IndexError
  {
    match iso
    case None => Raise(AttributeError("isoformat"))
    case Some(s) =>
      var parts := Split(s, 'T');
      if |parts| < 2 then Raise(IndexError)
      else Ok(Join(parts[1 := Split(parts[1], '.')[0]], " "))
  }

  /** `format_date`: the formatted stamp, or "" when the `try` fails; the
      `except` clause itself may raise (`handlerExc`), and then that
      exception escapes instead. */
  function FormatDate(iso: Option<string>, handlerExc: Option<Exc>): (r: Result<string>)
    ensures FormatIso(iso).Ok? ==> r == FormatIso(iso)
    ensures FormatIso(iso).Raise? && handlerExc.None? ==> r == Ok("")
    ensures FormatIso(iso).Raise? && handlerExc.Some? ==> r == Raise(handlerExc.value)
  {
    match FormatIso(iso)
    case Ok(s) => Ok(s)
    case Raise(_) => if handlerExc.Some? then Raise(handlerExc.value) else Ok("")
  }

  /** The except clause of the asset helpers re-reads the modification time
      and only logs it: it never raises. */
  function AssetHandler(iso: Option<string>): (h: Option<Exc>)
    ensures h.None?
  {
    None
  }

  /** The except clause of the pool helpers calls `creation_time.isoformat()`
      again, which raises AttributeError when the creation time is None. */
  function PoolHandler(iso: Option<string>): (h: Option<Exc>)
    ensures h.Some? <==> iso.None?
  {
    if iso.None? then Some(AttributeError("isoformat")) else None
  }

  /** The except clause of the job helpers reads `job.time_submitted`; a
      job object without that attribute raises AttributeError. */
  function JobHandler(hasTimeSubmitted: bool): (h: Option<Exc>)
    ensures h.Some? <==> !hasTimeSubmitted
  {
    if hasTimeSubmitted then None else Some(AttributeError("time_submitted"))
  }

  /** The stamp of a datetime with a fractional part loses the fraction and
      the 'T'. */
  lemma FormatIsoFraction(d: string, t: string, f: string)
    requires 'T' !in d && 'T' !in t && '.' !in t && 'T' !in f
    ensures FormatIso(Some(d + "T" + t + "." + f)) == Ok(d + " " + t)
  {
    var rest := t + "." + f;
    assert 'T' !in rest;
    assert d + "T" + t + "." + f == d + ['T'] + rest;
    SplitAt(d, 'T', rest);
    SplitFree(rest, 'T');
    var parts := Split(d + ['T'] + rest, 'T');
    assert parts == [d, rest];
    assert rest == t + ['.'] + f;
    SplitAt(t, '.', f);
    assert Split(rest, '.')[0] == t;
    assert parts[1 := Split(parts[1], '.')[0]] == [d, t];
    JoinPair(d, t);
    assert d + "T" + t + "." + f == d + ['T'] + rest;
  }

  /** A stamp without a fractional part only loses the 'T'. */
  lemma FormatIsoWhole(d: string, t: string)
    requires 'T' !in d && 'T' !in t && '.' !in t
    ensures FormatIso(Some(d + "T" + t)) == Ok(d + " " + t)
  {
    assert d + "T" + t == d + ['T'] + t;
    SplitAt(d, 'T', t);
    SplitFree(t, 'T');
    var parts := Split(d + ['T'] + t, 'T');
    assert parts == [d, t];
    SplitFree(t, '.');
    assert parts[1 := Split(parts[1], '.')[0]] == [d, t];
    JoinPair(d, t);
    assert d + "T" + t == d + ['T'] + t;
  }

  lemma JoinPair(a: string, b: string)
    ensures Join([a, b], " ") == a + " " + b
  {
    assert [a, b][1..] == [b];
  }

  /** A formatted stamp of a well-formed datetime never contains 'T'. */
  lemma FormattedHasNoT(d: string, t: string, f: string)
    requires 'T' !in d && 'T' !in t && '.' !in t && 'T' !in f
    ensures 'T' !in FormatDate(Some(d + "T" + t + "." + f), None).value
  {
    FormatIsoFraction(d, t, f);
  }
}

=== FILE: display_list.dfy ===
/** The add-on keeps every listing twice: a Python list of the service or
    file objects (`collection`) and a Blender collection of display entries
    (`assets`, `jobs`, `pools`), with a selected row `index`. The two lists
    are changed together by add, remove-selected and reset. */
module DisplayList {
  import opened Outcomes

  datatype Lists<O, D> = Lists(objs: seq<O>, disp: seq<D>, index: int)

  /** The two lists have the same length. */
  predicate Lockstep<O, D>(l: Lists<O, D>) {
    |l.objs| == |l.disp|
  }

  function Empty<O, D>(): (l: Lists<O, D>)
    ensures Lockstep(l) && l.index == 0
  {
    Lists([], [], 0)
  }

  /** `add_*`: append the object and its display entry. */
  function Add<O, D>(l: Lists<O, D>, o: O, d: D): (r: Lists<O, D>)
    ensures |r.objs| == |l.objs| + 1 && |r.disp| == |l.disp| + 1
    ensures r.objs[..|l.objs|] == l.objs && r.disp[..|l.disp|] == l.disp
    ensures r.objs[|l.objs|] == o && r.disp[|l.disp|] == d
    ensures r.index == l.index
  {
    Lists(l.objs + [o], l.disp + [d], l.index)
  }

  /** `remove_selected`: `collection.pop(index)`, `display.remove(index)`,
      then `index = max(index - 1, 0)`. An index outside the lists raises
      IndexError before anything changes. */
  function RemoveSelected<O, D>(l: Lists<O, D>): (r: Result<Lists<O, D>>)
    requires Lockstep(l)
    ensures r.Ok? <==> 0 <= l.index < |l.objs|
    ensures r.Raise? ==> r.exc == IndexError
    ensures r.Ok? ==>
              var i := l.index;
              |r.value.objs| == |l.objs| - 1 && |r.value.disp| == |l.disp| - 1
              && (forall k :: 0 <= k < i ==> r.value.objs[k] == l.objs[k] && r.value.disp[k] == l.disp[k])
              && (forall k :: i <= k < |r.value.objs| ==> r.value.objs[k] == l.objs[k + 1] && r.value.disp[k] == l.disp[k + 1])
              && r.value.index == (if i - 1 > 0 then i - 1 else 0)
  {
    if 0 <= l.index < |l.objs| then
      var i := l.index;
      Ok(Lists(l.objs[..i] + l.objs[i + 1..], l.disp[..i] + l.disp[i + 1..], if i - 1 > 0 then i - 1 else 0))
    else Raise(IndexError)
  }

  /** `reset`: clear both lists and select row 0. */
  function Reset<O, D>(l: Lists<O, D>): (r: Lists<O, D>)
    ensures r.objs == [] && r.disp == [] && r.index == 0
  {
    Lists([], [], 0)
  }

  /** Add, remove-selected and reset keep the lists in lockstep, and the
      selected row stays a row (or 0) after a removal. */
  lemma LockstepPreserved<O, D>(l: Lists<O, D>, o: O, d: D)
    requires Lockstep(l)
    ensures Lockstep(Add(l, o, d))
    ensures RemoveSelected(l).Ok? ==> Lockstep(RemoveSelected(l).value)
    ensures RemoveSelected(l).Ok? && |RemoveSelected(l).value.objs| > 0 ==>
              0 <= RemoveSelected(l).value.index < |RemoveSelected(l).value.objs|
    ensures Lockstep(Reset(l))
  {
  }

  /** Removing the row just added gives the lists back, apart from the
      selected row. */
  lemma RemoveUndoesAdd<O, D>(l: Lists<O, D>, o: O, d: D)
    requires Lockstep(l)
    ensures var a := Add(l, o, d).(index := |l.objs|);
            RemoveSelected(a).Ok? && RemoveSelected(a).value.objs == l.objs
            && RemoveSelected(a).value.disp == l.disp
  {
    var a := Add(l, o, d).(index := |l.objs|);
    assert a.objs[..|l.objs|] == l.objs;
    assert a.disp[..|l.disp|] == l.disp;
  }

  /** The positions whose checkbox is set, in increasing order: the
      `pending_upload` / `pending_delete` comprehension
      `[i for i, a in enumerate(display) if checked(a)]`. */
  function Checked<D>(disp: seq<D>, checked: D -> bool): (r: seq<nat>)
    ensures forall k :: 0 <= k < |r| ==> r[k] < |disp| && checked(disp[r[k]])
    ensures forall i :: 0 <= i < |disp| && checked(disp[i]) ==> i in r
    ensures forall j, k :: 0 <= j < k < |r| ==> r[j] < r[k]
  {
    CheckedFrom(disp, checked, 0)
  }

  function CheckedFrom<D>(disp: seq<D>, checked: D -> bool, start: nat): (r: seq<nat>)
    ensures forall k :: 0 <= k < |r| ==> start <= r[k] < |disp| && checked(disp[r[k]])
    ensures forall i :: start <= i < |disp| && checked(disp[i]) ==> i in r
    ensures forall j, k :: 0 <= j < k < |r| ==> r[j] < r[k]
    decreases |disp| - start
  {
    if start >= |disp| then []
    else
      var rest := CheckedFrom(disp, checked, start + 1);
      if checked(disp[start]) then [start] + rest else rest
  }

  /** The listing loop `for o in objs: add_*(o)`: every object is appended
      with its row; the first whose row raises (`fails`) is still appended,
      and its exception ends the loop. */
  function AddAll<O, D>(l: Lists<O, D>, xs: seq<O>, row: O -> D, fails: O -> Option<Exc>)
    : (r: Step<Lists<O, D>>)
    requires Lockstep(l)
    ensures Lockstep(r.state) && r.state.index == l.index
    ensures |l.objs| <= |r.state.objs| <= |l.objs| + |xs|
    ensures r.raised.None? ==> |r.state.objs| == |l.objs| + |xs|
    decreases |xs|
  {
    if |xs| == 0 then Step(l, None)
    else
      var a := Add(l, xs[0], row(xs[0]));
      if fails(xs[0]).Some? then Step(a, fails(xs[0]))
      else AddAll(a, xs[1..], row, fails)
  }

  /** The rows of a run of objects. */
  function Rows<O, D>(xs: seq<O>, row: O -> D): (r: seq<D>)
    ensures |r| == |xs|
    ensures forall k :: 0 <= k < |xs| ==> r[k] == row(xs[k])
  {
    if |xs| == 0 then [] else [row(xs[0])] + Rows(xs[1..], row)
  }

  /** What the loop leaves behind: the old objects followed by a prefix of
      the new ones (all of them when nothing raised), and an exception only
      from the last object appended. */
  lemma {:induction false} AddAllAppends<O, D>(l: Lists<O, D>, xs: seq<O>, row: O -> D, fails: O -> Option<Exc>)
    requires Lockstep(l)
    ensures var r := AddAll(l, xs, row, fails);
            var n := |r.state.objs| - |l.objs|;
            0 <= n <= |xs|
            && r.state.objs == l.objs + xs[..n]
            && (r.raised.Some? ==> n > 0 && r.raised == fails(xs[n - 1]))
    decreases |xs|
  {
    if |xs| > 0 {
      var a := Add(l, xs[0], row(xs[0]));
      if fails(xs[0]).None? {
        AddAllAppends(a, xs[1..], row, fails);
        var r := AddAll(a, xs[1..], row, fails);
        PrefixStep(l.objs, xs, |r.state.objs| - |a.objs|, r.state.objs);
      } else {
        PrefixStep(l.objs, xs, 0, l.objs + [xs[0]]);
      }
    }
  }

  /** The rows appended are those of the objects appended, in order. */
  lemma {:induction false} AddAllRows<O, D>(l: Lists<O, D>, xs: seq<O>, row: O -> D, fails: O -> Option<Exc>)
    requires Lockstep(l)
    ensures var r := AddAll(l, xs, row, fails);
            var n := |r.state.objs| - |l.objs|;
            0 <= n <= |xs| && r.state.disp == l.disp + Rows(xs[..n], row)
    decreases |xs|
  {
    if |xs| > 0 {
      var a := Add(l, xs[0], row(xs[0]));
      if fails(xs[0]).None? {
        AddAllRows(a, xs[1..], row, fails);
        var r := AddAll(a, xs[1..], row, fails);
        RowsStep(l.disp, xs, |r.state.objs| - |a.objs|, row, r.state.disp);
      } else {
        RowsStep(l.disp, xs, 0, row, l.disp + [row(xs[0])]);
      }
    }
  }

  lemma PrefixStep<T>(before: seq<T>, xs: seq<T>, m: nat, after: seq<T>)
    requires 0 < |xs| && m < |xs|
    requires after == before + [xs[0]] + xs[1..][..m]
    ensures after == before + xs[..m + 1]
  {
    assert xs[..m + 1] == [xs[0]] + xs[1..][..m];
  }

  lemma RowsStep<O, D>(before: seq<D>, xs: seq<O>, m: nat, row: O -> D, after: seq<D>)
    requires 0 < |xs| && m < |xs|
    requires after == before + [row(xs[0])] + Rows(xs[1..][..m], row)
    ensures after == before + Rows(xs[..m + 1], row)
  {
    var ys := xs[..m + 1];
    var tail := Rows(xs[1..][..m], row);
    assert ys[1..] == xs[1..][..m];
    assert Rows(ys, row) == [row(xs[0])] + tail;
    assert before + [row(xs[0])] + tail == before + ([row(xs[0])] + tail);
  }

  /** A run that raised nothing added every object and every row. */
  lemma AddAllWhole<O, D>(l: Lists<O, D>, xs: seq<O>, row: O -> D, fails: O -> Option<Exc>)
    requires Lockstep(l)
    ensures var r := AddAll(l, xs, row, fails);
            r.raised.None? ==> r.state.objs == l.objs + xs && r.state.disp == l.disp + Rows(xs, row)
  {
    AddAllAppends(l, xs, row, fails);
    AddAllRows(l, xs, row, fails);
    assert xs[..|xs|] == xs;
  }

  /** The loop runs to the end exactly when no row raises. */
  lemma {:induction false} AddAllCompletes<O, D>(l: Lists<O, D>, xs: seq<O>, row: O -> D, fails: O -> Option<Exc>)
    requires Lockstep(l)
    ensures AddAll(l, xs, row, fails).raised.None? <==> forall k :: 0 <= k < |xs| ==> fails(xs[k]).None?
    decreases |xs|
  {
    if |xs| > 0 && fails(xs[0]).None? {
      var a := Add(l, xs[0], row(xs[0]));
      AddAllCompletes(a, xs[1..], row, fails);
      assert forall k :: 0 <= k < |xs| - 1 ==> xs[1..][k] == xs[k + 1];
    }
  }
}

=== FILE: draw.dfy ===
/** `batched_blender/draw.py`: the add-on's one panel. It shows itself only
    for some render engines, and on every redraw hands the layout to the
    part of the add-on that owns the session's current page. */
module Draw {
  import opened Outcomes
  import opened PyStr
  import BatchedUtils

  /** `Interface.poll`: the panel is shown only under Blender Internal and
      Cycles. */
  predicate Poll(engine: string) {
    engine == "BLENDER_RENDER" || engine == "CYCLES"
  }

  /** The panel is hidden under LuxRender, although submission and pools
      have LuxRender branches of their own. */
  lemma PollHidesLuxRender()
    ensures !Poll("LUXRENDER_RENDER")
  {
    assert "LUXRENDER_RENDER"[0] != "BLENDER_RENDER"[0];
    assert "LUXRENDER_RENDER"[0] != "CYCLES"[0];
  }

  /** The parts of the add-on that own pages, in the order `draw` asks
      them. */
  datatype Part = Shared | Submission | Assets | Pools | Jobs | BFiles

  const Order: seq<Part> := [Shared, Submission, Assets, Pools, Jobs, BFiles]

  /** The `pages` list of each part. */
  predicate Owns(part: Part, page: string) {
    match part
    case Shared => page == "HOME" || page == "ERROR"
    case Submission => page == "SUBMIT" || page == "PROCESSING" || page == "SUBMITTED"
    case Assets => page == "ASSETS"
    case Pools => page == "POOLS" || page == "CREATE"
    case Jobs => page == "JOBS" || page == "LOADING"
    case BFiles => page == "BFILES"
  }

  /** What one redraw shows. */
  datatype View = LoadFailed | Shows(part: Part, page: string)

  /** The first part in `parts` that owns the page. */
  function FirstOwner(parts: seq<Part>, page: string): (r: Option<Part>)
    ensures r.Some? ==> r.value in parts && Owns(r.value, page)
    ensures r.None? <==> forall k :: 0 <= k < |parts| ==> !Owns(parts[k], page)
  {
    if |parts| == 0 then None
    else if Owns(parts[0], page) then Some(parts[0])
    else FirstOwner(parts[1..], page)
  }

  /** `Interface.draw`: with `batch_error` set only the load-failure view is
      drawn; otherwise the page's owner draws it, and an unknown page is
      rewritten to ERROR and drawn by the shared part. */
  function DrawPanel(batchError: bool, page: string): (v: View)
    ensures batchError <==> v.LoadFailed?
    ensures v.Shows? ==> Owns(v.part, v.page)
    ensures v.Shows? && (exists p :: Owns(p, page)) ==> v.page == page
    ensures v.Shows? && (forall p :: !Owns(p, page)) ==> v == Shows(Shared, "ERROR")
  {
    if batchError then LoadFailed
    else
      match FirstOwner(Order, page)
      case Some(part) => Shows(part, page)
      case None =>
        assert forall p :: !Owns(p, page) by {
          forall p ensures !Owns(p, page) {
            assert p == Order[OrderIndex(p)];
          }
        }
        Shows(Shared, "ERROR")
  }

  /** Where each part sits in `Order`. */
  function OrderIndex(p: Part): (k: nat)
    ensures k < |Order| && Order[k] == p
  {
    match p
    case Shared => 0
    case Submission => 1
    case Assets => 2
    case Pools => 3
    case Jobs => 4
    case BFiles => 5
  }

  /** No page belongs to two parts, so the order of the tests never decides
      which part draws a page. */
  lemma PagesDisjoint(p: Part, q: Part, page: string)
    requires Owns(p, page) && Owns(q, page)
    ensures p == q
  {
    var c := page[0];
    match p
    case Shared =>
      assert c == 'H' || c == 'E';
    case Submission =>
      assert c == 'S' || (c == 'P' && page[1] == 'R');
    case Assets =>
      assert c == 'A';
    case Pools =>
      assert (c == 'P' && page[1] == 'O') || c == 'C';
    case Jobs =>
      assert c == 'J' || c == 'L';
    case BFiles =>
      assert c == 'B';
  }

  /** The part drawing a known page is its one owner. */
  lemma DrawPicksTheOwner(page: string, p: Part)
    requires Owns(p, page)
    ensures DrawPanel(false, page) == Shows(p, page)
  {
    var v := DrawPanel(false, page);
    PagesDisjoint(v.part, p, page);
  }

  /** `Interface.operator` draws a button for "batch_" + op, the id
      `BatchOps.register` gives the operator. */
  function OperatorId(op: string): (id: string)
    ensures id == BatchedUtils.Register(op)
  {
    "batch_" + op
  }
}

=== FILE: job_watcher.dfy ===
/** `batched_blender/scripts/job_watcher.py`, the console script that
    follows a submitted job: the banner lines it prints, how it reads the
    job's state, which outputs it downloads, and the progress it reports. */
module Watcher {
  import opened Outcomes
  import opened PyStr

  // ---------------------------------------------------------------- header

  /** The width the banner pads to. */
  const TotalLen: int := 50

  /** Python's `int(a / 2)`: true division, then truncation toward zero. */
  function TruncHalf(a: int): (q: int)
    ensures a >= 0 ==> q == a / 2
    ensures a < 0 ==> q == -((-a) / 2)
    ensures q * 2 == a || q * 2 == a - 1 || q * 2 == a + 1
  {
    if a >= 0 then a / 2 else -((-a) / 2)
  }

  /** `header`: two newlines, then the text centred between runs of
      `int(dashes/2)` dashes, with one more dash at the end when the
      remaining width is odd. Python's `%` with a positive divisor agrees
      with Dafny's, and a negative count repeats a string zero times. */
  function Header(text: string): (r: string)
  {
    var dashes := TotalLen - |text|;
    var mult := TruncHalf(dashes);
    var padded := "\n\n" + Repeat('-', mult) + text + Repeat('-', mult);
    if dashes % 2 > 0 then padded + "-" else padded
  }

  /** A text of at most 50 characters is centred in exactly 50 columns,
      with k = (50 - n) div 2 dashes before it and the rest after it. */
  lemma HeaderCentres(text: string)
    requires |text| <= TotalLen
    ensures var k := (TotalLen - |text|) / 2;
            |Header(text)| == 2 + TotalLen
            && Header(text)[..2] == "\n\n"
            && Header(text)[2..2 + k] == Repeat('-', k)
            && Header(text)[2 + k..2 + k + |text|] == text
            && forall i :: 2 + k + |text| <= i < |Header(text)| ==> Header(text)[i] == '-'
  {
    var k := (TotalLen - |text|) / 2;
    var tail := if (TotalLen - |text|) % 2 > 0 then Repeat('-', k) + "-" else Repeat('-', k);
    assert Header(text) == "\n\n" + Repeat('-', k) + text + tail;
    Padded(Repeat('-', k), text, tail);
  }

  /** The pieces of a banner can be read back at their offsets. */
  lemma Padded(lead: string, text: string, tail: string)
    ensures var r := "\n\n" + lead + text + tail;
            r[..2] == "\n\n" && r[2..2 + |lead|] == lead
            && r[2 + |lead|..2 + |lead| + |text|] == text
            && r[2 + |lead| + |text|..] == tail
  {
  }

  /** A text longer than 50 characters gets no leading dashes and one
      trailing dash exactly when its excess over 50 is odd. */
  lemma HeaderOverflows(text: string)
    requires |text| > TotalLen
    ensures Header(text) == "\n\n" + text + (if (|text| - TotalLen) % 2 == 1 then "-" else "")
  {
    var dashes := TotalLen - |text|;
    assert Repeat('-', TruncHalf(dashes)) == [];
    assert dashes % 2 == 1 <==> (|text| - TotalLen) % 2 == 1;
  }

  // ------------------------------------------------------------ job state

  /** What `_check_job_stopped` reports: a stopped job raises, a completed
      one gives True, a running one False, and any other state falls off
      the end of the function and gives None. */
  datatype Verdict = Completed | StillRunning | Unrecognised

  function CheckJobStopped(state: string): (r: Result<Verdict>)
    ensures r.Raise? <==> state in {"disabling", "disabled", "terminating", "deleting"}
    ensures r.Raise? ==> r.exc.RuntimeError?
    ensures r == Ok(Completed) <==> state == "completed"
    ensures r == Ok(StillRunning) <==> state in {"active", "enabling"}
  {
    if state in {"disabling", "disabled", "terminating", "deleting"} then
      Raise(RuntimeError("Job is no longer running. Status: " + state))
    else if state == "completed" then Ok(Completed)
    else if state in {"active", "enabling"} then Ok(StillRunning)
    else Ok(Unrecognised)
  }

  /** The tracking loop stops only on a completed job; on a running job and
      on an unrecognised state alike it sleeps and polls again. */
  predicate LoopReturns(v: Result<Verdict>) {
    v == Ok(Completed)
  }

  lemma UnrecognisedKeepsPolling(state: string)
    requires state !in {"disabling", "disabled", "terminating", "deleting", "completed", "active", "enabling"}
    ensures CheckJobStopped(state) == Ok(Unrecognised) && !LoopReturns(CheckJobStopped(state))
  {
  }

  // ------------------------------------------------------------- downloads

  /** `_track_completed_tasks`: every listed output without a local file is
      downloaded, in listing order; `local` is the set of files already in
      the download directory. */
  function Track(outputs: seq<string>, local: set<string>): (r: (seq<string>, set<string>))
    ensures r.1 == local + set o | o in outputs
    ensures forall k :: 0 <= k < |r.0| ==> r.0[k] in outputs && r.0[k] !in local
    ensures forall o :: o in outputs && o !in local ==> o in r.0
  {
    if |outputs| == 0 then ([], local)
    else if outputs[0] in local then Track(outputs[1..], local)
    else
      var rest := Track(outputs[1..], local + {outputs[0]});
      ([outputs[0]] + rest.0, rest.1)
  }

  /** Polling again downloads nothing that the previous poll fetched: after
      one pass every listed output has a local file. */
  lemma TrackAgainDownloadsNothing(outputs: seq<string>, local: set<string>)
    ensures Track(outputs, Track(outputs, local).1).0 == []
  {
  }

  /** No element occurs twice. */
  predicate Distinct(s: seq<string>) {
    forall i, j :: 0 <= i < j < |s| ==> s[i] != s[j]
  }

  /** A pass downloads each output at most once, even when the listing
      repeats a name. */
  lemma {:induction false} TrackDownloadsOnce(outputs: seq<string>, local: set<string>)
    ensures Distinct(Track(outputs, local).0)
    decreases |outputs|
  {
    if |outputs| > 0 {
      if outputs[0] in local {
        TrackDownloadsOnce(outputs[1..], local);
      } else {
        var rest := Track(outputs[1..], local + {outputs[0]}).0;
        TrackDownloadsOnce(outputs[1..], local + {outputs[0]});
        var got := Track(outputs, local).0;
        assert got == [outputs[0]] + rest;
        forall i, j | 0 <= i < j < |got| ensures got[i] != got[j] {
          assert got[j] == rest[j - 1] && rest[j - 1] !in local + {outputs[0]};
          if i > 0 {
            assert got[i] == rest[i - 1];
          }
        }
      }
    }
  }

  // -------------------------------------------------------------- progress

  /** A task as the watcher reads it. */
  datatype Task = Task(id: string, completed: bool, exitCode: int)

  /** The first listing leaves out the "manager" task. */
  function InitialTasks(listed: seq<Task>): (r: seq<Task>)
    ensures forall k :: 0 <= k < |r| ==> r[k].id != "manager" && r[k] in listed
    ensures forall t :: t in listed && t.id != "manager" ==> t in r
    ensures |r| <= |listed|
  {
    if |listed| == 0 then []
    else if listed[0].id == "manager" then InitialTasks(listed[1..])
    else [listed[0]] + InitialTasks(listed[1..])
  }

  /** The completed tasks, in order. */
  function CompletedTasks(tasks: seq<Task>): (r: seq<Task>)
    ensures forall k :: 0 <= k < |r| ==> r[k].completed && r[k] in tasks
    ensures forall t :: t in tasks && t.completed ==> t in r
    ensures |r| <= |tasks|
  {
    if |tasks| == 0 then []
    else if tasks[0].completed then [tasks[0]] + CompletedTasks(tasks[1..])
    else CompletedTasks(tasks[1..])
  }

  /** The completed tasks with a non-zero exit code, in order. */
  function ErroredTasks(completed: seq<Task>): (r: seq<Task>)
    ensures forall k :: 0 <= k < |r| ==> r[k].exitCode != 0 && r[k] in completed
    ensures forall t :: t in completed && t.exitCode != 0 ==> t in r
  {
    if |completed| == 0 then []
    else if completed[0].exitCode != 0 then [completed[0]] + ErroredTasks(completed[1..])
    else ErroredTasks(completed[1..])
  }

  /** An errored task is exactly a listed task that completed with a
      non-zero exit code. */
  lemma ErroredExactly(tasks: seq<Task>, t: Task)
    ensures t in ErroredTasks(CompletedTasks(tasks)) <==> t in tasks && t.completed && t.exitCode != 0
  {
  }

  /** An exact share `num / den`. */
  datatype Fraction = Fraction(num: int, den: int)

  /** The reported percentage: 0 with no tasks, else 100 times the number
      of completed tasks over the number of tasks. Python 3 divides in
      floating point; the model keeps the exact quotient. */
  function Percentage(tasks: seq<Task>): (p: Fraction)
    ensures p.den > 0
    ensures |tasks| == 0 ==> p.num == 0
    ensures |tasks| > 0 ==> p.den == |tasks| && p.num == 100 * |CompletedTasks(tasks)|
  {
    if |tasks| == 0 then Fraction(0, 1)
    else Fraction(100 * |CompletedTasks(tasks)|, |tasks|)
  }

  /** The percentage lies between 0 and 100, and is 100 exactly when there
      are tasks and every one has completed. */
  lemma PercentageBounds(tasks: seq<Task>)
    ensures var p := Percentage(tasks);
            0 <= p.num <= 100 * p.den
            && (p.num == 100 * p.den <==> |tasks| > 0 && forall k :: 0 <= k < |tasks| ==> tasks[k].completed)
  {
    CompletedCount(tasks);
  }

  /** The completed tasks are as many as the tasks exactly when all have
      completed. */
  lemma {:induction false} CompletedCount(tasks: seq<Task>)
    ensures |CompletedTasks(tasks)| == |tasks| <==> forall k :: 0 <= k < |tasks| ==> tasks[k].completed
    decreases |tasks|
  {
    if |tasks| > 0 {
      CompletedCount(tasks[1..]);
      assert forall k :: 1 <= k < |tasks| ==> tasks[k] == tasks[1..][k - 1];
    }
  }

  /** Once the loop refetches (its later listings keep every task, the
      manager included), a listed manager task counts towards the
      percentage: a manager still running holds it below 100 although
      every frame task has completed. */
  lemma ManagerCountsAfterRefetch(frames: seq<Task>, manager: Task)
    requires forall k :: 0 <= k < |frames| ==> frames[k].completed && frames[k].id != "manager"
    requires manager.id == "manager" && !manager.completed
    ensures InitialTasks(frames + [manager]) == frames
    ensures var p := Percentage(frames + [manager]); p.num < 100 * p.den
  {
    var tasks := frames + [manager];
    InitialOfFrames(frames, manager);
    PercentageBounds(tasks);
    assert !tasks[|frames|].completed;
  }

  lemma {:induction false} InitialOfFrames(frames: seq<Task>, manager: Task)
    requires forall k :: 0 <= k < |frames| ==> frames[k].id != "manager"
    requires manager.id == "manager"
    ensures InitialTasks(frames + [manager]) == frames
    decreases |frames|
  {
    if |frames| == 0 {
      assert [manager][1..] == [];
    } else {
      assert (frames + [manager])[1..] == frames[1..] + [manager];
      InitialOfFrames(frames[1..], manager);
    }
  }
}

=== FILE: outcomes.dfy ===
/** Python-style outcomes: an optional value, and a value-or-exception result.
    Every operation of the add-on that can raise is modelled as returning a
    `Result`, whose failure case names the Python exception class. */
module Outcomes {

  datatype Option<+T> = None | Some(value: T) {
    predicate IsFailure() { None? }

    function PropagateFailure<U>(): Option<U>
      requires None?
    {
      None
    }

    function Extract(): T
      requires Some?
    {
      value
    }
  }

  /** The Python exception classes the add-on raises or lets escape;
      `PlainException` is a bare `Exception(...)`. */
  datatype Exc =
    | PlainException(msg: string)
    | ValueError(msg: string)
    | NameError(name: string)
    | TypeError
    | AttributeError(attr: string)
    | IndexError
    | KeyError
    | StopIteration
    | RuntimeError(msg: string)
    | SessionExpired
    | AuthError
    | ServiceError(msg: string)

  datatype Result<+T> = Ok(value: T) | Raise(exc: Exc) {
    predicate IsFailure() { Raise? }

    function PropagateFailure<U>(): Result<U>
      requires Raise?
    {
      Raise(exc)
    }

    function Extract(): T
      requires Ok?
    {
      value
    }
  }

  /** The exception an outcome carries, if any. */
  function Raised<T>(r: Result<T>): (e: Option<Exc>)
    ensures e.Some? <==> r.Raise?
    ensures e.Some? ==> e.value == r.exc
  {
    if r.Raise? then Some(r.exc) else None
  }

  /** The exception each input's outcome carries: the failure test of a
      loop that stops at the first input whose step raises. */
  function Failures<T(!new), U>(f: T -> Result<U>): (fails: T -> Option<Exc>)
    ensures forall x :: fails(x) == Raised(f(x))
  {
    x => Raised(f(x))
  }

  /** A Python method that mutates its object and may then raise: the state
      it leaves behind, and the exception it lets escape, if any. */
  datatype Step<+S> = Step(state: S, raised: Option<Exc>)

  /** What an operator wrapped by `session` hands back to Blender: the
      wrapped function's own value, or `{'CANCELLED'}`. */
  datatype Returned<T> = Returned(value: T) | Cancelled

  /** Python's `dict.get` on a dictionary literal written as a table of
      pairs: the value of the first pair with the key. */
  function Lookup<K(==), V>(table: seq<(K, V)>, key: K): (r: Option<V>)
    ensures r.None? <==> forall i :: 0 <= i < |table| ==> table[i].0 != key
    ensures r.Some? ==> (key, r.value) in table
  {
    if |table| == 0 then None
    else if table[0].0 == key then Some(table[0].1)
    else Lookup(table[1..], key)
  }

  /** Python's `lst[k]`: negative indices count from the end, anything out of
      range raises IndexError. */
  function PyIndex<T>(s: seq<T>, k: int): (r: Result<T>)
    ensures r.Ok? <==> -|s| <= k < |s|
    ensures 0 <= k < |s| ==> r == Ok(s[k])
    ensures -|s| <= k < 0 ==> r == Ok(s[|s| + k])
  {
    if 0 <= k < |s| then Ok(s[k])
    else if -|s| <= k < 0 then Ok(s[|s| + k])
    else Raise(IndexError)
  }
}

=== FILE: pystr.dfy ===
/** The small part of Python's `str` behaviour the add-on relies on:
    `startswith`, `in`, `find`, `replace` of one character, `split` and `join`
    on one character, `lower` (ASCII letters only), `str(int)`, `rjust`,
    `int(...)` of a decimal numeral, and `n * "-"`. */
module PyStr {
  import opened Outcomes

  predicate StartsWith(s: string, p: string) {
    |p| <= |s| && s[..|p|] == p
  }

  /** `prefix` followed by `name`; the name can be read back after it. */
  function Prefixed(prefix: string, name: string): (r: string)
    ensures StartsWith(r, prefix) && r[|prefix|..] == name
  {
    prefix + name
  }

  predicate EndsWith(s: string, p: string) {
    |p| <= |s| && s[|s| - |p|..] == p
  }

  /** `sub` occurs in `s` at position `i`. */
  predicate OccursAt(s: string, sub: string, i: int) {
    0 <= i && i + |sub| <= |s| && s[i..i + |sub|] == sub
  }

  /** Python's `sub in s`. */
  predicate Contains(s: string, sub: string) {
    exists i :: 0 <= i <= |s| && OccursAt(s, sub, i)
  }

  /** A string built as `a + b + c` starts with `a`, holds `b` right after
      it and ends with `c`. */
  lemma Pieces(a: string, b: string, c: string)
    ensures StartsWith(a + b + c, a) && OccursAt(a + b + c, b, |a|) && EndsWith(a + b + c, c)
    ensures Contains(a + b + c, b)
  {
    var s := a + b + c;
    assert s[..|a|] == a;
    assert s[|a|..|a| + |b|] == b;
    assert s[|s| - |c|..] == c;
    assert OccursAt(s, b, |a|);
  }

  /** Python's `s.find(sub, start)`: the first occurrence at or after `start`,
      or -1. */
  function FindFrom(s: string, sub: string, start: nat): (r: int)
    ensures r == -1 || (start <= r && OccursAt(s, sub, r))
    ensures r == -1 <==> forall j :: start <= j ==> !OccursAt(s, sub, j)
    ensures r != -1 ==> forall j :: start <= j < r ==> !OccursAt(s, sub, j)
    decreases |s| - start
  {
    if start + |sub| > |s| then -1
    else if s[start..start + |sub|] == sub then start
    else FindFrom(s, sub, start + 1)
  }

  function Find(s: string, sub: string): (r: int)
    ensures r == -1 <==> !Contains(s, sub)
    ensures r != -1 ==> OccursAt(s, sub, r) && forall j :: 0 <= j < r ==> !OccursAt(s, sub, j)
  {
    FindFrom(s, sub, 0)
  }

  /** Python's `s.replace(a, b)` for single characters. */
  function ReplaceChar(s: string, a: char, b: char): (r: string)
    ensures |r| == |s|
    ensures forall i :: 0 <= i < |s| ==> r[i] == (if s[i] == a then b else s[i])
  {
    if |s| == 0 then [] else [if s[0] == a then b else s[0]] + ReplaceChar(s[1..], a, b)
  }

  lemma ReplaceCharRemoves(s: string, a: char, b: char)
    requires a != b
    ensures a !in ReplaceChar(s, a, b)
  {
    var r := ReplaceChar(s, a, b);
    forall i | 0 <= i < |r| ensures r[i] != a { }
  }

  lemma ReplaceCharKeepsAbsent(s: string, a: char, b: char, c: char)
    requires c !in s && c != b
    ensures c !in ReplaceChar(s, a, b)
  {
    var r := ReplaceChar(s, a, b);
    forall i | 0 <= i < |r| ensures r[i] != c { }
  }

  /** Python's `n * c` for a one-character string: empty when `n <= 0`. */
  function Repeat(c: char, n: int): (r: string)
    ensures |r| == if n <= 0 then 0 else n
    ensures forall i :: 0 <= i < |r| ==> r[i] == c
    decreases if n <= 0 then 0 else n
  {
    if n <= 0 then [] else [c] + Repeat(c, n - 1)
  }

  /** Python's `s.split(c)`: the pieces between occurrences of `c`. */
  function Split(s: string, c: char): (r: seq<string>)
    ensures |r| >= 1
    ensures forall k :: 0 <= k < |r| ==> c !in r[k]
    ensures |r| == 1 <==> c !in s
  {
    if |s| == 0 then [""]
    else if s[0] == c then [""] + Split(s[1..], c)
    else
      var rest := Split(s[1..], c);
      [[s[0]] + rest[0]] + rest[1..]
  }

  /** Python's `sep.join(parts)`. */
  function Join(parts: seq<string>, sep: string): string
  {
    if |parts| == 0 then ""
    else if |parts| == 1 then parts[0]
    else parts[0] + sep + Join(parts[1..], sep)
  }

  /** `split` and `join` on the same character are inverse. */
  lemma {:induction false} SplitJoin(s: string, c: char)
    ensures Join(Split(s, c), [c]) == s
  {
    if |s| == 0 {
    } else if s[0] == c {
      SplitJoin(s[1..], c);
      assert s == [c] + s[1..];
    } else {
      SplitJoin(s[1..], c);
      var rest := Split(s[1..], c);
      if |rest| == 1 {
        assert s == [s[0]] + s[1..];
      } else {
        assert Join(rest, [c]) == rest[0] + [c] + Join(rest[1..], [c]);
        assert s == [s[0]] + s[1..];
      }
    }
  }

  /** A string free of `c` splits into itself alone. */
  lemma SplitFree(s: string, c: char)
    requires c !in s
    ensures Split(s, c) == [s]
  {
    var r := Split(s, c);
    SplitJoin(s, c);
  }

  /** Splitting `a + [c] + b` where `a` has no `c` yields `a` first. */
  lemma {:induction false} SplitAt(a: string, c: char, b: string)
    requires c !in a
    ensures Split(a + [c] + b, c) == [a] + Split(b, c)
  {
    if |a| == 0 {
      assert a + [c] + b == [c] + b;
    } else {
      SplitAt(a[1..], c, b);
      assert (a + [c] + b)[1..] == a[1..] + [c] + b;
      assert [a[0]] + a[1..] == a;
    }
  }

  function LowerChar(ch: char): char {
    if 'A' <= ch <= 'Z' then (ch as int - 'A' as int + 'a' as int) as char else ch
  }

  /** Python's `s.lower()` restricted to ASCII letters. */
  function ToLower(s: string): (r: string)
    ensures |r| == |s|
    ensures forall i :: 0 <= i < |s| ==> r[i] == LowerChar(s[i])
  {
    if |s| == 0 then [] else [LowerChar(s[0])] + ToLower(s[1..])
  }

  /** A string without upper-case ASCII letters is its own lower case. */
  lemma LowerUnchanged(s: string)
    requires forall i :: 0 <= i < |s| ==> !('A' <= s[i] <= 'Z')
    ensures ToLower(s) == s
  {
  }

  function UpperChar(ch: char): char {
    if 'a' <= ch <= 'z' then (ch as int - 'a' as int + 'A' as int) as char else ch
  }

  /** Python's `s.upper()` restricted to ASCII letters. */
  function ToUpper(s: string): (r: string)
    ensures |r| == |s|
    ensures forall i :: 0 <= i < |s| ==> r[i] == UpperChar(s[i])
  {
    if |s| == 0 then [] else [UpperChar(s[0])] + ToUpper(s[1..])
  }

  predicate IsDigit(ch: char) { '0' <= ch <= '9' }

  function DigitChar(d: nat): char
    requires d < 10
  {
    ('0' as int + d) as char
  }

  function DigitValue(ch: char): nat
    requires IsDigit(ch)
  {
    ch as int - '0' as int
  }

  /** Python's `str(n)` for `n >= 0`. */
  function NatToStr(n: nat): (r: string)
    ensures |r| >= 1
    ensures forall i :: 0 <= i < |r| ==> IsDigit(r[i])
  {
    if n < 10 then [DigitChar(n)] else NatToStr(n / 10) + [DigitChar(n % 10)]
  }

  /** Python's `str(n)`. */
  function IntToStr(n: int): (r: string)
    ensures |r| >= 1
  {
    if n >= 0 then NatToStr(n) else "-" + NatToStr(-n)
  }

  predicate AllDigits(s: string) {
    forall i :: 0 <= i < |s| ==> IsDigit(s[i])
  }

  /** The value of a string of decimal digits (empty reads as 0). */
  function DigitsValue(s: string): nat
    requires AllDigits(s)
  {
    if |s| == 0 then 0 else DigitsValue(s[..|s| - 1]) * 10 + DigitValue(s[|s| - 1])
  }

  /** Reading back the digits `str` writes gives the number again. */
  lemma {:induction false} NatToStrRoundTrip(n: nat)
    ensures DigitsValue(NatToStr(n)) == n
  {
    var r := NatToStr(n);
    if n < 10 {
    } else {
      NatToStrRoundTrip(n / 10);
      assert r[..|r| - 1] == NatToStr(n / 10);
    }
  }

  lemma NatToStrInjective(a: nat, b: nat)
    requires NatToStr(a) == NatToStr(b)
    ensures a == b
  {
    NatToStrRoundTrip(a);
    NatToStrRoundTrip(b);
  }

  /** Leading zeros do not change the value of a numeral. */
  lemma {:induction false} LeadingZeros(k: int, s: string)
    requires AllDigits(s)
    ensures AllDigits(Repeat('0', k) + s)
    ensures DigitsValue(Repeat('0', k) + s) == DigitsValue(s)
    decreases |s|
  {
    var z := Repeat('0', k);
    if |s| == 0 {
      assert z + s == z;
      ZerosValue(k);
    } else {
      var t := z + s;
      assert t[..|t| - 1] == z + s[..|s| - 1];
      LeadingZeros(k, s[..|s| - 1]);
    }
  }

  lemma ZerosValue(k: int)
    ensures AllDigits(Repeat('0', k))
    ensures DigitsValue(Repeat('0', k)) == 0
  {
    ZerosString(Repeat('0', k));
  }

  lemma {:induction false} ZerosString(z: string)
    requires forall i :: 0 <= i < |z| ==> z[i] == '0'
    ensures AllDigits(z) && DigitsValue(z) == 0
  {
    if |z| > 0 {
      ZerosString(z[..|z| - 1]);
    }
  }

  /** `str` never gets shorter as the number grows. */
  lemma {:induction false} NatToStrLengthMonotone(a: nat, b: nat)
    requires a <= b
    ensures |NatToStr(a)| <= |NatToStr(b)|
  {
    if b >= 10 && a >= 10 {
      NatToStrLengthMonotone(a / 10, b / 10);
    }
  }

  /** Python's `s.rjust(width, fill)`. */
  function RJust(s: string, width: int, fill: char): (r: string)
    ensures |r| == if |s| >= width then |s| else width
    ensures StartsWith(r, Repeat(fill, width - |s|))
  {
    Repeat(fill, width - |s|) + s
  }

  /** Python's `int(s)` for an optionally signed decimal numeral; anything
      else raises ValueError. */
  function ParseInt(s: string): (r: Result<int>)
    ensures r.Ok? ==> |s| >= 1
  {
    if |s| >= 1 && AllDigits(s) then Ok(DigitsValue(s))
    else if |s| >= 2 && s[0] == '-' && AllDigits(s[1..]) then Ok(-(DigitsValue(s[1..]) as int))
    else if |s| >= 2 && s[0] == '+' && AllDigits(s[1..]) then Ok(DigitsValue(s[1..]))
    else Raise(ValueError("invalid literal for int()"))
  }

  lemma ParseIntOfStr(n: nat)
    ensures ParseInt(NatToStr(n)) == Ok(n)
  {
    NatToStrRoundTrip(n);
  }

  /** Python's `s[a:b]` for `a >= 0`: a negative `b` counts from the end,
      both ends are clamped, and crossed ends give the empty string. */
  function PySlice(s: string, a: nat, b: int): (r: string)
    ensures var e := if b < 0 then (if |s| + b < 0 then 0 else |s| + b) else (if b > |s| then |s| else b);
            r == if a < e then s[a..e] else ""
  {
    var e := if b < 0 then (if |s| + b < 0 then 0 else |s| + b) else (if b > |s| then |s| else b);
    if a < e then s[a..e] else ""
  }

  /** POSIX `os.path.basename`: the part after the last '/'. */
  function Basename(p: string): (r: string)
    ensures '/' !in r
  {
    if |p| == 0 then ""
    else if p[|p| - 1] == '/' then ""
    else Basename(p[..|p| - 1]) + [p[|p| - 1]]
  }

  /** The base name is the whole path or the part after its last '/'. */
  lemma {:induction false} BasenameSuffix(p: string)
    ensures var r := Basename(p);
            |r| <= |p| && r == p[|p| - |r|..]
            && (|r| < |p| ==> p[|p| - |r| - 1] == '/')
  {
    if |p| > 0 && p[|p| - 1] != '/' {
      var q := p[..|p| - 1];
      BasenameSuffix(q);
      var r := Basename(p);
      assert r == Basename(q) + [p[|p| - 1]];
      assert q[|q| - |Basename(q)|..] + [p[|p| - 1]] == p[|p| - |r|..];
    }
  }
}

=== FILE: remote.dfy ===
/** The cloud services the add-on talks to, reduced to what the add-on can
    observe of them: the job ids of the Batch account with the ids of the tasks added
    to each job, the storage containers, the pool ids with their target node
    counts, and the blob names in the configured asset container. Every SDK
    call is an operation on this record; whether it fails is decided by a
    parameter of the caller. */
module Remote {

  datatype RemoteState = RemoteState(
    jobs: set<string>,
    tasks: map<string, seq<string>>,
    containers: set<string>,
    pools: set<string>,
    targets: map<string, int>,
    blobs: set<string>)

  /** `create_container(name, fail_on_exist=False)`: idempotent. */
  function CreateContainer(r: RemoteState, name: string): (r': RemoteState)
    ensures r'.containers == r.containers + {name}
    ensures r' == r.(containers := r'.containers)
  {
    r.(containers := r.containers + {name})
  }

  /** `delete_container(name, fail_not_exist=False)`. */
  function DeleteContainer(r: RemoteState, name: string): (r': RemoteState)
    ensures r'.containers == r.containers - {name}
    ensures r' == r.(containers := r'.containers)
  {
    r.(containers := r.containers - {name})
  }

  /** `job.add`: a new job with no tasks. */
  function AddJob(r: RemoteState, id: string): (r': RemoteState)
    ensures r'.jobs == r.jobs + {id} && r'.tasks == r.tasks[id := []]
    ensures r' == r.(jobs := r'.jobs, tasks := r'.tasks)
  {
    r.(jobs := r.jobs + {id}, tasks := r.tasks[id := []])
  }

  /** `job.delete`: the job and its tasks are gone. */
  function DeleteJob(r: RemoteState, id: string): (r': RemoteState)
    ensures r'.jobs == r.jobs - {id} && id !in r'.tasks
    ensures forall j :: j in r.tasks && j != id ==> j in r'.tasks && r'.tasks[j] == r.tasks[j]
    ensures r' == r.(jobs := r'.jobs, tasks := r'.tasks)
  {
    r.(jobs := r.jobs - {id}, tasks := map j | j in r.tasks && j != id :: r.tasks[j])
  }

  /** `task.add_collection`: the accepted task ids are appended to the job. */
  function AddTasks(r: RemoteState, job: string, ids: seq<string>): (r': RemoteState)
    requires job in r.tasks
    ensures job in r'.tasks && r'.tasks[job] == r.tasks[job] + ids
    ensures r'.tasks == r.tasks[job := r'.tasks[job]]
    ensures r' == r.(tasks := r'.tasks)
  {
    r.(tasks := r.tasks[job := r.tasks[job] + ids])
  }

  /** `pool.add`. */
  function AddPool(r: RemoteState, id: string, target: int): (r': RemoteState)
    ensures r'.pools == r.pools + {id} && r'.targets == r.targets[id := target]
    ensures r' == r.(pools := r'.pools, targets := r'.targets)
  {
    r.(pools := r.pools + {id}, targets := r.targets[id := target])
  }

  /** `pool.delete`. */
  function DeletePool(r: RemoteState, id: string): (r': RemoteState)
    ensures r'.pools == r.pools - {id}
    ensures r' == r.(pools := r'.pools)
  {
    r.(pools := r.pools - {id})
  }

  /** `pool.resize` to a new target node count. */
  function ResizePool(r: RemoteState, id: string, target: int): (r': RemoteState)
    ensures r'.targets == r.targets[id := target]
    ensures r' == r.(targets := r'.targets)
  {
    r.(targets := r.targets[id := target])
  }

  /** Deleting a job just added leaves the jobs as they were when it was not
      there before. */
  lemma DeleteUndoesAddJob(r: RemoteState, id: string)
    requires id !in r.jobs && id !in r.tasks
    ensures DeleteJob(AddJob(r, id), id) == r
  {
    var r' := DeleteJob(AddJob(r, id), id);
    assert r'.tasks == r.tasks;
  }

  /** Deleting a container just created restores the containers when it was
      not there before. */
  lemma DeleteUndoesCreateContainer(r: RemoteState, name: string)
    requires name !in r.containers
    ensures DeleteContainer(CreateContainer(r, name), name) == r
  {
  }
}
